=== FILE: README.md ===
# CivicFix complaint lifecycle in Dafny

CivicFix is an ASP.NET MVC application in which citizens report civic
problems (potholes, broken streetlights, sewer lids). The problems are routed
to a city department and handled by technicians. Department managers and
administrators oversee the work. This project models the business logic that
the application writes inline in its controllers, over the entity tables of
its database context. It proves the guards, effects and invariants of that
logic.

The database is the class `Store.Db`. It has one sequence field per table:

- users;
- complaints;
- assignment records;
- comments and their attachments;
- ratings;
- technician photos;
- badges;
- departments;
- problem-type mappings.

It also has a shared key counter.

Every controller action is modelled in two layers:

- A specification function (`AdminActions.AdminAssigned`,
  `ComplaintActions.RateResult`, …). It maps the tables before the call to
  the tables after it and an `Outcome`: `Ok`, or `Rejected(error)` with the
  same error the controller reports.
- A method of the same name as the action (`AdminActions.Assign`,
  `ComplaintActions.Rate`, …). It changes the `Db` in place. Its
  postcondition ties the new state and the outcome to the specification
  function, and it keeps the database invariant `Db.Valid()`.

Lemmas beside each function state what the action does:

- which refusals happen, in which order;
- that a refusal changes nothing;
- the exact rows written and that nothing else changes;
- that `Store.Consistent` is preserved.

`Store.Consistent` includes the following:

- issued keys;
- distinct complaint keys;
- distinct user keys;
- unique e-mail addresses;
- at most one rating per complaint (the unique index);
- ratings only by the reporter;
- at most one active assignment record per complaint;
- stored badges agreeing with points;
- positive badge thresholds.

Several loops in the source work on a local list:

- the deactivation foreach of the assignment actions;
- the badge foreach;
- the bulk role update;
- the unassignment foreach of `DeleteUser`;
- the attachment loop.

Each of these is a separate method with a `while` loop, proved against a
function.

Modules:

| module | models |
|---|---|
| `Wrappers`, `Text`, `Collections` | `Option`, `string.IsNullOrWhiteSpace`/`Trim`/`ToLower`, and `Where`/`Count`/`FirstOrDefault`/`OrderBy` (a stable sort) |
| `Entities` | the entity records, `ComplaintStatus`, roles, the errors the actions report |
| `Badges` | `ComputeBadgeLevel`'s result over a badge table |
| `Routing` | the problem-type lookup of a submission |
| `Ledger` | the assignment ledger: deactivation of earlier records, one active record per complaint |
| `Seed` | the seeded badges, departments and mappings, and the delete behaviour of each relationship |
| `Store` | the tables, their invariant, the `Db` class and its shared writes |
| `ComplaintActions` | `ComplaintController`: `Create`, `ComputeBadgeLevel`, `Rate`, `UpdateStatus` |
| `AdminActions` | `AdminController`: `IsValidStatusTransition`, `UpdateStatus`, `Assign`, `DeleteComplaint` |
| `TechnicianActions` | `TechnicianController`: `Dashboard`, `UploadPhotos`, `MarkAsFixed`, `AvailableWork` |
| `DepartmentActions` | `DepartmentController`: `Index`, `UpdateStatus`, `Assign` |
| `RoleActions` | `RoleController`: `UpdateRole`, `BulkUpdateRoles`, `DeleteUser` |
| `CommentActions` | `CommentController`: `Create`, `GetComments`, `IsValidFileType` |
| `AccountActions` | `AccountController`: `Register`, the `TechnicianLogin` gate |
| `Scoreboards` | the citizen and technician scoreboards |

Inputs that the source takes from its environment are parameters:

- the clock, as an integer count of `DateTime` ticks;
- the caller's id, name and role claims;
- the paths uploaded files are stored under;
- the password hash of a new account;
- the verdict of the password verifier.

## Model

| member | source | states |
|---|---|---|
| Entities.FindComplaint | CivicComplaintSystem/Controllers/AdminController.cs:170 | the position found holds a complaint with that key; None exactly when no complaint has it |
| Entities.FindUser | CivicComplaintSystem/Controllers/RoleController.cs:75 | the position found holds a user with that key; None exactly when no user has it; with distinct user keys it is the only position with that key |
| Entities.OpenWorkload | CivicComplaintSystem/Controllers/AdminController.cs:236-238 | the Pending/InProgress count of a technician is zero exactly when every complaint assigned to them is Fixed |
| Entities.StatusCountsPartition | CivicComplaintSystem/Models/Complaint.cs:6-11 | the Pending, InProgress and Fixed counts of any complaint list add up to its length |
| Entities.CountStatus | CivicComplaintSystem/Controllers/TechnicianController.cs:35-37 | the count of complaints with a status is at most the list length, zero exactly when none has it, and the length exactly when all have it |
| Entities.CountStatusIsCount | CivicComplaintSystem/Controllers/TechnicianController.cs:35-37 | `Count(c => c.Status == s)` over a list is the number of its elements with that status |
| Entities.SelectionStatusCount | CivicComplaintSystem/Controllers/TechnicianController.cs:25-37 | counting a status in any reordering of a `Where` selection gives the number of the original elements that pass both the selection and the status test |
| Entities.NewerFirstIsTotalPreorder | CivicComplaintSystem/Controllers/TechnicianController.cs:29 | newest-first by `CreatedAt` is a total preorder, which the sorts of the complaint lists require |
| Text.IsBlank | CivicComplaintSystem/Controllers/ComplaintController.cs:59 | `string.IsNullOrWhiteSpace`: every character is whitespace (so the empty string is blank) |
| Text.Trim | CivicComplaintSystem/Controllers/CommentController.cs:51 | the trimmed text is no longer than the input, is empty exactly when the input is blank, and otherwise starts and ends with a non-whitespace character |
| Text.TrimIsInfix | CivicComplaintSystem/Controllers/CommentController.cs:51 | the trimmed text is a contiguous part of the input and only whitespace lies outside it |
| Text.ToLowerMeaning | CivicComplaintSystem/Controllers/CommentController.cs:145 | lower-casing keeps the length and leaves no upper-case ASCII letter; each upper-case letter becomes its lower-case partner and every other character stays in place |
| Text.ToLowerIdempotent | CivicComplaintSystem/Controllers/CommentController.cs:145 | lower-casing an already lower-cased type changes nothing |
| Collections.SortBy | CivicComplaintSystem/Controllers/AdminController.cs:126-127 | `OrderBy` returns a permutation of its input, sorted by the key |
| Collections.SortStable | CivicComplaintSystem/Controllers/AdminController.cs:126-127 | elements with equal keys keep their relative order |
| Badges.Ordered | CivicComplaintSystem/Controllers/ComplaintController.cs:280 | the badge query returns every badge, ascending by threshold |
| Badges.BadgeFor | CivicComplaintSystem/Controllers/ComplaintController.cs:278-287 | the level is "Bronze" or the name of a badge whose threshold the points reach |
| Badges.OrderedAscending | CivicComplaintSystem/Controllers/ComplaintController.cs:280 | an already ascending table is returned unchanged |
| Badges.BadgeForIsLastReached | CivicComplaintSystem/Controllers/ComplaintController.cs:281-285 | the level is the name of the last badge whose threshold the points reach; with none reached it is "Bronze" |
| Badges.ReachedIsPrefix | CivicComplaintSystem/Controllers/ComplaintController.cs:280-285 | on an ascending table the badges reached form a prefix |
| Badges.BadgeIsHighestReached | CivicComplaintSystem/Controllers/ComplaintController.cs:280-285 | on an ascending table the level is the name of the highest badge reached, or "Bronze" when none is |
| Badges.ReachedMonotone | CivicComplaintSystem/Controllers/ComplaintController.cs:283-284 | more points never reach fewer badges |
| Badges.BadgeMonotone | CivicComplaintSystem/Controllers/ComplaintController.cs:278-287 | on an ascending table, with `p <= q`, the tier reached at `q` is at least the tier at `p`, and each badge is the name of the highest badge of its tier (the floor at tier 0) |
| ComplaintActions.ComputeBadgeLevel | CivicComplaintSystem/Controllers/ComplaintController.cs:278-287 | the level computed is the badge the points earn in the threshold-ordered table |
| ComplaintActions.LastReached | CivicComplaintSystem/Controllers/ComplaintController.cs:281-286 | the foreach starting from "Bronze" ends with the badge the points earn (loop invariant over the prefix walked) |
| Routing.Route | CivicComplaintSystem/Controllers/ComplaintController.cs:97-99 | a mapping is found exactly when an active mapping has that exact label; it is the first such mapping in table order |
| Routing.RouteFindsUnique | CivicComplaintSystem/Controllers/ComplaintController.cs:97-99 | when no other mapping carries the label of an active mapping, the lookup returns that mapping |
| Routing.DepartmentName | CivicComplaintSystem/Controllers/ComplaintController.cs:125 | the name of the first department with that key, or "Unknown" when no department has it |
| ComplaintActions.Awarded | CivicComplaintSystem/Controllers/ComplaintController.cs:137-143 | awarding points keeps every user's key and e-mail, and keeps every badge in agreement with its points |
| ComplaintActions.Filed | CivicComplaintSystem/Controllers/ComplaintController.cs:78-94 | one complaint is appended under the next key, owned by the caller, Pending, with no department or technician; earlier complaints are kept; only the complaints and the counter change |
| ComplaintActions.AutoAssigned | CivicComplaintSystem/Controllers/ComplaintController.cs:96-134 | routing keeps the users, the reference tables and every complaint's status, and never lowers the counter |
| ComplaintActions.Submit | CivicComplaintSystem/Controllers/ComplaintController.cs:57-146 | succeeds exactly for a non-blank problem type; a refusal changes nothing; success adds one complaint and moves the counter on; the reference tables are kept |
| ComplaintActions.AutoAssignedKeeps | CivicComplaintSystem/Controllers/ComplaintController.cs:101-132 | routing writes only the new complaint's department and update time, the assignment ledger, the comments and the key counter |
| ComplaintActions.AutoAssignedRoutes | CivicComplaintSystem/Controllers/ComplaintController.cs:97-132 | with an active mapping: the department is set, one active record without a technician is appended, and one "System" comment is appended; without one nothing changes |
| ComplaintActions.SubmitEffects | CivicComplaintSystem/Controllers/ComplaintController.cs:57-94 | a blank problem type is refused with no change; otherwise exactly one complaint is appended, owned by the caller, Pending, unassigned, under the next key; only complaints, ledger, comments, users and key counter change |
| ComplaintActions.SubmitRouting | CivicComplaintSystem/Controllers/ComplaintController.cs:97-132 | a hit sets the mapping's department, appends exactly one active record (no technician, assigned by the submitter, the automatic note) and one "System" comment; a miss leaves department, ledger and comments unchanged and is no error |
| ComplaintActions.SubmitAwardsPoints | CivicComplaintSystem/Controllers/ComplaintController.cs:137-143 | with distinct user keys, a successful submission leaves the user table the same length; the submitter's row gains exactly 5 points and the badge those points earn, and every other row is unchanged |
| ComplaintActions.AutoAssignedConsistent | CivicComplaintSystem/Controllers/ComplaintController.cs:101-132 | routing a complaint with no record yet keeps the database consistent |
| ComplaintActions.SubmitConsistent | CivicComplaintSystem/Controllers/ComplaintController.cs:57-146 | a submission keeps the database consistent |
| ComplaintActions.File | CivicComplaintSystem/Controllers/ComplaintController.cs:78-94 | the insert appends the new complaint under the next key |
| ComplaintActions.AutoAssign | CivicComplaintSystem/Controllers/ComplaintController.cs:96-134 | the routing writes made on the database are those of the routing function |
| ComplaintActions.AwardPoints | CivicComplaintSystem/Controllers/ComplaintController.cs:136-143 | the points write on the database is the award function |
| ComplaintActions.Record | CivicComplaintSystem/Controllers/ComplaintController.cs:78-143 | the writes of an accepted submission are the submission's tables |
| ComplaintActions.Create | CivicComplaintSystem/Controllers/ComplaintController.cs:57-146 | the action on the database has the submission's outcome and new tables and keeps the database valid |
| ComplaintActions.FindRating | CivicComplaintSystem/Controllers/ComplaintController.cs:202-203 | finds a rating by that user for that complaint exactly when one exists |
| ComplaintActions.RateResult | CivicComplaintSystem/Controllers/ComplaintController.cs:176-234 | a refusal changes nothing; success needs a score in 1..5, changes only the ratings and adds at most one |
| ComplaintActions.RateRefusals | CivicComplaintSystem/Controllers/ComplaintController.cs:178-199 | refusals in order: score outside 1..5, missing complaint, someone else's complaint, not Fixed; each changes nothing; success writes only ratings |
| ComplaintActions.RateWrites | CivicComplaintSystem/Controllers/ComplaintController.cs:202-230 | an existing rating is refused exactly when `CreatedAt + 24h < now`; otherwise only its score, comment and `LastModifiedAt` change; with none, one rating stamped `now` and without `LastModifiedAt` is appended |
| ComplaintActions.RateConsistent | CivicComplaintSystem/Controllers/ComplaintController.cs:176-234 | rating keeps one rating per complaint and the database consistent; after success the complaint's rating is the caller's, with the new score |
| ComplaintActions.RatingEditedConsistent | CivicComplaintSystem/Controllers/ComplaintController.cs:212-214 | editing the score, comment and `LastModifiedAt` of a rating keeps the database consistent |
| ComplaintActions.RatingAddedConsistent | CivicComplaintSystem/Controllers/ComplaintController.cs:218-227 | appending the reporter's first rating of an existing complaint keeps the database consistent |
| ComplaintActions.Rate | CivicComplaintSystem/Controllers/ComplaintController.cs:176-234 | the action on the database follows the rating function and keeps the database valid |
| ComplaintActions.StatusChangedEffects | CivicComplaintSystem/Controllers/ComplaintController.cs:237-276 | refused with no change exactly when the complaint is missing or a Technician caller is not its assignee; otherwise any status is set from any status, `UpdatedAt` is stamped and exactly one "Status changed from X to Y" comment is appended |
| ComplaintActions.StatusChanged | CivicComplaintSystem/Controllers/ComplaintController.cs:237-276 | a refusal changes nothing; success keeps the number of complaints and adds exactly one comment; the reference tables are kept |
| ComplaintActions.StatusChangedConsistent | CivicComplaintSystem/Controllers/ComplaintController.cs:237-276 | the citizen-path status change keeps the database consistent |
| ComplaintActions.UpdateStatus | CivicComplaintSystem/Controllers/ComplaintController.cs:237-276 | the action on the database follows the status-change function and keeps the database valid |
| AdminActions.IsValidStatusTransition | CivicComplaintSystem/Controllers/AdminController.cs:205-215 | valid exactly when the status moves forward in Pending < InProgress < Fixed: no self-transition, nothing out of Fixed |
| AdminActions.AdminStatusChanged | CivicComplaintSystem/Controllers/AdminController.cs:168-203 | a refusal changes nothing; success needs a valid transition, keeps the number of complaints and adds one comment |
| AdminActions.AdminStatusChangedEffects | CivicComplaintSystem/Controllers/AdminController.cs:168-203 | success exactly for an existing complaint and a valid pair; a refusal changes nothing; success sets status, stamps `UpdatedAt` and appends exactly one Admin comment naming both statuses |
| AdminActions.AdminStatusChangedConsistent | CivicComplaintSystem/Controllers/AdminController.cs:168-203 | the admin status change keeps the database consistent |
| AdminActions.AdminStatusKeepsFixed | CivicComplaintSystem/Controllers/AdminController.cs:176-180 | a Fixed complaint's row is untouched by any admin status request |
| AdminActions.FixedIsFinalForAdmin | CivicComplaintSystem/Controllers/AdminController.cs:212 | once Fixed, any series of admin status requests leaves the complaint's row unchanged |
| AdminActions.UpdateStatus | CivicComplaintSystem/Controllers/AdminController.cs:168-203 | the action on the database follows the admin status function and keeps the database valid |
| Ledger.DeactivateAll | CivicComplaintSystem/Controllers/AdminController.cs:224-231 | the same records in the same order; only the complaint's records lose `IsActive`; other complaints' records are untouched |
| Ledger.DeactivatePrevious | CivicComplaintSystem/Controllers/AdminController.cs:228-231 | the deactivation foreach ends with the deactivated ledger (loop invariant over the prefix walked) |
| Ledger.ReassignedHasOneActive | CivicComplaintSystem/Controllers/AdminController.cs:224-258 | after a reassignment the complaint has exactly one active record, the new one, and no complaint has two |
| Ledger.AppendedFreshHasOneActive | CivicComplaintSystem/Controllers/ComplaintController.cs:104-116 | the first record of a new complaint is its only active record |
| AdminActions.AdminAssigned | CivicComplaintSystem/Controllers/AdminController.cs:218-283 | a refusal changes nothing; success keeps the users and the number of complaints, adds one assignment record and one comment |
| AdminActions.AdminAssignGate | CivicComplaintSystem/Controllers/AdminController.cs:233-244 | with the complaint present, refused exactly when a named technician has a Pending/InProgress complaint (the target included); a refusal leaves the store unchanged |
| AdminActions.AdminAssignWrites | CivicComplaintSystem/Controllers/AdminController.cs:224-280 | success: the complaint's earlier records are switched off, other records are untouched and one active record is appended; the department and technician are set to the arguments (null unassigns); one Admin comment is added; nothing else changes |
| AdminActions.AdminAssignedConsistent | CivicComplaintSystem/Controllers/AdminController.cs:218-283 | assignment keeps the database consistent and leaves the new record as the complaint's only active one |
| AdminActions.Assign | CivicComplaintSystem/Controllers/AdminController.cs:218-283 | the action on the database follows the admin assignment function and keeps the database valid; the deactivation runs before the gate |
| AdminActions.ComplaintDeletedEffects | CivicComplaintSystem/Controllers/AdminController.cs:485-505 | a missing complaint is reported with no change; otherwise exactly the complaint and the comments, ratings, records and photos with its key, and the attachments of those comments, are removed; nothing else changes |
| AdminActions.ComplaintDeleted | CivicComplaintSystem/Controllers/AdminController.cs:485-513 | a refusal changes nothing; success removes exactly one complaint and keeps the users and reference tables |
| AdminActions.DeletedKeysIssued | CivicComplaintSystem/Controllers/AdminController.cs:496-505 | the rows left carry only issued keys |
| AdminActions.DeletedStillDistinct | CivicComplaintSystem/Controllers/AdminController.cs:496-505 | complaint keys stay distinct, with one rating and one active record per complaint |
| AdminActions.DeletedRatingsByReporters | CivicComplaintSystem/Controllers/AdminController.cs:496-505 | the remaining ratings still belong to remaining complaints of their raters |
| AdminActions.ComplaintDeletedConsistent | CivicComplaintSystem/Controllers/AdminController.cs:485-513 | deleting a complaint keeps the database consistent |
| AdminActions.RemoveRows | CivicComplaintSystem/Controllers/AdminController.cs:496-505 | the `RemoveRange` calls and the cascades leave the remaining tables |
| AdminActions.DeleteComplaint | CivicComplaintSystem/Controllers/AdminController.cs:485-513 | the action on the database follows the deletion function and keeps the database valid |
| Scoreboards.CitizenRowsMeaning | CivicComplaintSystem/Controllers/AdminController.cs:104-107 | a row is on the citizen scoreboard exactly when it is the row of a user whose role is "User" |
| Scoreboards.CitizenScoreboard | CivicComplaintSystem/Controllers/AdminController.cs:101-110 | a permutation of the citizens' rows, ordered by points descending |
| Scoreboards.DepartmentLabel | CivicComplaintSystem/Controllers/AdminController.cs:121 | the name of the technician's department, or "Unassigned" without one |
| Scoreboards.TechnicianRowsMeaning | CivicComplaintSystem/Controllers/AdminController.cs:116-125 | a row is on the technician scoreboard exactly when it is the row of a Technician: name, e-mail, department label, Fixed count and Pending/InProgress count |
| Scoreboards.TechnicianScoreboard | CivicComplaintSystem/Controllers/AdminController.cs:113-130 | the technicians' rows ordered by completed descending, then pending ascending; a permutation of the rows |
| TechnicianActions.AssignedWork | CivicComplaintSystem/Controllers/TechnicianController.cs:25-30 | a permutation of the complaints assigned to the technician, newest first |
| TechnicianActions.Dashboard | CivicComplaintSystem/Controllers/TechnicianController.cs:21-42 | the total is the number of complaints assigned to the technician; Pending, InProgress and Fixed are each the number of those complaints with that status, and they add up to the total |
| TechnicianActions.FindAssigned | CivicComplaintSystem/Controllers/TechnicianController.cs:70-71 | finds a complaint with that key assigned to the caller exactly when one exists |
| TechnicianActions.PhotosUploaded | CivicComplaintSystem/Controllers/TechnicianController.cs:66-142 | a refusal changes nothing; success appends two photos and keeps the users and reference tables |
| TechnicianActions.PhotosUploadedEffects | CivicComplaintSystem/Controllers/TechnicianController.cs:66-142 | refused with no change unless the complaint is assigned to the caller and both photos are present; success appends exactly two records typed "WorkInProgress" and "Fixed" and sets InProgress from any status, Fixed included |
| TechnicianActions.PhotosUploadedConsistent | CivicComplaintSystem/Controllers/TechnicianController.cs:111-134 | the upload keeps the database consistent |
| TechnicianActions.UploadPhotos | CivicComplaintSystem/Controllers/TechnicianController.cs:66-142 | the action on the database follows the upload function and keeps the database valid |
| TechnicianActions.MarkedFixedEffects | CivicComplaintSystem/Controllers/TechnicianController.cs:146-174 | succeeds exactly when the complaint is assigned to the caller and has at least two photos; a refusal changes nothing; success only sets Fixed and stamps `UpdatedAt`, with no transition check |
| TechnicianActions.MarkedFixed | CivicComplaintSystem/Controllers/TechnicianController.cs:146-174 | a refusal changes nothing; success needs at least two photos of the complaint and changes only the complaints |
| TechnicianActions.MarkedFixedConsistent | CivicComplaintSystem/Controllers/TechnicianController.cs:168-171 | marking fixed keeps the database consistent |
| TechnicianActions.MarkAsFixed | CivicComplaintSystem/Controllers/TechnicianController.cs:146-174 | the action on the database follows the mark-fixed function and keeps the database valid |
| TechnicianActions.PhotoCountGrows | CivicComplaintSystem/Controllers/TechnicianController.cs:159-163 | appending photos of a complaint raises its photo count by their number |
| TechnicianActions.UploadEnablesFix | CivicComplaintSystem/Controllers/TechnicianController.cs:127-128 | after a successful upload the same technician's `MarkAsFixed` succeeds |
| TechnicianActions.AvailableWorkMeaning | CivicComplaintSystem/Controllers/TechnicianController.cs:178-205 | a permutation of the unassigned Pending complaints of the technician's department, each once, newest first; empty without a department |
| TechnicianActions.AvailableWork | CivicComplaintSystem/Controllers/TechnicianController.cs:178-205 | every complaint listed is stored, unassigned and Pending |
| DepartmentActions.ManagerDepartment | CivicComplaintSystem/Controllers/DepartmentController.cs:23-30 | a department exactly when the caller exists, has a department key and that department exists; then it is the caller's department |
| DepartmentActions.DepartmentComplaints | CivicComplaintSystem/Controllers/DepartmentController.cs:34-38 | a permutation of the complaints routed to the department, holding exactly them, newest first |
| DepartmentActions.ViewOf | CivicComplaintSystem/Controllers/DepartmentController.cs:34-44 | the department's complaints, with each status total the number of them with that status, the totals adding up to their number |
| DepartmentActions.DepartmentIndex | CivicComplaintSystem/Controllers/DepartmentController.cs:20-45 | forbidden without a department; otherwise a permutation of the department's complaints, newest first, and each of the Pending, InProgress and Fixed totals is the number of the department's complaints with that status |
| DepartmentActions.ManagerStatusChangedEffects | CivicComplaintSystem/Controllers/DepartmentController.cs:48-88 | forbidden without a department; not found for a missing or foreign complaint; both change nothing; otherwise any status is set and one "… by Department Manager" comment is appended |
| DepartmentActions.ManagerStatusChanged | CivicComplaintSystem/Controllers/DepartmentController.cs:48-88 | a refusal changes nothing; success keeps the number of complaints and adds one comment |
| DepartmentActions.ManagerStatusChangedConsistent | CivicComplaintSystem/Controllers/DepartmentController.cs:66-85 | the manager status change keeps the database consistent |
| DepartmentActions.UpdateStatus | CivicComplaintSystem/Controllers/DepartmentController.cs:48-88 | the action on the database follows the manager status function and keeps the database valid |
| DepartmentActions.ManagerAssignedEffects | CivicComplaintSystem/Controllers/DepartmentController.cs:91-155 | same refusals, and no workload gate; success switches off earlier records, appends one active record with the manager's department, changes only the complaint's technician and `UpdatedAt`, and appends one comment |
| DepartmentActions.ManagerAssigned | CivicComplaintSystem/Controllers/DepartmentController.cs:91-155 | a refusal changes nothing; success keeps the number of complaints and adds one record and one comment |
| DepartmentActions.ManagerAssignedConsistent | CivicComplaintSystem/Controllers/DepartmentController.cs:109-152 | assignment keeps the database consistent and leaves exactly one active record for the complaint |
| DepartmentActions.Assign | CivicComplaintSystem/Controllers/DepartmentController.cs:91-155 | the action on the database follows the manager assignment function and keeps the database valid |
| RoleActions.IsAssignableRole | CivicComplaintSystem/Controllers/RoleController.cs:82-83 | a role is accepted exactly when it is "User" or "Technician" |
| RoleActions.RoleUpdatedEffects | CivicComplaintSystem/Controllers/RoleController.cs:73-94 | missing user, then a role outside {"User","Technician"}, each with no change; otherwise, with distinct user keys, the user with that key takes the role and department and every other row is unchanged |
| RoleActions.RoleUpdated | CivicComplaintSystem/Controllers/RoleController.cs:73-94 | a refusal changes nothing; success needs an assignable role and changes only the users, keeping their number |
| RoleActions.RoleUpdatedConsistent | CivicComplaintSystem/Controllers/RoleController.cs:88-91 | a role change keeps the database consistent |
| RoleActions.UpdateRole | CivicComplaintSystem/Controllers/RoleController.cs:73-94 | the action on the database follows the role function and keeps the database valid |
| RoleActions.RolesSet | CivicComplaintSystem/Controllers/RoleController.cs:126-130 | selected users take the role and department; all other users are unchanged |
| RoleActions.SetRoles | CivicComplaintSystem/Controllers/RoleController.cs:126-130 | the foreach ends with every selected user updated (loop invariant over the prefix walked) |
| RoleActions.RolesBulkUpdatedEffects | CivicComplaintSystem/Controllers/RoleController.cs:108-140 | no matching user fails first, then an invalid role, each with no change; otherwise every selected user takes role and department and nothing else changes |
| RoleActions.RolesBulkUpdated | CivicComplaintSystem/Controllers/RoleController.cs:108-140 | a refusal changes nothing; success needs an assignable role and changes only the users, keeping their number |
| RoleActions.RolesBulkUpdatedConsistent | CivicComplaintSystem/Controllers/RoleController.cs:126-132 | the bulk update keeps the database consistent |
| RoleActions.BulkUpdateRoles | CivicComplaintSystem/Controllers/RoleController.cs:108-140 | the action on the database follows the bulk function and keeps the database valid |
| RoleActions.UnassignAll | CivicComplaintSystem/Controllers/RoleController.cs:168-176 | the complaints assigned to the user lose their assignee (set to none); no other field and no other complaint changes |
| RoleActions.UnassignComplaints | CivicComplaintSystem/Controllers/RoleController.cs:173-176 | the unassignment foreach ends with every complaint assigned to the user cleared and the rest unchanged (loop invariant) |
| RoleActions.UserDeletedGuard | CivicComplaintSystem/Controllers/RoleController.cs:147-164 | missing user reported; a Technician with a Pending/InProgress complaint is refused; both remove nothing; every other user is deleted |
| RoleActions.DeleteGuardIsAssignGate | CivicComplaintSystem/Controllers/RoleController.cs:156-158 | the delete guard refuses a technician exactly when the admin assignment gate refuses them (AdminController.cs:236-238) |
| RoleActions.UserDeleted | CivicComplaintSystem/Controllers/RoleController.cs:143-191 | a refusal changes nothing; success removes one user, and no remaining complaint was reported by or is assigned to them |
| RoleActions.OwnKeys | CivicComplaintSystem/Controllers/RoleController.cs:167 | a key is among the user's complaint keys exactly when they reported that complaint |
| RoleActions.UserDeletedComplaints | CivicComplaintSystem/Controllers/RoleController.cs:167-178 | the remaining complaints are exactly the other reporters' ones, with the user's assignment cleared |
| RoleActions.UserDeletedRows | CivicComplaintSystem/Controllers/RoleController.cs:167-183 | exactly the user row, their ratings, their comments and those on their complaints, the attachments of those comments, and the records and photos of their complaints go; reference tables stay |
| RoleActions.UserDeletedAttachments | CivicComplaintSystem/Controllers/RoleController.cs:178-183 | the cascade removes exactly the attachments of comments the user wrote or that sit on their complaints |
| RoleActions.UserDeletedMultiplicity | CivicComplaintSystem/Controllers/RoleController.cs:178-183 | every rating, comment, assignment record, photo and attachment that remains occurs as often as before; removed ones occur no more |
| RoleActions.UserDeletedAttachmentCounts | CivicComplaintSystem/Data/ApplicationDbContext.cs:46-50 | an attachment keeps its multiplicity unless a comment with its key was written by the user or sits on their complaint, and then it occurs no more |
| RoleActions.DroppedCommentKey | CivicComplaintSystem/Controllers/RoleController.cs:167-180 | a comment key is removed exactly when a comment with that key was written by the user or sits on one of their complaints |
| RoleActions.UserDeletedKeysIssued | CivicComplaintSystem/Controllers/RoleController.cs:178-183 | the rows left carry only issued keys |
| RoleActions.UserDeletedStillDistinct | CivicComplaintSystem/Controllers/RoleController.cs:178-183 | complaint keys stay distinct, with one rating and one active record per complaint |
| RoleActions.UserDeletedUsers | CivicComplaintSystem/Controllers/RoleController.cs:181 | remaining users keep distinct keys, unique e-mails and agreeing badges |
| RoleActions.UserDeletedRemovesUser | CivicComplaintSystem/Controllers/RoleController.cs:181 | with distinct user keys, the user table loses exactly one row: a row remains exactly when it was there and has another key |
| RoleActions.UserDeletedRatingsByReporters | CivicComplaintSystem/Controllers/RoleController.cs:178-183 | remaining ratings still belong to remaining complaints of their raters |
| RoleActions.UserDeletedConsistent | CivicComplaintSystem/Controllers/RoleController.cs:143-191 | deleting a user keeps the database consistent |
| RoleActions.RemoveUserRows | CivicComplaintSystem/Controllers/RoleController.cs:167-183 | the foreach, the `RemoveRange` calls and the cascades leave the user's remaining tables |
| RoleActions.DeleteUser | CivicComplaintSystem/Controllers/RoleController.cs:143-191 | the action on the database follows the deletion function and keeps the database valid |
| CommentActions.IsValidFileType | CivicComplaintSystem/Controllers/CommentController.cs:142-146 | a file type is allowed exactly when its lower-cased content type is image/jpeg, image/png, image/gif or application/pdf |
| CommentActions.FileTypeIgnoresCase | CivicComplaintSystem/Controllers/CommentController.cs:142-146 | the file-type check gives the same verdict on a content type and on its lower-cased form |
| CommentActions.FirstFew | CivicComplaintSystem/Controllers/CommentController.cs:65 | `Take(3)`: the first `min(n, 3)` of the `n` files posted |
| CommentActions.AttachmentsFor | CivicComplaintSystem/Controllers/CommentController.cs:65-89 | at most three rows, all on the new comment, stamped now |
| CommentActions.AttachmentsForMeaning | CivicComplaintSystem/Controllers/CommentController.cs:65-89 | the rows are exactly those of the non-empty, allowed-type files among the first three posted |
| CommentActions.SaveAttachments | CivicComplaintSystem/Controllers/CommentController.cs:65-89 | the attachment loop ends with the rows of the storable files (loop invariant) |
| CommentActions.CommentRefusals | CivicComplaintSystem/Controllers/CommentController.cs:25-43 | blank or over-1000 content (measured before trimming), then missing complaint, then a "User" on another's complaint; each changes nothing |
| CommentActions.CommentCreated | CivicComplaintSystem/Controllers/CommentController.cs:23-95 | a refusal changes nothing; success needs non-blank content of at most 1000 characters and adds exactly one comment |
| CommentActions.CommentWrites | CivicComplaintSystem/Controllers/CommentController.cs:45-57 | a posted comment gets the next key and the trimmed, non-empty content; a "User"'s comment is always visible, others' as requested |
| CommentActions.AttachmentWrites | CivicComplaintSystem/Controllers/CommentController.cs:59-92 | at most three attachments, all on the new comment; only comments, attachments and the key counter change |
| CommentActions.PostedConsistent | CivicComplaintSystem/Controllers/CommentController.cs:56-92 | saving the comment and its attachments keeps the database consistent |
| CommentActions.CommentCreatedConsistent | CivicComplaintSystem/Controllers/CommentController.cs:23-95 | the comment action keeps the database consistent |
| CommentActions.Post | CivicComplaintSystem/Controllers/CommentController.cs:56-92 | the two saves leave the posted tables |
| CommentActions.Create | CivicComplaintSystem/Controllers/CommentController.cs:23-95 | the action on the database follows the comment function and keeps the database valid |
| CommentActions.OlderFirstIsTotalPreorder | CivicComplaintSystem/Controllers/CommentController.cs:119 | oldest-first by `CreatedAt` is a total preorder |
| CommentActions.VisibleComments | CivicComplaintSystem/Controllers/CommentController.cs:115-119 | a permutation of the complaint's comments the role may see (a "User" only visible ones), each once, oldest first |
| CommentActions.WithAttachments | CivicComplaintSystem/Controllers/CommentController.cs:118 | each comment is paired with exactly the attachments on it, all comments kept in order |
| CommentActions.Comments | CivicComplaintSystem/Controllers/CommentController.cs:98-140 | not found exactly when the complaint is missing; access denied exactly for a "User" on another's complaint; otherwise the visible thread, each comment once, oldest first, with its attachments |
| AccountActions.RegisterEffects | CivicComplaintSystem/Controllers/AccountController.cs:28-55 | a blank field is refused first, then a registered e-mail, each with no change; otherwise one user with 0 points, "Bronze" and role "User" is appended under the next key and nothing else changes |
| AccountActions.Registered | CivicComplaintSystem/Controllers/AccountController.cs:28-55 | a refusal changes nothing; success adds exactly one user |
| AccountActions.RegisteredConsistent | CivicComplaintSystem/Controllers/AccountController.cs:36-52 | registration keeps e-mails unique and the database consistent; the initial "Bronze" is the badge 0 points earn |
| AccountActions.Enroll | CivicComplaintSystem/Controllers/AccountController.cs:42-52 | the insert appends the new user under the next key |
| AccountActions.Register | CivicComplaintSystem/Controllers/AccountController.cs:28-55 | the action on the database follows the registration function and keeps the database valid |
| AccountActions.TechnicianSignIn | CivicComplaintSystem/Controllers/AccountController.cs:147-182 | refused for a blank e-mail or password; refused when no user has that e-mail and role "Technician"; otherwise the first such user signs in exactly when the verifier accepts the password, with that user's key and name |
| Seed.SeedThresholds | CivicComplaintSystem/Data/ApplicationDbContext.cs:94-100 | the seeded thresholds rise strictly and are positive |
| Seed.SeedOrdered | CivicComplaintSystem/Data/ApplicationDbContext.cs:94-100 | the badge query returns the seeded table as seeded |
| Seed.SeedBadgeLevels | CivicComplaintSystem/Data/ApplicationDbContext.cs:94-100 | for every point count: Bronze below 30, Silver from 30, Gold from 60, Platinum from 100, Diamond from 150 |
| Seed.SeedMappingsConsistent | CivicComplaintSystem/Data/ApplicationDbContext.cs:103-117 | seeded labels are distinct and every mapping names a seeded department |
| Seed.SeedRouting | CivicComplaintSystem/Data/ApplicationDbContext.cs:110-117 | each seeded label routes to its own mapping: Pothole, Streetlight, Bridges to 1; Traffic Signal to 2; Water Disposal, Sewer Lids to 3 |
| Seed.SeedRoutingMisses | CivicComplaintSystem/Data/ApplicationDbContext.cs:110-117 | a label outside the seeded six routes nowhere |
| Seed.SeedDepartmentNames | CivicComplaintSystem/Data/ApplicationDbContext.cs:103-107 | departments 1, 2, 3 are named "Public Works", "Traffic Management", "Utilities"; any other key gives "Unknown" |
| Seed.SchemaDependents | CivicComplaintSystem/Migrations/20251010222312_CommentsAndMessagingSystem.cs:172-187 | the dependents over the whole schema are those of the configured relationships followed by those of the three relationships the migration creates by convention |
| Seed.DependentsMeaning | CivicComplaintSystem/Data/ApplicationDbContext.cs:28-92 | the dependents collected are exactly those of relationships from that table with that delete behaviour |
| Seed.ComplaintDeleteBehavior | CivicComplaintSystem/Data/ApplicationDbContext.cs:40-92 | a complaint's deletion cascades to comments, assignment history and photos and is restricted by its rating |
| Seed.CommentDeleteBehavior | CivicComplaintSystem/Data/ApplicationDbContext.cs:46-50 | a comment's deletion cascades to attachments and nothing restricts it |
| Seed.UserDeleteBehavior | CivicComplaintSystem/Data/ApplicationDbContext.cs:28-86 | a user's deletion cascades to reported complaints; it is restricted by assigned complaints, ratings and assignments made, and blocked (no action) by assignment records naming them as technician |
| Seed.DepartmentDeleteBehavior | CivicComplaintSystem/Data/ApplicationDbContext.cs:64-74 | a department's deletion cascades to mappings, is restricted by routed complaints, and is blocked (no action) by assignment records and users naming it |
| Seed.BlockingRelationships | CivicComplaintSystem/Migrations/20251010222312_CommentsAndMessagingSystem.cs:311-316 | a table blocks a deletion (Restrict or no action) exactly when a relationship from the deleted table to it has a delete behaviour other than Cascade |
| Store.FloorAtZero | CivicComplaintSystem/Controllers/ComplaintController.cs:281 | with positive thresholds, 0 points earn "Bronze" |
| Store.InitialConsistent | CivicComplaintSystem/Data/ApplicationDbContext.cs:94-117 | the freshly seeded database is consistent |
| Store.EditComplaintsConsistent | CivicComplaintSystem/Controllers/TechnicianController.cs:131-132 | editing complaints without touching keys or reporters keeps consistency |
| Store.AddComplaintConsistent | CivicComplaintSystem/Controllers/ComplaintController.cs:93-94 | appending a complaint under the next key keeps consistency |
| Store.RatedByReporter | CivicComplaintSystem/Controllers/ComplaintController.cs:191-194 | a rating on an existing complaint was given by its reporter |
| Store.EditUsersConsistent | CivicComplaintSystem/Controllers/RoleController.cs:88-91 | replacing users with same e-mails and agreeing badges keeps consistency |
| Store.EditRatingsConsistent | CivicComplaintSystem/Controllers/ComplaintController.cs:212-227 | replacing the ratings with issued, one-per-complaint ratings by reporters keeps consistency |
| Store.WithComment | CivicComplaintSystem/Controllers/AdminController.cs:188-200 | one visible comment with the given complaint, author, role and content is appended after the earlier ones; with issued keys it is the only comment whose key is the old counter, and keys stay issued; nothing else but the counter changes |
| Store.WithCommentConsistent | CivicComplaintSystem/Controllers/AdminController.cs:188-200 | appending such a comment keeps consistency |
| Store.WithStatus | CivicComplaintSystem/Controllers/AdminController.cs:182-183 | complaint `k` takes the new status and `UpdatedAt` with every other field kept; all other complaints and tables are unchanged |
| Store.AssignmentConsistent | CivicComplaintSystem/Controllers/AdminController.cs:224-263 | a reassignment keeps consistency and leaves one active record for the complaint |
| Store.StatusChangeConsistent | CivicComplaintSystem/Controllers/AdminController.cs:182-200 | a status change with its comment keeps consistency |
| Store.Db.constructor | CivicComplaintSystem/Data/ApplicationDbContext.cs:94-117 | the new database holds the seed tables and no other rows, and is valid |
| Store.Db.SetStatus | CivicComplaintSystem/Controllers/AdminController.cs:182-183 | only complaint `k`'s status and `UpdatedAt` change on the database |
| Store.Db.SaveAssignment | CivicComplaintSystem/Controllers/AdminController.cs:258-263 | the database holds the reassigned ledger and the updated complaint |
| Store.Db.AddComment | CivicComplaintSystem/Controllers/AdminController.cs:199-200 | the database gains exactly the new comment under the next key |

## Left out

- Password hashing and verification are not modelled. A new account's hash is an input, and `TechnicianLogin` takes the verifier as a function parameter.
- Cookie sign-in, claims and the `[Authorize]` attributes are framework authentication. The caller's id, name and role arrive as parameters. `Login`, `AdminLogin`, `Logout` and `Profile` are out.
- Files are saved to disk with `Guid` names. The stored path of each uploaded file is an input. A failure while saving a file, or any other exception caught by a `catch`, is not modelled.
- Foreign-key failures at save time are not modelled. For example, deleting a user who made assignment records on other users' complaints, or who is named as technician on an assignment record, fails in the database because of the Restrict and no-action relationships. The model always takes the success path. The delete behaviours themselves are stated in `Seed`.
- Each action is one atomic step. The source sometimes saves twice (comment after status, attachments after comment, points after routing), and a failure between two saves is not modelled.
- `Complaint.RatingId` is not modelled. The source assigns it before the rating's key exists. The link from a complaint to its rating is the rating's complaint key.
- String comparison is exact. SQL Server compares e-mail addresses, labels and roles case-insensitively by its collation. Its `=` also ignores trailing spaces, so `"a@b.com "` matches `"a@b.com"` in the registration e-mail check (AccountController.cs:36-38), the technician sign-in lookup (AccountController.cs:155) and the problem-type lookup of auto-assignment (ComplaintController.cs:97-99). The model treats such strings as different.
- Column widths are not modelled. The `[MaxLength]` attributes become `nvarchar(n)` columns, and the actions bind raw string parameters without checking their length. On SQL Server, a save that writes a longer string fails as a whole. The model instead accepts the following and writes the rows:
  - `Register` with a name over 100 characters (`Users.Name`);
  - `Create` with a problem type over 50, a description over 1000 or an address over 255 characters (`Complaints.ProblemType`, `Description`, `Address`);
  - `Rate` with a comment over 1000 characters (`ComplaintRatings.Comment`);
  - the admin and department-manager `Assign` with a note over 500 characters (`ComplaintAssignments.Note`);
  - comment attachments with a file name over 255 or a content type over 100 characters (`CommentAttachments.FileName`, `ContentType`). Here the comment is already saved, and only the attachments would fail.
- `Text.ToLower` lower-cases ASCII letters only.
- `string.Length` counts UTF-16 code units. The model counts characters.
- `OrderBy` on the database is modelled as a stable sort in table order. SQL gives no order to ties.
- Latitudes and longitudes are opaque `GeoPoint` values. The map controller, exports, list views with filtering and pagination, role statistics, `GetDepartments`, `GetTechniciansByDepartment`, `CreateTechnician`, `Details` pages and the Home and Badge controllers are not part of this model.
- Integers are unbounded. Points and keys never overflow in the model.
- Keys come from one counter shared by all tables (`nextId`). The database has one identity column per table, so the model's key values differ from the stored ones; only their freshness and distinctness are modelled.
- `Program.cs` startup seeding and the migrations are not modelled. The unique index on the rating's complaint key appears as the invariant `Store.OneRatingPerComplaint`.

=== FILE: account_actions.dfy ===
/** Account registration and the technicians' sign-in gate. Password
    hashing and verification are outside the model: the hash of a new
    password and the verdict of the verifier are inputs. */
module AccountActions {
  import opened Wrappers
  import opened Text
  import opened Collections
  import opened Entities
  import opened Badges
  import opened Store

  /** The row `Register` inserts: no points, the floor badge, the default
      role "User" and no department. */
  function NewUser(t: Tables, name: string, email: string, passwordHash: string): User {
    User(t.nextId, name, email, passwordHash, 0, Some(Floor), UserRole, None)
  }

  /** `Register`. */
  function Registered(t: Tables, name: string, email: string, password: string, passwordHash: string): (r: Step)
    ensures r.outcome.Rejected? ==> r.tables == t
    ensures ReferenceKept(t, r.tables)
    ensures r.outcome.Ok? ==> |r.tables.users| == |t.users| + 1
  {
    if IsBlank(name) || IsBlank(email) || IsBlank(password) then Step(t, Rejected(FieldsRequired))
    else if FirstIndex(t.users, (u: User) => u.email == email).Some? then Step(t, Rejected(EmailAlreadyRegistered))
    else Step(Enrolled(t, name, email, passwordHash), Ok)
  }

  /** The tables with the new user appended under the next key. */
  function Enrolled(t: Tables, name: string, email: string, passwordHash: string): Tables {
    t.(users := t.users + [NewUser(t, name, email, passwordHash)], nextId := t.nextId + 1)
  }

  /** A blank name, e-mail or password is reported first, then an e-mail
      that is already registered; both change nothing. Otherwise one user is
      added under the next key with zero points, the "Bronze" badge and the
      role "User", and no other table changes. */
  lemma RegisterEffects(t: Tables, name: string, email: string, password: string, passwordHash: string)
    ensures var r := Registered(t, name, email, password, passwordHash);
      && (r.outcome.Rejected? ==> r.tables == t)
      && (r.outcome == Rejected(FieldsRequired) <==> IsBlank(name) || IsBlank(email) || IsBlank(password))
      && (r.outcome.Ok? <==> !IsBlank(name) && !IsBlank(email) && !IsBlank(password) &&
                             forall k :: 0 <= k < |t.users| ==> t.users[k].email != email)
    ensures var r := Registered(t, name, email, password, passwordHash);
      r.outcome.Ok? ==>
        && r.tables.users == t.users + [User(t.nextId, name, email, passwordHash, 0, Some("Bronze"), "User", None)]
        && r.tables == t.(users := r.tables.users, nextId := t.nextId + 1)
  {
  }

  /** Registration keeps the tables consistent: in particular e-mail
      addresses stay unique, and the "Bronze" badge given to a new account is
      the one its zero points earn. */
  lemma {:induction false} RegisteredConsistent(t: Tables, name: string, email: string, password: string, passwordHash: string)
    requires Consistent(t)
    ensures Consistent(Registered(t, name, email, password, passwordHash).tables)
    ensures Registered(t, name, email, password, passwordHash).outcome.Ok? ==> Some(Floor) == Some(BadgeFor(Ordered(t.badges), 0))
  {
    var r := Registered(t, name, email, password, passwordHash);
    if r.outcome.Ok? {
      FloorAtZero(t.badges);
      var us := r.tables.users;
      assert us == t.users + [NewUser(t, name, email, passwordHash)];
      forall i, j | 0 <= i < j < |us| ensures us[i].email != us[j].email {
        if j == |t.users| {
          assert us[i] == t.users[i];
        } else {
          assert us[i] == t.users[i] && us[j] == t.users[j];
        }
      }
      forall i | 0 <= i < |us| ensures us[i].badgeLevel == Some(BadgeFor(Ordered(t.badges), us[i].points)) {
        if i < |t.users| {
          assert us[i] == t.users[i];
        }
      }
      forall i | 0 <= i < |us| ensures us[i].userId < t.nextId + 1 {
        if i < |t.users| {
          assert us[i] == t.users[i];
        }
      }
    }
  }

  /** `Register` run against the database. */
  method Register(db: Db, name: string, email: string, password: string, passwordHash: string) returns (outcome: Outcome)
    requires db.Valid()
    modifies db
    ensures db.Valid()
    ensures Step(db.Contents(), outcome) == Registered(old(db.Contents()), name, email, password, passwordHash)
  {
    RegisteredConsistent(db.Contents(), name, email, password, passwordHash);
    if IsBlank(name) || IsBlank(email) || IsBlank(password) {
      return Rejected(FieldsRequired);
    }
    if FirstIndex(db.users, (u: User) => u.email == email).Some? {
      return Rejected(EmailAlreadyRegistered);
    }
    Enroll(db, name, email, passwordHash);
    outcome := Ok;
  }

  /** The insertion of the new user row. */
  method Enroll(db: Db, name: string, email: string, passwordHash: string)
    modifies db
    ensures db.Contents() == Enrolled(old(db.Contents()), name, email, passwordHash)
  {
    db.users, db.nextId := db.users + [NewUser(db.Contents(), name, email, passwordHash)], db.nextId + 1;
  }

  /** The result of a sign-in attempt: refused, or the claims of the user
      signed in. */
  datatype SignIn = Denied(error: Error) | SignedIn(userId: int, name: string, email: string, role: string)

  /** `TechnicianLogin`: the first user with the e-mail and the role
      "Technician" signs in, provided `verify(hash, password)` accepts the
      password. */
  function TechnicianSignIn(t: Tables, email: string, password: string, verify: (string, string) -> bool): (r: SignIn)
    ensures r == Denied(FieldsRequired) <==> IsBlank(email) || IsBlank(password)
    ensures r.SignedIn? ==> exists k :: 0 <= k < |t.users| && t.users[k].userId == r.userId && t.users[k].name == r.name
                                        && t.users[k].email == email && t.users[k].role == "Technician"
                                        && verify(t.users[k].passwordHash, password)
    ensures r.SignedIn? ==> r.email == email && r.role == "Technician"
    ensures !IsBlank(email) && !IsBlank(password) && (forall k :: 0 <= k < |t.users| ==> t.users[k].email != email || t.users[k].role != "Technician")
            ==> r == Denied(InvalidCredentials)
    ensures forall k :: !IsBlank(email) && !IsBlank(password) && 0 <= k < |t.users|
                        && t.users[k].email == email && t.users[k].role == "Technician"
                        && (forall j :: 0 <= j < k ==> t.users[j].email != email || t.users[j].role != "Technician") ==>
              && (r.SignedIn? <==> verify(t.users[k].passwordHash, password))
              && (r.SignedIn? ==> r == SignedIn(t.users[k].userId, t.users[k].name, email, "Technician"))
              && (r.Denied? ==> r.error == InvalidCredentials)
  {
    if IsBlank(email) || IsBlank(password) then Denied(FieldsRequired)
    else
      match FirstIndex(t.users, (u: User) => u.email == email && u.role == TechnicianRole)
      case None => Denied(InvalidCredentials)
      case Some(k) =>
        var u := t.users[k];
        if !verify(u.passwordHash, password) then Denied(InvalidCredentials)
        else SignedIn(u.userId, u.name, u.email, u.role)
  }
}

=== FILE: admin_actions.dfy ===
/** The administrator's controller: status changes checked against the
    transition table, assignment behind the technician workload gate, and
    deletion of a complaint with everything that hangs off it. */
module AdminActions {
  import opened Wrappers
  import opened Collections
  import opened Entities
  import opened Ledger
  import opened Store

  const AdminAssignText: string := "Complaint assigned to department and technician"

  /** The position of a status in the lifecycle Pending, InProgress, Fixed. */
  function Rank(s: Status): nat {
    match s
    case Pending => 0
    case InProgress => 1
    case Fixed => 2
  }

  /** `IsValidStatusTransition`: a change is valid exactly when it moves the
      complaint forward in the lifecycle. So Pending to InProgress, Pending to
      Fixed and InProgress to Fixed are the valid pairs; a status never moves
      to itself, and nothing leaves Fixed. */
  function IsValidStatusTransition(from: Status, to: Status): (valid: bool)
    ensures valid <==> Rank(from) < Rank(to)
  {
    match from
    case Pending => to == InProgress || to == Fixed
    case InProgress => to == Fixed
    case Fixed => false
  }

  /** `UpdateStatus`: only a valid transition is applied, with an "Admin"
      comment recording it. */
  function AdminStatusChanged(t: Tables, caller: Caller, id: int, status: Status, now: int): (r: Step)
    ensures r.outcome.Rejected? ==> r.tables == t
    ensures ReferenceKept(t, r.tables)
    ensures r.outcome.Ok? ==> status != Pending && |r.tables.comments| == |t.comments| + 1
  {
    match FindComplaint(t.complaints, id)
    case None => Step(t, Rejected(ComplaintNotFound))
    case Some(k) =>
      var was := t.complaints[k].status;
      if !IsValidStatusTransition(was, status) then Step(t, Rejected(InvalidStatusTransition))
      else Step(WithComment(WithStatus(t, k, status, now), id, caller.id, caller.name.GetOr("Admin"), AdminRole,
                            StatusChangeText(was, status), now), Ok)
  }

  /** The call succeeds exactly when the complaint exists and the pair is a
      valid transition; a refusal changes nothing; a success sets the status,
      stamps `UpdatedAt` and appends one Admin comment naming both statuses. */
  lemma AdminStatusChangedEffects(t: Tables, caller: Caller, id: int, status: Status, now: int)
    ensures var r := AdminStatusChanged(t, caller, id, status, now);
      && (r.outcome.Rejected? ==> r.tables == t)
      && (FindComplaint(t.complaints, id).None? ==> r.outcome == Rejected(ComplaintNotFound))
    ensures var r := AdminStatusChanged(t, caller, id, status, now);
      FindComplaint(t.complaints, id).Some? ==>
        var k := FindComplaint(t.complaints, id).value;
        && (r.outcome.Ok? <==> IsValidStatusTransition(t.complaints[k].status, status))
        && (r.outcome.Rejected? ==> r.outcome == Rejected(InvalidStatusTransition))
        && (r.outcome.Ok? ==>
              && r.tables.complaints == t.complaints[k := t.complaints[k].(status := status, updatedAt := Some(now))]
              && r.tables.comments == t.comments + [Comment(t.nextId, id, caller.id, caller.name.GetOr("Admin"), AdminRole,
                                                            StatusChangeText(t.complaints[k].status, status), true, now)]
              && r.tables == t.(complaints := r.tables.complaints, comments := r.tables.comments, nextId := t.nextId + 1))
  {
  }

  lemma AdminStatusChangedConsistent(t: Tables, caller: Caller, id: int, status: Status, now: int)
    requires Consistent(t)
    ensures Consistent(AdminStatusChanged(t, caller, id, status, now).tables)
  {
    match FindComplaint(t.complaints, id)
    case None =>
    case Some(k) =>
      StatusChangeConsistent(t, k, status, now, id, caller.id, caller.name.GetOr("Admin"), AdminRole,
                             StatusChangeText(t.complaints[k].status, status));
  }

  /** One administrator status request. */
  datatype StatusRequest = StatusRequest(caller: Caller, id: int, status: Status, now: int)

  /** The tables after a series of administrator status requests. */
  function AdminStatusRun(t: Tables, requests: seq<StatusRequest>): Tables
    decreases |requests|
  {
    if requests == [] then t
    else
      var q := requests[0];
      AdminStatusRun(AdminStatusChanged(t, q.caller, q.id, q.status, q.now).tables, requests[1..])
  }

  /** A Fixed complaint is untouched by any one administrator status request. */
  lemma AdminStatusKeepsFixed(t: Tables, q: StatusRequest, k: nat)
    requires k < |t.complaints| && t.complaints[k].status == Fixed
    ensures var r := AdminStatusChanged(t, q.caller, q.id, q.status, q.now).tables;
      |r.complaints| == |t.complaints| && r.complaints[k] == t.complaints[k]
  {
  }

  /** Once Fixed, always Fixed on the administrator's path: whatever series
      of status requests follows, the complaint keeps its row unchanged. */
  lemma {:induction false} FixedIsFinalForAdmin(t: Tables, requests: seq<StatusRequest>, k: nat)
    requires k < |t.complaints| && t.complaints[k].status == Fixed
    ensures k < |AdminStatusRun(t, requests).complaints|
    ensures AdminStatusRun(t, requests).complaints[k] == t.complaints[k]
    decreases |requests|
  {
    if requests != [] {
      var q := requests[0];
      AdminStatusKeepsFixed(t, q, k);
      FixedIsFinalForAdmin(AdminStatusChanged(t, q.caller, q.id, q.status, q.now).tables, requests[1..], k);
    }
  }

  /** `UpdateStatus` run against the database. */
  method UpdateStatus(db: Db, caller: Caller, id: int, status: Status, now: int) returns (outcome: Outcome)
    requires db.Valid()
    modifies db
    ensures db.Valid()
    ensures Step(db.Contents(), outcome) == AdminStatusChanged(old(db.Contents()), caller, id, status, now)
  {
    AdminStatusChangedConsistent(db.Contents(), caller, id, status, now);
    var found := FindComplaint(db.complaints, id);
    if found.None? {
      return Rejected(ComplaintNotFound);
    }
    var k := found.value;
    var was := db.complaints[k].status;
    if !IsValidStatusTransition(was, status) {
      return Rejected(InvalidStatusTransition);
    }
    db.SetStatus(k, status, now);
    db.AddComment(id, caller.id, caller.name.GetOr("Admin"), AdminRole, StatusChangeText(was, status), now);
    outcome := Ok;
  }

  /** `Assign`: a named technician with any open complaint blocks the call;
      otherwise the ledger is reassigned, the complaint takes the given
      department and technician (both may be null, which unassigns it) and
      an "Admin" comment is appended. */
  function AdminAssigned(t: Tables, caller: Caller, id: int, departmentId: Option<int>, tech: Option<int>,
                         note: Option<string>, now: int): (r: Step)
    ensures r.outcome.Rejected? ==> r.tables == t
    ensures ReferenceKept(t, r.tables)
    ensures r.outcome.Ok? ==> |r.tables.assignments| == |t.assignments| + 1 && |r.tables.comments| == |t.comments| + 1
  {
    match FindComplaint(t.complaints, id)
    case None => Step(t, Rejected(ComplaintNotFound))
    case Some(k) =>
      if tech.Some? && OpenWorkload(t.complaints, tech.value) > 0 then Step(t, Rejected(TechnicianHasPendingWork))
      else
        var rec := Assignment(id, departmentId, tech, note, now, caller.id, true);
        var c := t.complaints[k].(departmentId := departmentId, assignedToUserId := tech, updatedAt := Some(now));
        Step(WithComment(WithAssignment(t, k, rec, c), id, caller.id, caller.name.GetOr("Admin"), AdminRole, AdminAssignText, now), Ok)
  }

  /** The gate: with the complaint present, the call is refused exactly when
      a technician is named who has a Pending or InProgress complaint, and a
      refusal changes nothing (the deactivations made before the gate are
      never saved). The count includes the target complaint itself, so a
      technician cannot be assigned again to their own open complaint. */
  lemma AdminAssignGate(t: Tables, caller: Caller, id: int, departmentId: Option<int>, tech: Option<int>,
                        note: Option<string>, now: int)
    ensures var r := AdminAssigned(t, caller, id, departmentId, tech, note, now);
      && (r.outcome.Rejected? ==> r.tables == t)
      && (FindComplaint(t.complaints, id).None? ==> r.outcome == Rejected(ComplaintNotFound))
    ensures var r := AdminAssigned(t, caller, id, departmentId, tech, note, now);
      FindComplaint(t.complaints, id).Some? ==>
        && (r.outcome == Rejected(TechnicianHasPendingWork) <==>
              tech.Some? && exists j :: 0 <= j < |t.complaints| && t.complaints[j].assignedToUserId == tech && IsOpen(t.complaints[j].status))
        && (r.outcome.Ok? <==> r.outcome != Rejected(TechnicianHasPendingWork))
    ensures var r := AdminAssigned(t, caller, id, departmentId, tech, note, now);
      FindComplaint(t.complaints, id).Some? ==>
        var c := t.complaints[FindComplaint(t.complaints, id).value];
        tech.Some? && c.assignedToUserId == tech && IsOpen(c.status) ==> r.outcome == Rejected(TechnicianHasPendingWork)
  {
  }

  /** A successful assignment: the complaint's earlier records are switched
      off, records of other complaints are untouched, the new active record
      is appended; the complaint takes the arguments as its department and
      technician; one comment is appended; nothing else changes. */
  lemma AdminAssignWrites(t: Tables, caller: Caller, id: int, departmentId: Option<int>, tech: Option<int>,
                          note: Option<string>, now: int)
    ensures var r := AdminAssigned(t, caller, id, departmentId, tech, note, now);
      r.outcome.Ok? ==>
        var k := FindComplaint(t.complaints, id).value;
        var rs := r.tables.assignments;
        && |rs| == |t.assignments| + 1
        && rs[|t.assignments|] == Assignment(id, departmentId, tech, note, now, caller.id, true)
        && (forall j :: 0 <= j < |t.assignments| ==> rs[j] == t.assignments[j].(isActive := rs[j].isActive))
        && (forall j :: 0 <= j < |t.assignments| && t.assignments[j].complaintId == id ==> !rs[j].isActive)
        && (forall j :: 0 <= j < |t.assignments| && t.assignments[j].complaintId != id ==> rs[j] == t.assignments[j])
        && r.tables.complaints == t.complaints[k := t.complaints[k].(departmentId := departmentId, assignedToUserId := tech, updatedAt := Some(now))]
        && r.tables.comments == t.comments + [Comment(t.nextId, id, caller.id, caller.name.GetOr("Admin"), AdminRole, AdminAssignText, true, now)]
        && r.tables == t.(assignments := rs, complaints := r.tables.complaints, comments := r.tables.comments, nextId := t.nextId + 1)
  {
  }

  /** An assignment keeps the database consistent and leaves the complaint
      with exactly one active record: the new one. */
  lemma AdminAssignedConsistent(t: Tables, caller: Caller, id: int, departmentId: Option<int>, tech: Option<int>,
                                note: Option<string>, now: int)
    requires Consistent(t)
    ensures Consistent(AdminAssigned(t, caller, id, departmentId, tech, note, now).tables)
    ensures var r := AdminAssigned(t, caller, id, departmentId, tech, note, now);
      r.outcome.Ok? ==> ActiveFor(r.tables.assignments, id) == [Assignment(id, departmentId, tech, note, now, caller.id, true)]
  {
    var r := AdminAssigned(t, caller, id, departmentId, tech, note, now);
    if r.outcome.Ok? {
      var k := FindComplaint(t.complaints, id).value;
      var rec := Assignment(id, departmentId, tech, note, now, caller.id, true);
      var c := t.complaints[k].(departmentId := departmentId, assignedToUserId := tech, updatedAt := Some(now));
      AssignmentConsistent(t, k, rec, c);
      WithCommentConsistent(WithAssignment(t, k, rec, c), id, caller.id, caller.name.GetOr("Admin"), AdminRole, AdminAssignText, now);
    }
  }

  /** `Assign` run against the database. The deactivation loop runs first,
      on the tracked copy of the ledger; it reaches the table only when the
      gate lets the call through. */
  method Assign(db: Db, caller: Caller, id: int, departmentId: Option<int>, tech: Option<int>,
                note: Option<string>, now: int) returns (outcome: Outcome)
    requires db.Valid()
    modifies db
    ensures db.Valid()
    ensures Step(db.Contents(), outcome) == AdminAssigned(old(db.Contents()), caller, id, departmentId, tech, note, now)
  {
    AdminAssignedConsistent(db.Contents(), caller, id, departmentId, tech, note, now);
    var found := FindComplaint(db.complaints, id);
    if found.None? {
      return Rejected(ComplaintNotFound);
    }
    var k := found.value;
    var ledger := DeactivatePrevious(db.assignments, id);
    if tech.Some? && OpenWorkload(db.complaints, tech.value) > 0 {
      return Rejected(TechnicianHasPendingWork);
    }
    var rec := Assignment(id, departmentId, tech, note, now, caller.id, true);
    db.SaveAssignment(ledger, k, rec, db.complaints[k].(departmentId := departmentId, assignedToUserId := tech, updatedAt := Some(now)));
    db.AddComment(id, caller.id, caller.name.GetOr("Admin"), AdminRole, AdminAssignText, now);
    outcome := Ok;
  }

  /** The tables without complaint `id`: the complaint goes together with
      its comments, ratings and assignment records, which `DeleteComplaint`
      removes itself, and its technician photos and the attachments of its
      comments, which go by cascade. */
  function Remaining(t: Tables, id: int): Tables {
    var gone := CommentKeys(Filter(t.comments, (c: Comment) => c.complaintId == id));
    t.(complaints := Filter(t.complaints, (c: Complaint) => c.complaintId != id),
       comments := Filter(t.comments, (c: Comment) => c.complaintId != id),
       attachments := Filter(t.attachments, (a: Attachment) => a.commentId !in gone),
       ratings := Filter(t.ratings, (r: Rating) => r.complaintId != id),
       assignments := Filter(t.assignments, (a: Assignment) => a.complaintId != id),
       photos := Filter(t.photos, (p: Photo) => p.complaintId != id))
  }

  /** `DeleteComplaint`: a missing complaint is reported, otherwise its rows go. */
  function ComplaintDeleted(t: Tables, id: int): (r: Step)
    ensures r.outcome.Rejected? ==> r.tables == t
    ensures ReferenceKept(t, r.tables)
    ensures r.tables.users == t.users
    ensures forall c :: c in r.tables.complaints ==> c.complaintId != id
  {
    if FindComplaint(t.complaints, id).None? then Step(t, Rejected(ComplaintNotFound))
    else Step(Remaining(t, id), Ok)
  }

  /** A missing complaint is reported and nothing changes. Otherwise exactly
      the rows belonging to the complaint are removed: the complaint, its
      comments and their attachments, its ratings, its assignment records and
      its photos; users and reference tables stay as they are. */
  lemma {:induction false} ComplaintDeletedEffects(t: Tables, id: int)
    ensures var r := ComplaintDeleted(t, id);
      && (r.outcome.Ok? <==> FindComplaint(t.complaints, id).Some?)
      && (r.outcome.Rejected? ==> r.tables == t && r.outcome == Rejected(ComplaintNotFound))
    ensures var r := ComplaintDeleted(t, id).tables;
      ComplaintDeleted(t, id).outcome.Ok? ==>
        && (forall c :: c in r.complaints <==> c in t.complaints && c.complaintId != id)
        && (forall c :: c in r.comments <==> c in t.comments && c.complaintId != id)
        && (forall x :: x in r.ratings <==> x in t.ratings && x.complaintId != id)
        && (forall a :: a in r.assignments <==> a in t.assignments && a.complaintId != id)
        && (forall p :: p in r.photos <==> p in t.photos && p.complaintId != id)
        && (forall a :: a in r.attachments <==>
              a in t.attachments && !exists c :: c in t.comments && c.complaintId == id && c.commentId == a.commentId)
        && r == t.(complaints := r.complaints, comments := r.comments, attachments := r.attachments,
                   ratings := r.ratings, assignments := r.assignments, photos := r.photos)
  {
    if FindComplaint(t.complaints, id).Some? {
      var on := Filter(t.comments, (c: Comment) => c.complaintId == id);
      var gone := CommentKeys(on);
      FilterMembers(t.complaints, (c: Complaint) => c.complaintId != id);
      FilterMembers(t.comments, (c: Comment) => c.complaintId != id);
      FilterMembers(t.ratings, (r: Rating) => r.complaintId != id);
      FilterMembers(t.assignments, (a: Assignment) => a.complaintId != id);
      FilterMembers(t.photos, (p: Photo) => p.complaintId != id);
      FilterMembers(t.attachments, (a: Attachment) => a.commentId !in gone);
      FilterMembers(t.comments, (c: Comment) => c.complaintId == id);
      forall key ensures key in gone <==> exists c :: c in t.comments && c.complaintId == id && c.commentId == key {
        if key in gone {
          var i :| 0 <= i < |on| && gone[i] == key;
          assert on[i] in on;
        }
        if exists c :: c in t.comments && c.complaintId == id && c.commentId == key {
          var c :| c in t.comments && c.complaintId == id && c.commentId == key;
          assert c in on;
          var i :| 0 <= i < |on| && on[i] == c;
          assert gone[i] == key;
        }
      }
    }
  }

  /** Rows that survive a deletion still carry keys that were handed out. */
  lemma DeletedKeysIssued(t: Tables, id: int)
    requires KeysIssued(t)
    ensures KeysIssued(ComplaintDeleted(t, id).tables)
  {
    var r := ComplaintDeleted(t, id).tables;
    ComplaintDeletedEffects(t, id);
    forall i | 0 <= i < |r.complaints| ensures r.complaints[i].complaintId < r.nextId {
      assert r.complaints[i] in r.complaints;
    }
    forall i | 0 <= i < |r.comments| ensures r.comments[i].commentId < r.nextId {
      assert r.comments[i] in r.comments;
    }
    forall i | 0 <= i < |r.attachments| ensures r.attachments[i].commentId < r.nextId {
      assert r.attachments[i] in r.attachments;
    }
    forall i | 0 <= i < |r.ratings| ensures r.ratings[i].complaintId < r.nextId {
      assert r.ratings[i] in r.ratings;
    }
    forall i | 0 <= i < |r.assignments| ensures r.assignments[i].complaintId < r.nextId {
      assert r.assignments[i] in r.assignments;
    }
    forall i | 0 <= i < |r.photos| ensures r.photos[i].complaintId < r.nextId {
      assert r.photos[i] in r.photos;
    }
  }

  /** A deletion keeps keys distinct, one rating per complaint and one active
      record per complaint, since it only drops rows. */
  lemma DeletedStillDistinct(t: Tables, id: int)
    requires Consistent(t)
    ensures var r := ComplaintDeleted(t, id).tables;
      DistinctComplaintIds(r.complaints) && OneRatingPerComplaint(r.ratings) && OneActivePerComplaint(r.assignments)
  {
    if FindComplaint(t.complaints, id).Some? {
      var r := ComplaintDeleted(t, id).tables;
      FilterPairwise(t.complaints, (c: Complaint) => c.complaintId != id, (a: Complaint, b: Complaint) => a.complaintId != b.complaintId);
      assert DistinctComplaintIds(r.complaints);
      FilterPairwise(t.ratings, (x: Rating) => x.complaintId != id, (a: Rating, b: Rating) => a.complaintId != b.complaintId);
      assert OneRatingPerComplaint(r.ratings);
      FilterPairwise(t.assignments, (a: Assignment) => a.complaintId != id,
                     (a: Assignment, b: Assignment) => a.isActive && b.isActive ==> a.complaintId != b.complaintId);
      assert OneActivePerComplaint(r.assignments);
    }
  }

  /** The ratings that survive a deletion belong to complaints that survive it. */
  lemma DeletedRatingsByReporters(t: Tables, id: int)
    requires RatingsByReporters(t.ratings, t.complaints)
    ensures var r := ComplaintDeleted(t, id).tables;
      RatingsByReporters(r.ratings, r.complaints)
  {
    var r := ComplaintDeleted(t, id).tables;
    ComplaintDeletedEffects(t, id);
    forall i | 0 <= i < |r.ratings| ensures 1 <= r.ratings[i].score <= 5 && Authored(r.complaints, r.ratings[i].complaintId, r.ratings[i].userId) {
      assert r.ratings[i] in r.ratings;
      var j :| 0 <= j < |t.ratings| && t.ratings[j] == r.ratings[i];
      var k :| 0 <= k < |t.complaints| && t.complaints[k].complaintId == t.ratings[j].complaintId && t.complaints[k].userId == t.ratings[j].userId;
      assert t.complaints[k] in r.complaints;
      var m :| 0 <= m < |r.complaints| && r.complaints[m] == t.complaints[k];
    }
  }

  /** Deleting a complaint keeps the database consistent. */
  lemma ComplaintDeletedConsistent(t: Tables, id: int)
    requires Consistent(t)
    ensures Consistent(ComplaintDeleted(t, id).tables)
  {
    DeletedKeysIssued(t, id);
    DeletedStillDistinct(t, id);
    DeletedRatingsByReporters(t, id);
  }

  /** The `RemoveRange` calls and the cascades, saved together. */
  method RemoveRows(db: Db, id: int)
    modifies db
    ensures db.Contents() == Remaining(old(db.Contents()), id)
  {
    var gone := CommentKeys(Filter(db.comments, (c: Comment) => c.complaintId == id));
    var comments := Filter(db.comments, (c: Comment) => c.complaintId != id);
    var attachments := Filter(db.attachments, (a: Attachment) => a.commentId !in gone);
    var ratings := Filter(db.ratings, (r: Rating) => r.complaintId != id);
    var assignments := Filter(db.assignments, (a: Assignment) => a.complaintId != id);
    var complaints := Filter(db.complaints, (c: Complaint) => c.complaintId != id);
    var photos := Filter(db.photos, (p: Photo) => p.complaintId != id);
    db.comments, db.attachments, db.ratings, db.assignments, db.complaints, db.photos :=
      comments, attachments, ratings, assignments, complaints, photos;
  }

  /** `DeleteComplaint` run against the database. */
  method DeleteComplaint(db: Db, id: int) returns (outcome: Outcome)
    requires db.Valid()
    modifies db
    ensures db.Valid()
    ensures Step(db.Contents(), outcome) == ComplaintDeleted(old(db.Contents()), id)
  {
    ComplaintDeletedConsistent(db.Contents(), id);
    var found := FindComplaint(db.complaints, id);
    if found.None? {
      return Rejected(ComplaintNotFound);
    }
    RemoveRows(db, id);
    outcome := Ok;
  }
}

=== FILE: badges.dfy ===
/** The gamification rule: a reporter's badge is read off the badge table
    from their points. `BadgeFor` is the value `ComputeBadgeLevel`'s loop
    computes over the table as `OrderBy(PointsRequired)` returns it. */
module Badges {
  import opened Collections
  import opened Entities

  /** The level every reporter has before reaching any threshold. */
  const Floor: string := "Bronze"

  /** The order of `Badges.OrderBy(b => b.PointsRequired)`. */
  function ByThreshold(a: Badge, b: Badge): bool {
    a.pointsRequired <= b.pointsRequired
  }

  lemma ByThresholdIsTotalPreorder()
    ensures TotalPreorder(ByThreshold)
  {
  }

  /** The badge table as the badge query returns it: every badge, ascending by threshold. */
  function Ordered(badges: seq<Badge>): (r: seq<Badge>)
    ensures multiset(r) == multiset(badges) && |r| == |badges|
    ensures forall i, j :: 0 <= i < j < |r| ==> r[i].pointsRequired <= r[j].pointsRequired
  {
    ByThresholdIsTotalPreorder();
    SortBy(badges, ByThreshold)
  }

  /** The level the foreach over `badges` ends with: it starts at the floor
      and takes the name of every badge whose threshold `points` reaches. */
  function BadgeFor(badges: seq<Badge>, points: int): (r: string)
    ensures r == Floor || exists i :: 0 <= i < |badges| && badges[i].levelName == r && badges[i].pointsRequired <= points
  {
    if badges == [] then Floor
    else if points >= badges[|badges| - 1].pointsRequired then badges[|badges| - 1].levelName
    else BadgeFor(badges[..|badges| - 1], points)
  }

  /** The last badge reached wins; with none reached the level stays at the floor. */
  lemma {:induction false} BadgeForIsLastReached(badges: seq<Badge>, points: int)
    ensures (forall i :: 0 <= i < |badges| ==> points < badges[i].pointsRequired) ==> BadgeFor(badges, points) == Floor
    ensures forall i :: 0 <= i < |badges| && badges[i].pointsRequired <= points
                        && (forall j :: i < j < |badges| ==> points < badges[j].pointsRequired)
                    ==> BadgeFor(badges, points) == badges[i].levelName
  {
    if badges != [] {
      var n := |badges|;
      var rest := badges[..n - 1];
      BadgeForIsLastReached(rest, points);
      if points < badges[n - 1].pointsRequired {
        assert BadgeFor(badges, points) == BadgeFor(rest, points);
        forall i | 0 <= i < n - 1 && badges[i].pointsRequired <= points
                   && (forall j :: i < j < n ==> points < badges[j].pointsRequired)
          ensures BadgeFor(badges, points) == badges[i].levelName
        {
          assert rest[i] == badges[i];
          assert forall j :: i < j < n - 1 ==> rest[j] == badges[j];
        }
        if forall i :: 0 <= i < n ==> points < badges[i].pointsRequired {
          assert forall i :: 0 <= i < n - 1 ==> rest[i] == badges[i];
        }
      }
    }
  }

  /** One more badge at the end of the table: the foreach's last step. */
  lemma BadgeForSnoc(badges: seq<Badge>, b: Badge, points: int)
    ensures BadgeFor(badges + [b], points) == if points >= b.pointsRequired then b.levelName else BadgeFor(badges, points)
  {
    assert (badges + [b])[..|badges|] == badges;
  }

  /** How many badges of the table `points` reaches. */
  function Reached(badges: seq<Badge>, points: int): (n: nat)
    ensures n <= |badges|
  {
    if badges == [] then 0
    else (if badges[0].pointsRequired <= points then 1 else 0) + Reached(badges[1..], points)
  }

  /** More points never reach fewer badges. */
  lemma {:induction false} ReachedMonotone(badges: seq<Badge>, p: int, q: int)
    requires p <= q
    ensures Reached(badges, p) <= Reached(badges, q)
  {
    if badges != [] {
      ReachedMonotone(badges[1..], p, q);
    }
  }

  predicate Ascending(badges: seq<Badge>) {
    forall i, j :: 0 <= i < j < |badges| ==> badges[i].pointsRequired <= badges[j].pointsRequired
  }

  /** The badge query returns an ascending table as it is. */
  lemma OrderedAscending(badges: seq<Badge>)
    requires Ascending(badges)
    ensures Ordered(badges) == badges
  {
    ByThresholdIsTotalPreorder();
    SortSorted(badges, ByThreshold);
  }

  /** On an ascending table the badges `points` reaches are a prefix, of
      length `Reached`. */
  lemma {:induction false} ReachedIsPrefix(badges: seq<Badge>, points: int)
    requires Ascending(badges)
    ensures forall i :: 0 <= i < Reached(badges, points) ==> badges[i].pointsRequired <= points
    ensures forall i :: Reached(badges, points) <= i < |badges| ==> points < badges[i].pointsRequired
  {
    if badges != [] {
      var rest := badges[1..];
      ReachedIsPrefix(rest, points);
      assert forall i :: 0 < i < |badges| ==> badges[i] == rest[i - 1];
    }
  }

  /** On an ascending table the badge is the name of the highest badge
      reached (the floor when none is): the tier is `Reached`, which never
      decreases as points grow. */
  lemma BadgeIsHighestReached(badges: seq<Badge>, points: int)
    requires Ascending(badges)
    ensures var n := Reached(badges, points);
      && (forall i :: 0 <= i < n ==> badges[i].pointsRequired <= points)
      && (forall i :: n <= i < |badges| ==> points < badges[i].pointsRequired)
      && BadgeFor(badges, points) == (if n == 0 then Floor else badges[n - 1].levelName)
  {
    ReachedIsPrefix(badges, points);
    BadgeForIsLastReached(badges, points);
  }

  /** Gaining points never lowers the badge tier: with `p <= q`, the badge at
      `q` is the badge at `p` or the name of a badge further up the table. */
  lemma BadgeMonotone(badges: seq<Badge>, p: int, q: int)
    requires Ascending(badges) && p <= q
    ensures Reached(badges, p) <= Reached(badges, q)
    ensures BadgeFor(badges, p) == (if Reached(badges, p) == 0 then Floor else badges[Reached(badges, p) - 1].levelName)
    ensures BadgeFor(badges, q) == (if Reached(badges, q) == 0 then Floor else badges[Reached(badges, q) - 1].levelName)
  {
    ReachedMonotone(badges, p, q);
    BadgeIsHighestReached(badges, p);
    BadgeIsHighestReached(badges, q);
  }
}

=== FILE: collections.dfy ===
/** The LINQ operators the controllers apply to their tables, as functions on
    sequences: `Where` (Filter), `Count(pred)`, `FirstOrDefault(pred)`
    (FirstIndex) and the stable `OrderBy`/`ThenBy` (SortBy). */
module Collections {
  import opened Wrappers

  /** `Where`: the elements that satisfy `keep`, in their original order. */
  function Filter<T>(s: seq<T>, keep: T -> bool): (r: seq<T>)
    ensures |r| <= |s|
    ensures forall k :: 0 <= k < |r| ==> r[k] in s && keep(r[k])
    ensures forall k :: 0 <= k < |s| && keep(s[k]) ==> s[k] in r
  {
    if s == [] then []
    else (if keep(s[0]) then [s[0]] else []) + Filter(s[1..], keep)
  }

  /** Filtering distributes over concatenation, so it keeps relative order. */
  lemma {:induction false} FilterAppend<T>(a: seq<T>, b: seq<T>, keep: T -> bool)
    ensures Filter(a + b, keep) == Filter(a, keep) + Filter(b, keep)
  {
    if a == [] {
      assert a + b == b;
    } else {
      assert (a + b)[0] == a[0];
      assert (a + b)[1..] == a[1..] + b;
      FilterAppend(a[1..], b, keep);
    }
  }

  /** Filtering with a condition every element meets returns the input. */
  lemma {:induction false} FilterAll<T>(s: seq<T>, keep: T -> bool)
    requires forall k :: 0 <= k < |s| ==> keep(s[k])
    ensures Filter(s, keep) == s
  {
    if s != [] {
      FilterAll(s[1..], keep);
    }
  }

  /** An element survives the filter exactly when it is in the input and kept. */
  lemma FilterMembers<T>(s: seq<T>, keep: T -> bool)
    ensures forall x :: x in Filter(s, keep) <==> x in s && keep(x)
  {
    var r := Filter(s, keep);
    forall x | x in r ensures x in s && keep(x) {
      var k :| 0 <= k < |r| && r[k] == x;
    }
  }

  /** A property every element has survives the filter. */
  lemma FilterKeeps<T>(s: seq<T>, keep: T -> bool, p: T -> bool)
    requires forall k :: 0 <= k < |s| ==> p(s[k])
    ensures forall k :: 0 <= k < |Filter(s, keep)| ==> p(Filter(s, keep)[k])
  {
    var r := Filter(s, keep);
    FilterMembers(s, keep);
    forall k | 0 <= k < |r| ensures p(r[k]) {
      assert r[k] in s;
    }
  }

  /** `Where(keep).Select(f)`: the images of the elements that satisfy
      `keep`, in their original order. */
  function SelectWhere<A, B>(s: seq<A>, keep: A -> bool, f: A -> B): seq<B> {
    if s == [] then []
    else (if keep(s[0]) then [f(s[0])] else []) + SelectWhere(s[1..], keep, f)
  }

  /** A value is selected exactly when it is the image of a kept element. */
  lemma {:induction false} SelectWhereMembers<A, B>(s: seq<A>, keep: A -> bool, f: A -> B, y: B)
    ensures y in SelectWhere(s, keep, f) <==> exists k :: 0 <= k < |s| && keep(s[k]) && y == f(s[k])
  {
    if s != [] {
      var rest := s[1..];
      SelectWhereMembers(rest, keep, f, y);
      if exists k :: 0 <= k < |rest| && keep(rest[k]) && y == f(rest[k]) {
        var k :| 0 <= k < |rest| && keep(rest[k]) && y == f(rest[k]);
        assert s[k + 1] == rest[k];
      }
      if exists k :: 0 <= k < |s| && keep(s[k]) && y == f(s[k]) {
        var k :| 0 <= k < |s| && keep(s[k]) && y == f(s[k]);
        if k > 0 {
          assert rest[k - 1] == s[k];
        }
      }
    }
  }

  /** Every pair of elements, taken in order, satisfies `apart`. */
  predicate PairwiseApart<T>(s: seq<T>, apart: (T, T) -> bool) {
    forall i, j :: 0 <= i < j < |s| ==> apart(s[i], s[j])
  }

  /** Filtering keeps relative order, so a pairwise property survives it. */
  lemma {:induction false} FilterPairwise<T>(s: seq<T>, keep: T -> bool, apart: (T, T) -> bool)
    requires PairwiseApart(s, apart)
    ensures PairwiseApart(Filter(s, keep), apart)
  {
    if s != [] {
      FilterPairwise(s[1..], keep, apart);
      var rest := Filter(s[1..], keep);
      if keep(s[0]) {
        var r := [s[0]] + rest;
        assert Filter(s, keep) == r;
        forall i, j | 0 <= i < j < |r| ensures apart(r[i], r[j]) {
          if i == 0 {
            assert r[j] == rest[j - 1];
            assert rest[j - 1] in s[1..];
            var m :| 0 <= m < |s[1..]| && s[1..][m] == rest[j - 1];
            assert s[1 + m] == r[j];
          } else {
            assert r[i] == rest[i - 1] && r[j] == rest[j - 1];
          }
        }
      }
    }
  }

  /** `s` without its element at position `k`: the `Remove` of one tracked row. */
  function RemoveAt<T>(s: seq<T>, k: nat): (r: seq<T>)
    requires k < |s|
    ensures |r| == |s| - 1
    ensures forall i :: 0 <= i < k ==> r[i] == s[i]
    ensures forall i :: k <= i < |r| ==> r[i] == s[i + 1]
    ensures multiset(r) == multiset(s) - multiset{s[k]}
  {
    assert s == s[..k] + [s[k]] + s[k + 1..];
    s[..k] + s[k + 1..]
  }

  /** Removing one element keeps the order of the rest, so a pairwise
      property survives it. */
  lemma RemoveAtPairwise<T>(s: seq<T>, k: nat, apart: (T, T) -> bool)
    requires k < |s| && PairwiseApart(s, apart)
    ensures PairwiseApart(RemoveAt(s, k), apart)
  {
    var r := RemoveAt(s, k);
    forall i, j | 0 <= i < j < |r| ensures apart(r[i], r[j]) {
      var i' := if i < k then i else i + 1;
      var j' := if j < k then j else j + 1;
      assert r[i] == s[i'] && r[j] == s[j'];
    }
  }

  /** `Count(pred)`: how many elements satisfy `p`. */
  function Count<T>(s: seq<T>, p: T -> bool): (n: nat)
    ensures n <= |s|
    ensures n == 0 <==> forall k :: 0 <= k < |s| ==> !p(s[k])
  {
    var r := Filter(s, p);
    assert r != [] ==> r[0] in s;
    |r|
  }

  /** Each value survives the filter as often as it occurs in the input when
      it is kept, and not at all otherwise. */
  lemma {:induction false} FilterMultiset<T>(s: seq<T>, keep: T -> bool)
    ensures forall x :: multiset(Filter(s, keep))[x] == if keep(x) then multiset(s)[x] else 0
  {
    if s != [] {
      FilterMultiset(s[1..], keep);
      assert s == [s[0]] + s[1..];
    }
  }

  /** `Count` does not depend on the order of the elements. */
  lemma CountPermutation<T>(a: seq<T>, b: seq<T>, p: T -> bool)
    requires multiset(a) == multiset(b)
    ensures Count(a, p) == Count(b, p)
  {
    FilterMultiset(a, p);
    FilterMultiset(b, p);
    assert multiset(Filter(a, p)) == multiset(Filter(b, p));
    assert |multiset(Filter(a, p))| == |Filter(a, p)| && |multiset(Filter(b, p))| == |Filter(b, p)|;
  }

  /** Filtering twice is filtering once by both conditions. */
  lemma {:induction false} FilterFilter<T>(s: seq<T>, q: T -> bool, p: T -> bool, both: T -> bool)
    requires forall x :: both(x) == (q(x) && p(x))
    ensures Filter(Filter(s, q), p) == Filter(s, both)
  {
    if s != [] {
      FilterFilter(s[1..], q, p, both);
      var head := if q(s[0]) then [s[0]] else [];
      FilterAppend(head, Filter(s[1..], q), p);
      if q(s[0]) {
        assert Filter(head, p) == (if p(s[0]) then [s[0]] else []) + Filter(head[1..], p);
        assert head[1..] == [];
      }
    }
  }

  /** `FirstOrDefault(pred)`: the position of the first element that satisfies `p`. */
  function FirstIndex<T>(s: seq<T>, p: T -> bool): (r: Option<nat>)
    ensures r.Some? ==> r.value < |s| && p(s[r.value])
    ensures r.Some? ==> forall k :: 0 <= k < r.value ==> !p(s[k])
    ensures r.None? <==> forall k :: 0 <= k < |s| ==> !p(s[k])
  {
    if s == [] then None
    else if p(s[0]) then Some(0)
    else match FirstIndex(s[1..], p)
      case None => None
      case Some(k) => Some(k + 1)
  }

  /** A relation that orders every pair and is transitive: the comparison an
      `OrderBy(key)` or `OrderBy(key).ThenBy(key2)` induces. */
  ghost predicate TotalPreorder<T(!new)>(le: (T, T) -> bool) {
    && (forall a, b :: le(a, b) || le(b, a))
    && (forall a, b, c :: le(a, b) && le(b, c) ==> le(a, c))
  }

  predicate Sorted<T>(s: seq<T>, le: (T, T) -> bool) {
    forall i, j :: 0 <= i < j < |s| ==> le(s[i], s[j])
  }

  /** Puts `x` in front of the first element it does not come after. */
  function Insert<T>(x: T, s: seq<T>, le: (T, T) -> bool): (r: seq<T>)
    ensures |r| == |s| + 1
    ensures multiset(r) == multiset(s) + multiset{x}
  {
    if s == [] || le(x, s[0]) then [x] + s
    else
      assert s == [s[0]] + s[1..];
      [s[0]] + Insert(x, s[1..], le)
  }

  lemma {:induction false} InsertSorted<T(!new)>(x: T, s: seq<T>, le: (T, T) -> bool)
    requires TotalPreorder(le) && Sorted(s, le)
    ensures Sorted(Insert(x, s, le), le)
  {
    if s != [] && !le(x, s[0]) {
      InsertSorted(x, s[1..], le);
      var r := Insert(x, s, le);
      var t := Insert(x, s[1..], le);
      assert r == [s[0]] + t;
      forall k | 0 <= k < |t| ensures le(s[0], t[k]) {
        assert t[k] in multiset(s[1..]) + multiset{x} by {
          assert t[k] in multiset(t);
        }
        if t[k] != x {
          assert t[k] in s[1..];
        }
      }
    }
  }

  /** The stable sort behind LINQ's `OrderBy`: a permutation of the input,
      ordered by `le`. */
  function SortBy<T(!new)>(s: seq<T>, le: (T, T) -> bool): (r: seq<T>)
    requires TotalPreorder(le)
    ensures |r| == |s| && multiset(r) == multiset(s)
    ensures Sorted(r, le)
  {
    if s == [] then []
    else
      var rest := SortBy(s[1..], le);
      InsertSorted(s[0], rest, le);
      assert s == [s[0]] + s[1..];
      Insert(s[0], rest, le)
  }

  /** Sorting a sequence that is already in order returns it as it is. */
  lemma {:induction false} SortSorted<T(!new)>(s: seq<T>, le: (T, T) -> bool)
    requires TotalPreorder(le) && Sorted(s, le)
    ensures SortBy(s, le) == s
  {
    if s != [] {
      SortSorted(s[1..], le);
      assert s == [s[0]] + s[1..];
    }
  }

  /** Two elements `le` cannot tell apart. */
  predicate Tied<T>(le: (T, T) -> bool, a: T, b: T) {
    le(a, b) && le(b, a)
  }

  /** The elements of `s` tied with `k`, in order. */
  function TiedWith<T>(s: seq<T>, le: (T, T) -> bool, k: T): seq<T> {
    if s == [] then []
    else (if Tied(le, s[0], k) then [s[0]] else []) + TiedWith(s[1..], le, k)
  }

  lemma {:induction false} InsertStable<T(!new)>(x: T, s: seq<T>, le: (T, T) -> bool, k: T)
    requires TotalPreorder(le)
    ensures TiedWith(Insert(x, s, le), le, k) == (if Tied(le, x, k) then [x] else []) + TiedWith(s, le, k)
  {
    if s == [] || le(x, s[0]) {
      var r := [x] + s;
      assert Insert(x, s, le) == r;
      assert r[0] == x && r[1..] == s;
    } else {
      var t := Insert(x, s[1..], le);
      InsertStable(x, s[1..], le, k);
      var r := [s[0]] + t;
      assert Insert(x, s, le) == r;
      assert r[0] == s[0] && r[1..] == t;
      // s[0] comes strictly before x, so the two cannot both be tied with k
      assert !(Tied(le, x, k) && Tied(le, s[0], k));
    }
  }

  /** `OrderBy` is stable: the elements tied with any `k` keep their input order. */
  lemma {:induction false} SortStable<T(!new)>(s: seq<T>, le: (T, T) -> bool, k: T)
    requires TotalPreorder(le)
    ensures TiedWith(SortBy(s, le), le, k) == TiedWith(s, le, k)
  {
    if s != [] {
      SortStable(s[1..], le, k);
      InsertStable(s[0], SortBy(s[1..], le), le, k);
    }
  }
}

=== FILE: comment_actions.dfy ===
/** The comment thread of a complaint: posting a comment with up to three
    attachments, and reading the thread as the caller's role allows. */
module CommentActions {
  import opened Wrappers
  import opened Text
  import opened Collections
  import opened Entities
  import opened Store

  const MaxContentLength: nat := 1000
  const MaxAttachments: nat := 3
  const AllowedTypes: seq<string> := ["image/jpeg", "image/png", "image/gif", "application/pdf"]
  const UnknownAuthor: string := "Unknown"
  const UploadFolder: string := "/uploads/comments/"

  /** A posted file: its client-side name, content type and length, and the
      name it is stored under (a fresh GUID with the original extension,
      chosen by the caller of this model). */
  datatype Upload = Upload(fileName: string, contentType: string, length: int, storedName: string)

  /** `IsValidFileType`: the content type, lower-cased, is one of the four allowed. */
  predicate IsValidFileType(contentType: string) {
    ToLower(contentType) in AllowedTypes
  }

  /** The check ignores the case of the content type. */
  lemma FileTypeIgnoresCase(contentType: string)
    ensures IsValidFileType(contentType) <==> IsValidFileType(ToLower(contentType))
  {
    assert ToLower(ToLower(contentType)) == ToLower(contentType);
  }

  /** A file that is saved: not empty, and of an allowed type. */
  predicate Storable(u: Upload) {
    u.length > 0 && IsValidFileType(u.contentType)
  }

  /** The attachment row a saved file becomes. */
  function Stored(commentId: int, u: Upload, now: int): Attachment {
    Attachment(commentId, u.fileName, UploadFolder + u.storedName, u.contentType, u.length, now)
  }

  function StoredAll(commentId: int, us: seq<Upload>, now: int): (r: seq<Attachment>)
    ensures |r| == |us|
    ensures forall i :: 0 <= i < |us| ==> r[i] == Stored(commentId, us[i], now)
  {
    seq(|us|, i requires 0 <= i < |us| => Stored(commentId, us[i], now))
  }

  /** `attachments.Take(3)`: the first three files posted, or all of them
      when there are fewer. */
  function FirstFew(us: seq<Upload>): (r: seq<Upload>)
    ensures |r| == if |us| <= MaxAttachments then |us| else MaxAttachments
    ensures r == us[..|r|]
  {
    if |us| <= MaxAttachments then us else us[..MaxAttachments]
  }

  /** Row `a` is the row of one of the first three posted files, a storable one. */
  predicate SavedFrom(commentId: int, us: seq<Upload>, now: int, a: Attachment) {
    exists j :: 0 <= j < |us| && j < MaxAttachments && Storable(us[j]) && a == Stored(commentId, us[j], now)
  }

  /** The attachment rows of comment `commentId`: one for each storable file
      among the first three posted, in the order posted. */
  function AttachmentsFor(commentId: int, us: seq<Upload>, now: int): (r: seq<Attachment>)
    ensures |r| <= MaxAttachments
    ensures forall i :: 0 <= i < |r| ==> r[i].commentId == commentId && r[i].uploadedAt == now
  {
    StoredAll(commentId, Filter(FirstFew(us), Storable), now)
  }

  /** The rows saved are exactly those of the storable files among the
      first three: a fourth file, an empty one or one of another type leaves
      no row. */
  lemma AttachmentsForMeaning(commentId: int, us: seq<Upload>, now: int)
    ensures var r := AttachmentsFor(commentId, us, now);
      && (forall i :: 0 <= i < |r| ==> SavedFrom(commentId, us, now, r[i]))
      && (forall j :: 0 <= j < |us| && j < MaxAttachments && Storable(us[j]) ==> Stored(commentId, us[j], now) in r)
  {
    var f := FirstFew(us);
    var kept := Filter(f, Storable);
    var r := StoredAll(commentId, kept, now);
    forall i | 0 <= i < |r| ensures SavedFrom(commentId, us, now, r[i]) {
      assert kept[i] in f;
      var j :| 0 <= j < |f| && f[j] == kept[i];
      assert f[j] == us[j];
    }
    forall j | 0 <= j < |us| && j < MaxAttachments && Storable(us[j]) ensures Stored(commentId, us[j], now) in r {
      assert f[j] == us[j];
      assert f[j] in kept;
      var i :| 0 <= i < |kept| && kept[i] == f[j];
      assert r[i] == Stored(commentId, us[j], now);
    }
  }

  /** Saving one more file extends the rows by its row, when it is storable. */
  lemma StoredStep(commentId: int, s: seq<Upload>, u: Upload, now: int)
    ensures StoredAll(commentId, Filter(s + [u], Storable), now)
            == StoredAll(commentId, Filter(s, Storable), now) + (if Storable(u) then [Stored(commentId, u, now)] else [])
  {
    FilterAppend(s, [u], Storable);
    assert Filter([u], Storable) == if Storable(u) then [u] else [];
  }

  /** One more element of a list extends its prefix by that element. */
  lemma PrefixStep(us: seq<Upload>, i: nat)
    requires i < |us|
    ensures us[..i + 1] == us[..i] + [us[i]]
  {
  }

  /** The foreach over `attachments.Take(3)` that saves each storable file. */
  method SaveAttachments(commentId: int, us: seq<Upload>, now: int) returns (rows: seq<Attachment>)
    ensures rows == AttachmentsFor(commentId, us, now)
  {
    var few := FirstFew(us);
    rows := [];
    var i := 0;
    while i < |few|
      invariant 0 <= i <= |few|
      invariant rows == StoredAll(commentId, Filter(few[..i], Storable), now)
    {
      var u := few[i];
      PrefixStep(few, i);
      StoredStep(commentId, few[..i], u, now);
      if Storable(u) {
        rows := rows + [Stored(commentId, u, now)];
      }
      i := i + 1;
    }
    assert few[..i] == few;
  }

  /** The comment `Create` adds: the caller's role defaults to "User", and a
      "User"'s comment is visible whatever was asked. */
  function NewComment(t: Tables, caller: Caller, complaintId: int, content: string, visibleToUser: bool, now: int): Comment {
    var role := caller.role.GetOr(UserRole);
    Comment(t.nextId, complaintId, caller.id, caller.name.GetOr(UnknownAuthor), role, Trim(content),
            visibleToUser || role == UserRole, now)
  }

  /** The tables once the comment and its attachments are saved. */
  function Posted(t: Tables, caller: Caller, complaintId: int, content: string, visibleToUser: bool,
                  uploads: seq<Upload>, now: int): Tables {
    t.(comments := t.comments + [NewComment(t, caller, complaintId, content, visibleToUser, now)],
       attachments := t.attachments + AttachmentsFor(t.nextId, uploads, now),
       nextId := t.nextId + 1)
  }

  /** `Create`. */
  function CommentCreated(t: Tables, caller: Caller, complaintId: int, content: string, visibleToUser: bool,
                          uploads: seq<Upload>, now: int): (r: Step)
    ensures r.outcome.Rejected? ==> r.tables == t
    ensures ReferenceKept(t, r.tables)
    ensures r.outcome.Ok? ==> !IsBlank(content) && |content| <= MaxContentLength && |r.tables.comments| == |t.comments| + 1
  {
    if IsBlank(content) || |content| > MaxContentLength then Step(t, Rejected(ContentLength))
    else
      match FindComplaint(t.complaints, complaintId)
      case None => Step(t, Rejected(ComplaintNotFound))
      case Some(k) =>
        if caller.role.GetOr(UserRole) == UserRole && t.complaints[k].userId != caller.id then Step(t, Rejected(NotOwnComplaint))
        else
          Step(Posted(t, caller, complaintId, content, visibleToUser, uploads, now), Ok)
  }

  /** The content is checked first, then the complaint, then that a "User"
      comments only on their own complaint; refusals change nothing. */
  lemma CommentRefusals(t: Tables, caller: Caller, complaintId: int, content: string, visibleToUser: bool,
                        uploads: seq<Upload>, now: int)
    ensures var r := CommentCreated(t, caller, complaintId, content, visibleToUser, uploads, now);
      && (r.outcome.Rejected? ==> r.tables == t)
      && (r.outcome == Rejected(ContentLength) <==> IsBlank(content) || |content| > 1000)
      && (r.outcome.Ok? <==>
            && !IsBlank(content) && |content| <= 1000
            && FindComplaint(t.complaints, complaintId).Some?
            && (caller.role.GetOr("User") == "User" ==> t.complaints[FindComplaint(t.complaints, complaintId).value].userId == caller.id))
  {
  }

  /** A posted comment gets the next key and the trimmed content, which is
      neither empty nor longer than what was posted, and a "User"'s comment is
      always visible. */
  lemma CommentWrites(t: Tables, caller: Caller, complaintId: int, content: string, visibleToUser: bool,
                      uploads: seq<Upload>, now: int)
    requires CommentCreated(t, caller, complaintId, content, visibleToUser, uploads, now).outcome.Ok?
    ensures var r := CommentCreated(t, caller, complaintId, content, visibleToUser, uploads, now).tables;
      && |r.comments| == |t.comments| + 1 && r.comments[..|t.comments|] == t.comments
      && var c := r.comments[|t.comments|];
         && c.commentId == t.nextId && c.complaintId == complaintId && c.authorId == caller.id
         && c.authorRole == caller.role.GetOr("User") && c.authorName == caller.name.GetOr("Unknown")
         && c.content == Trim(content) && 0 < |c.content| <= |content| && c.createdAt == now
         && (c.visibleToUser <==> visibleToUser || c.authorRole == "User")
  {
    var r := CommentCreated(t, caller, complaintId, content, visibleToUser, uploads, now).tables;
    assert r == Posted(t, caller, complaintId, content, visibleToUser, uploads, now);
  }

  /** The attachments of a posted comment, at most three, all hang off it,
      and nothing but the comments, the attachments and the key counter
      changes. */
  lemma AttachmentWrites(t: Tables, caller: Caller, complaintId: int, content: string, visibleToUser: bool,
                         uploads: seq<Upload>, now: int)
    requires CommentCreated(t, caller, complaintId, content, visibleToUser, uploads, now).outcome.Ok?
    ensures var r := CommentCreated(t, caller, complaintId, content, visibleToUser, uploads, now).tables;
      && r.attachments[..|t.attachments|] == t.attachments
      && |t.attachments| <= |r.attachments| <= |t.attachments| + 3
      && (forall i :: |t.attachments| <= i < |r.attachments| ==> r.attachments[i].commentId == t.nextId)
      && r == t.(comments := r.comments, attachments := r.attachments, nextId := t.nextId + 1)
  {
    var r := CommentCreated(t, caller, complaintId, content, visibleToUser, uploads, now).tables;
    assert r == Posted(t, caller, complaintId, content, visibleToUser, uploads, now);
    var added := AttachmentsFor(t.nextId, uploads, now);
    assert r.attachments == t.attachments + added;
    forall i | |t.attachments| <= i < |r.attachments| ensures r.attachments[i].commentId == t.nextId {
      assert r.attachments[i] == added[i - |t.attachments|];
    }
  }

  /** Saving a comment and its attachments under the next key keeps the
      tables consistent. */
  lemma PostedConsistent(t: Tables, caller: Caller, complaintId: int, content: string, visibleToUser: bool,
                         uploads: seq<Upload>, now: int)
    requires Consistent(t)
    ensures Consistent(Posted(t, caller, complaintId, content, visibleToUser, uploads, now))
  {
    var s := Posted(t, caller, complaintId, content, visibleToUser, uploads, now);
    var added := AttachmentsFor(t.nextId, uploads, now);
    assert s.attachments == t.attachments + added;
    forall i | 0 <= i < |s.attachments| ensures s.attachments[i].commentId < s.nextId {
      if i < |t.attachments| {
        assert s.attachments[i] == t.attachments[i];
      } else {
        assert s.attachments[i] == added[i - |t.attachments|];
      }
    }
    forall i | 0 <= i < |s.comments| ensures s.comments[i].commentId < s.nextId {
      if i < |t.comments| {
        assert s.comments[i] == t.comments[i];
      }
    }
    assert KeysIssued(s);
  }

  lemma CommentCreatedConsistent(t: Tables, caller: Caller, complaintId: int, content: string, visibleToUser: bool,
                                 uploads: seq<Upload>, now: int)
    requires Consistent(t)
    ensures Consistent(CommentCreated(t, caller, complaintId, content, visibleToUser, uploads, now).tables)
  {
    if CommentCreated(t, caller, complaintId, content, visibleToUser, uploads, now).outcome.Ok? {
      PostedConsistent(t, caller, complaintId, content, visibleToUser, uploads, now);
    }
  }

  /** `Create` run against the database: the comment is saved, then its attachments. */
  method Create(db: Db, caller: Caller, complaintId: int, content: string, visibleToUser: bool,
                uploads: seq<Upload>, now: int) returns (outcome: Outcome)
    requires db.Valid()
    modifies db
    ensures db.Valid()
    ensures Step(db.Contents(), outcome) == CommentCreated(old(db.Contents()), caller, complaintId, content, visibleToUser, uploads, now)
  {
    CommentCreatedConsistent(db.Contents(), caller, complaintId, content, visibleToUser, uploads, now);
    if IsBlank(content) || |content| > MaxContentLength {
      return Rejected(ContentLength);
    }
    var found := FindComplaint(db.complaints, complaintId);
    if found.None? {
      return Rejected(ComplaintNotFound);
    }
    if caller.role.GetOr(UserRole) == UserRole && db.complaints[found.value].userId != caller.id {
      return Rejected(NotOwnComplaint);
    }
    Post(db, caller, complaintId, content, visibleToUser, uploads, now);
    outcome := Ok;
  }

  /** The two saves of `Create`: the comment, then its attachments. */
  method Post(db: Db, caller: Caller, complaintId: int, content: string, visibleToUser: bool,
              uploads: seq<Upload>, now: int)
    modifies db
    ensures db.Contents() == Posted(old(db.Contents()), caller, complaintId, content, visibleToUser, uploads, now)
  {
    var t := db.Contents();
    var comment := NewComment(t, caller, complaintId, content, visibleToUser, now);
    var rows := SaveAttachments(db.nextId, uploads, now);
    db.comments, db.attachments, db.nextId := db.comments + [comment], db.attachments + rows, db.nextId + 1;
    assert db.Contents() == t.(comments := t.comments + [comment], attachments := t.attachments + rows, nextId := t.nextId + 1);
  }

  /** One entry of the thread: a comment with its attachments. */
  datatype Entry = Entry(comment: Comment, attachments: seq<Attachment>)

  /** What `GetComments` answers: a refusal, or the thread. */
  datatype Thread = Refused(error: Error) | Listed(entries: seq<Entry>)

  /** The comments of a thread, in order. */
  function EntryComments(es: seq<Entry>): seq<Comment> {
    seq(|es|, i requires 0 <= i < |es| => es[i].comment)
  }

  /** `OrderBy(c => c.CreatedAt)`. */
  function OlderFirst(a: Comment, b: Comment): bool {
    a.createdAt <= b.createdAt
  }

  lemma OlderFirstIsTotalPreorder()
    ensures TotalPreorder(OlderFirst)
  {
  }

  /** Whether a caller in `role` sees comment `c`: a "User" sees only the visible ones. */
  predicate Shown(role: string, c: Comment) {
    role != UserRole || c.visibleToUser
  }

  /** The comments of complaint `complaintId` a caller in `role` sees, oldest first. */
  function VisibleComments(t: Tables, role: string, complaintId: int): (cs: seq<Comment>)
    ensures multiset(cs) == multiset(Filter(t.comments, (c: Comment) => c.complaintId == complaintId && Shown(role, c)))
    ensures forall c :: c in cs <==> c in t.comments && c.complaintId == complaintId && Shown(role, c)
    ensures forall i, j :: 0 <= i < j < |cs| ==> cs[i].createdAt <= cs[j].createdAt
  {
    var keep := (c: Comment) => c.complaintId == complaintId && Shown(role, c);
    var mine := Filter(t.comments, keep);
    FilterMembers(t.comments, keep);
    OlderFirstIsTotalPreorder();
    var cs := SortBy(mine, OlderFirst);
    assert forall c :: c in cs <==> c in mine by {
      forall c ensures c in cs <==> c in mine {
        assert c in cs <==> c in multiset(cs);
        assert c in mine <==> c in multiset(mine);
      }
    }
    cs
  }

  /** `Include(c => c.Attachments)`: each comment with exactly the attachments that hang off it. */
  function WithAttachments(t: Tables, cs: seq<Comment>): (r: seq<Entry>)
    ensures |r| == |cs|
    ensures forall i :: 0 <= i < |r| ==> r[i].comment == cs[i]
    ensures forall c :: (exists i :: 0 <= i < |r| && r[i].comment == c) <==> c in cs
    ensures forall i :: 0 <= i < |r| ==> forall a :: a in r[i].attachments <==> a in t.attachments && a.commentId == cs[i].commentId
  {
    var r := seq(|cs|, i requires 0 <= i < |cs| => Entry(cs[i], Filter(t.attachments, (a: Attachment) => a.commentId == cs[i].commentId)));
    forall i | 0 <= i < |cs| ensures forall a :: a in r[i].attachments <==> a in t.attachments && a.commentId == cs[i].commentId {
      FilterMembers(t.attachments, (a: Attachment) => a.commentId == cs[i].commentId);
    }
    r
  }

  /** `GetComments`: a missing complaint is reported; a "User" may read only
      the thread of their own complaint and only its visible comments; the
      thread runs oldest first, each comment with exactly its attachments. */
  function Comments(t: Tables, caller: Caller, complaintId: int): (r: Thread)
    ensures r == Refused(ComplaintNotFound) <==> FindComplaint(t.complaints, complaintId).None?
    ensures r == Refused(AccessDenied) <==>
              FindComplaint(t.complaints, complaintId).Some? && caller.role.GetOr("User") == "User" &&
              t.complaints[FindComplaint(t.complaints, complaintId).value].userId != caller.id
    ensures r.Listed? ==>
              multiset(EntryComments(r.entries)) ==
              multiset(Filter(t.comments, (c: Comment) => c.complaintId == complaintId && Shown(caller.role.GetOr(UserRole), c)))
    ensures r.Listed? ==> forall c :: (exists i :: 0 <= i < |r.entries| && r.entries[i].comment == c) <==>
                                        c in t.comments && c.complaintId == complaintId && (caller.role.GetOr("User") != "User" || c.visibleToUser)
    ensures r.Listed? ==> forall i, j :: 0 <= i < j < |r.entries| ==> r.entries[i].comment.createdAt <= r.entries[j].comment.createdAt
    ensures r.Listed? ==> forall i :: 0 <= i < |r.entries| ==>
                            forall a :: a in r.entries[i].attachments <==> a in t.attachments && a.commentId == r.entries[i].comment.commentId
  {
    var role := caller.role.GetOr(UserRole);
    match FindComplaint(t.complaints, complaintId)
    case None => Refused(ComplaintNotFound)
    case Some(k) =>
      if role == UserRole && t.complaints[k].userId != caller.id then Refused(AccessDenied)
      else
        var cs := VisibleComments(t, role, complaintId);
        assert EntryComments(WithAttachments(t, cs)) == cs;
        Listed(WithAttachments(t, cs))
  }
}

=== FILE: complaint_actions.dfy ===
/** The citizen's controller: submitting a complaint (with automatic routing
    and points), rating a fixed complaint, and changing a status. */
module ComplaintActions {
  import opened Wrappers
  import opened Text
  import opened Collections
  import opened Entities
  import opened Badges
  import opened Ledger
  import opened Routing
  import opened Store

  const PointsPerComplaint: int := 5
  const AutoAssignNote: string := "Auto-assigned based on problem type"
  /** How long after its creation a rating may still be edited. */
  const EditWindow: int := 24 * TicksPerHour

  /** `ComputeBadgeLevel`: the badge table in threshold order, walked by
      `LastReached`. */
  method ComputeBadgeLevel(db: Db, points: int) returns (level: string)
    ensures level == BadgeFor(Ordered(db.badges), points)
  {
    level := LastReached(Ordered(db.badges), points);
  }

  /** The foreach of `ComputeBadgeLevel`, keeping the name of every badge
      `points` reaches. */
  method LastReached(badges: seq<Badge>, points: int) returns (level: string)
    ensures level == BadgeFor(badges, points)
  {
    level := Floor;
    var i := 0;
    while i < |badges|
      invariant 0 <= i <= |badges|
      invariant level == BadgeFor(badges[..i], points)
    {
      assert badges[..i + 1] == badges[..i] + [badges[i]];
      BadgeForSnoc(badges[..i], badges[i], points);
      if points >= badges[i].pointsRequired {
        level := badges[i].levelName;
      }
      i := i + 1;
    }
    assert badges[..i] == badges;
  }

  /** The complaint a submission stores, before routing touches it. */
  function NewComplaint(id: int, caller: int, problemType: string, description: Option<string>, location: GeoPoint,
                        address: Option<string>, photoPath: Option<string>, now: int): Complaint
  {
    Complaint(id, caller, problemType, description, photoPath, location, address, Pending, now, None, None, None)
  }

  /** The tables with the new complaint appended under the next key. */
  function Filed(t: Tables, caller: int, problemType: string, description: Option<string>, location: GeoPoint,
                 address: Option<string>, photoPath: Option<string>, now: int): (r: Tables)
    ensures |r.complaints| == |t.complaints| + 1 && r.complaints[..|t.complaints|] == t.complaints
    ensures var c := r.complaints[|t.complaints|];
      c.complaintId == t.nextId && c.userId == caller && c.status == Pending && c.departmentId == None && c.assignedToUserId == None
    ensures KeysIssued(t) ==> KeysIssued(r)
    ensures r == t.(complaints := r.complaints, nextId := t.nextId + 1)
  {
    t.(complaints := t.complaints + [NewComplaint(t.nextId, caller, problemType, description, location, address, photoPath, now)],
       nextId := t.nextId + 1)
  }

  /** The submitter's row with 5 more points and the badge those points earn. */
  function Awarded(t: Tables, caller: int): (r: seq<User>)
    ensures |r| == |t.users|
    ensures forall k :: 0 <= k < |r| ==> r[k].email == t.users[k].email && r[k].userId == t.users[k].userId
    ensures BadgesAgree(t.users, t.badges) ==> BadgesAgree(r, t.badges)
  {
    match FindUser(t.users, caller)
    case None => t.users
    case Some(k) =>
      var p := t.users[k].points + PointsPerComplaint;
      t.users[k := t.users[k].(points := p, badgeLevel := Some(BadgeFor(Ordered(t.badges), p)))]
  }

  /** The text of the system comment about an automatic assignment. */
  function RoutedText(departments: seq<Department>, departmentId: int): string {
    "Complaint automatically assigned to " + DepartmentName(departments, departmentId) + " department"
  }

  /** `Create`: a submission with problem type `problemType` by `caller`.
      A blank label is refused and nothing changes. Otherwise one Pending
      complaint owned by the caller is appended under a fresh key; if an
      active mapping has that exact label the complaint is routed to its
      department, with one active assignment record (no technician,
      assigned by the submitter, the automatic note) and one "System"
      comment; without one nothing else is written and no error is
      raised; either way the submitter, if they exist, gains 5 points and
      the badge those points earn. */
  function Submit(t: Tables, caller: int, problemType: string, description: Option<string>, location: GeoPoint,
                  address: Option<string>, photoPath: Option<string>, now: int): (r: Step)
    ensures r.outcome.Rejected? ==> r.tables == t
    ensures ReferenceKept(t, r.tables)
    ensures r.outcome.Ok? <==> !IsBlank(problemType)
    ensures r.outcome.Ok? ==> |r.tables.complaints| == |t.complaints| + 1 && r.tables.nextId > t.nextId
  {
    if IsBlank(problemType) then Step(t, Rejected(ProblemTypeRequired))
    else
      var t1 := Filed(t, caller, problemType, description, location, address, photoPath, now);
      var t2 := AutoAssigned(t1, |t.complaints|, caller, problemType, now);
      Step(t2.(users := Awarded(t2, caller)), Ok)
  }

  /** The routing step of a submission for the new complaint at position `k`:
      nothing without an active mapping for the label; with one, the
      department set on the complaint, an active assignment record and a
      "System" comment. */
  function AutoAssigned(t: Tables, k: nat, caller: int, problemType: string, now: int): (r: Tables)
    requires k < |t.complaints|
    ensures r.users == t.users && ReferenceKept(t, r)
    ensures |r.complaints| == |t.complaints| && r.complaints[k].status == t.complaints[k].status
  {
    match Route(t.mappings, problemType)
    case None => t
    case Some(m) =>
      var id := t.complaints[k].complaintId;
      var routed := t.(complaints := t.complaints[k := t.complaints[k].(departmentId := Some(m.departmentId), updatedAt := Some(now))],
                       assignments := t.assignments + [Assignment(id, Some(m.departmentId), None, Some(AutoAssignNote), now, caller, true)]);
      WithComment(routed, id, caller, "System", "System", RoutedText(t.departments, m.departmentId), now)
  }

  /** Routing touches only the complaint at `k` (its department and update
      time), the assignment ledger, the comments and the key counter. */
  lemma AutoAssignedKeeps(t: Tables, k: nat, caller: int, problemType: string, now: int)
    requires k < |t.complaints|
    ensures var r := AutoAssigned(t, k, caller, problemType, now);
      && r == t.(complaints := r.complaints, assignments := r.assignments, comments := r.comments, nextId := r.nextId)
      && |r.complaints| == |t.complaints|
      && (forall j :: 0 <= j < |t.complaints| && j != k ==> r.complaints[j] == t.complaints[j])
      && r.complaints[k] == t.complaints[k].(departmentId := r.complaints[k].departmentId, updatedAt := r.complaints[k].updatedAt)
  {
  }

  /** With an active mapping for the label, the complaint at `k` gets its
      department, the ledger one active record without a technician and the
      comments one "System" comment; without one nothing changes. */
  lemma AutoAssignedRoutes(t: Tables, k: nat, caller: int, problemType: string, now: int)
    requires k < |t.complaints|
    ensures var r := AutoAssigned(t, k, caller, problemType, now);
      Route(t.mappings, problemType).Some? ==>
        var m := Route(t.mappings, problemType).value;
        && r.complaints[k].departmentId == Some(m.departmentId)
        && r.assignments == t.assignments + [Assignment(t.complaints[k].complaintId, Some(m.departmentId), None, Some(AutoAssignNote), now, caller, true)]
        && |r.comments| == |t.comments| + 1 && r.comments[..|t.comments|] == t.comments
        && r.comments[|t.comments|].authorRole == "System"
        && r.comments[|t.comments|].complaintId == t.complaints[k].complaintId
    ensures Route(t.mappings, problemType).None? ==> AutoAssigned(t, k, caller, problemType, now) == t
  {
  }

  /** What a submission does, as listed at `Submit`. */
  lemma SubmitEffects(t: Tables, caller: int, problemType: string, description: Option<string>, location: GeoPoint,
                      address: Option<string>, photoPath: Option<string>, now: int)
    ensures var r := Submit(t, caller, problemType, description, location, address, photoPath, now);
      && (IsBlank(problemType) <==> r.outcome.Rejected?)
      && (IsBlank(problemType) ==> r == Step(t, Rejected(ProblemTypeRequired)))
      && (r.tables == t.(complaints := r.tables.complaints, assignments := r.tables.assignments,
                         comments := r.tables.comments, users := r.tables.users, nextId := r.tables.nextId))
    ensures var r := Submit(t, caller, problemType, description, location, address, photoPath, now);
      r.outcome.Ok? ==>
        && |r.tables.complaints| == |t.complaints| + 1
        && r.tables.complaints[..|t.complaints|] == t.complaints
        && var c := r.tables.complaints[|t.complaints|];
        && c.complaintId == t.nextId && c.userId == caller && c.problemType == problemType
        && c.status == Pending && c.createdAt == now && c.assignedToUserId == None
        && r.tables.users == Awarded(t, caller)
  {
    if !IsBlank(problemType) {
      var t1 := Filed(t, caller, problemType, description, location, address, photoPath, now);
      var t2 := AutoAssigned(t1, |t.complaints|, caller, problemType, now);
      AutoAssignedKeeps(t1, |t.complaints|, caller, problemType, now);
      assert t2.complaints[..|t.complaints|] == t.complaints;
    }
  }

  /** The routing part of a submission, as listed at `Submit`. */
  lemma SubmitRouting(t: Tables, caller: int, problemType: string, description: Option<string>, location: GeoPoint,
                      address: Option<string>, photoPath: Option<string>, now: int)
    ensures var r := Submit(t, caller, problemType, description, location, address, photoPath, now);
      r.outcome.Ok? && Route(t.mappings, problemType).Some? ==>
        var m := Route(t.mappings, problemType).value;
        && r.tables.complaints[|t.complaints|].departmentId == Some(m.departmentId)
        && r.tables.assignments == t.assignments + [Assignment(t.nextId, Some(m.departmentId), None, Some(AutoAssignNote), now, caller, true)]
        && |r.tables.comments| == |t.comments| + 1 && r.tables.comments[..|t.comments|] == t.comments
        && r.tables.comments[|t.comments|].authorRole == "System"
        && r.tables.comments[|t.comments|].complaintId == t.nextId
    ensures var r := Submit(t, caller, problemType, description, location, address, photoPath, now);
      r.outcome.Ok? && Route(t.mappings, problemType).None? ==>
        && r.tables.complaints[|t.complaints|].departmentId == None
        && r.tables.assignments == t.assignments
        && r.tables.comments == t.comments
  {
    if !IsBlank(problemType) {
      var t1 := Filed(t, caller, problemType, description, location, address, photoPath, now);
      AutoAssignedRoutes(t1, |t.complaints|, caller, problemType, now);
    }
  }

  /** A submission awards exactly 5 points to the submitter, with the badge
      those points earn, and changes nothing else in their row or in any
      other user's. */
  lemma SubmitAwardsPoints(t: Tables, caller: int, problemType: string, description: Option<string>, location: GeoPoint,
                           address: Option<string>, photoPath: Option<string>, now: int)
    requires !IsBlank(problemType) && DistinctUserIds(t.users)
    ensures var r := Submit(t, caller, problemType, description, location, address, photoPath, now);
      && |r.tables.users| == |t.users|
      && forall k :: 0 <= k < |t.users| ==>
           r.tables.users[k] == if t.users[k].userId == caller
                                then t.users[k].(points := t.users[k].points + 5,
                                                 badgeLevel := Some(BadgeFor(Ordered(t.badges), t.users[k].points + 5)))
                                else t.users[k]
  {
  }

  /** A submission keeps the database consistent. */
  lemma {:induction false} SubmitConsistent(t: Tables, caller: int, problemType: string, description: Option<string>,
                                            location: GeoPoint, address: Option<string>, photoPath: Option<string>, now: int)
    requires Consistent(t)
    ensures Consistent(Submit(t, caller, problemType, description, location, address, photoPath, now).tables)
  {
    if !IsBlank(problemType) {
      var c := NewComplaint(t.nextId, caller, problemType, description, location, address, photoPath, now);
      var t1 := t.(complaints := t.complaints + [c], nextId := t.nextId + 1);
      AddComplaintConsistent(t, c);
      var t2 := AutoAssigned(t1, |t.complaints|, caller, problemType, now);
      AutoAssignedConsistent(t1, |t.complaints|, caller, problemType, now);
      EditUsersConsistent(t2, Awarded(t2, caller));
    }
  }

  /** Routing a complaint that has no assignment record yet keeps the
      tables consistent; it writes no user and no badge. */
  lemma {:induction false} AutoAssignedConsistent(t: Tables, k: nat, caller: int, problemType: string, now: int)
    requires Consistent(t) && k < |t.complaints|
    requires forall j :: 0 <= j < |t.assignments| ==> t.assignments[j].complaintId != t.complaints[k].complaintId
    ensures Consistent(AutoAssigned(t, k, caller, problemType, now))
    ensures AutoAssigned(t, k, caller, problemType, now).users == t.users
    ensures AutoAssigned(t, k, caller, problemType, now).badges == t.badges
  {
    match Route(t.mappings, problemType)
    case None =>
    case Some(m) =>
      var id := t.complaints[k].complaintId;
      var cs := t.complaints[k := t.complaints[k].(departmentId := Some(m.departmentId), updatedAt := Some(now))];
      var rec := Assignment(id, Some(m.departmentId), None, Some(AutoAssignNote), now, caller, true);
      EditComplaintsConsistent(t, cs);
      AppendedFreshHasOneActive(t.assignments, rec);
      var routed := t.(complaints := cs, assignments := t.assignments + [rec]);
      assert Consistent(routed);
      WithCommentConsistent(routed, id, caller, "System", "System", RoutedText(t.departments, m.departmentId), now);
  }

  /** The routing step run against the database. */
  method AutoAssign(db: Db, k: nat, caller: int, problemType: string, now: int)
    requires k < |db.complaints|
    modifies db
    ensures db.Contents() == AutoAssigned(old(db.Contents()), k, caller, problemType, now)
  {
    var mapping := Route(db.mappings, problemType);
    if mapping.Some? {
      var dept := mapping.value.departmentId;
      var id := db.complaints[k].complaintId;
      db.complaints := db.complaints[k := db.complaints[k].(departmentId := Some(dept), updatedAt := Some(now))];
      db.assignments := db.assignments + [Assignment(id, Some(dept), None, Some(AutoAssignNote), now, caller, true)];
      db.AddComment(id, caller, "System", "System", RoutedText(db.departments, dept), now);
    }
  }

  /** `user.Points += 5` and the recomputed badge, when the submitter exists. */
  method AwardPoints(db: Db, caller: int)
    modifies db
    ensures db.Contents() == old(db.Contents()).(users := Awarded(old(db.Contents()), caller))
  {
    ghost var t := db.Contents();
    var found := FindUser(db.users, caller);
    if found.Some? {
      var user := db.users[found.value];
      var points := user.points + PointsPerComplaint;
      var level := ComputeBadgeLevel(db, points);
      db.users := db.users[found.value := user.(points := points, badgeLevel := Some(level))];
      assert db.users == Awarded(t, caller);
    } else {
      assert t.users == Awarded(t, caller);
    }
  }

  /** `Create` run against the database. */
  method Create(db: Db, caller: Caller, problemType: string, description: Option<string>, location: GeoPoint,
                address: Option<string>, photoPath: Option<string>, now: int) returns (outcome: Outcome)
    requires db.Valid()
    modifies db
    ensures db.Valid()
    ensures Step(db.Contents(), outcome) == Submit(old(db.Contents()), caller.id, problemType, description, location, address, photoPath, now)
  {
    SubmitConsistent(db.Contents(), caller.id, problemType, description, location, address, photoPath, now);
    if IsBlank(problemType) {
      return Rejected(ProblemTypeRequired);
    }
    Record(db, caller.id, problemType, description, location, address, photoPath, now);
    outcome := Ok;
  }

  /** The writes of an accepted submission: the complaint, its routing and the points. */
  method Record(db: Db, caller: int, problemType: string, description: Option<string>, location: GeoPoint,
                address: Option<string>, photoPath: Option<string>, now: int)
    requires !IsBlank(problemType)
    modifies db
    ensures db.Contents() == Submit(old(db.Contents()), caller, problemType, description, location, address, photoPath, now).tables
  {
    File(db, caller, problemType, description, location, address, photoPath, now);
    AutoAssign(db, |db.complaints| - 1, caller, problemType, now);
    AwardPoints(db, caller);
  }

  /** The insert of the new complaint. */
  method File(db: Db, caller: int, problemType: string, description: Option<string>, location: GeoPoint,
              address: Option<string>, photoPath: Option<string>, now: int)
    modifies db
    ensures db.Contents() == Filed(old(db.Contents()), caller, problemType, description, location, address, photoPath, now)
  {
    var complaint := NewComplaint(db.nextId, caller, problemType, description, location, address, photoPath, now);
    db.complaints, db.nextId := db.complaints + [complaint], db.nextId + 1;
  }

  /** `ComplaintRatings.FirstOrDefault(r => r.ComplaintId == complaintId && r.UserId == userId)`. */
  function FindRating(rs: seq<Rating>, complaintId: int, userId: int): (r: Option<nat>)
    ensures r.Some? ==> r.value < |rs| && rs[r.value].complaintId == complaintId && rs[r.value].userId == userId
    ensures r.None? <==> forall k :: 0 <= k < |rs| ==> !(rs[k].complaintId == complaintId && rs[k].userId == userId)
  {
    FirstIndex(rs, (x: Rating) => x.complaintId == complaintId && x.userId == userId)
  }

  /** `Rate`: four checks in order, then an edit of the caller's rating or a new one. */
  function RateResult(t: Tables, caller: int, complaintId: int, score: int, comment: Option<string>, now: int): (r: Step)
    ensures r.outcome.Rejected? ==> r.tables == t
    ensures ReferenceKept(t, r.tables)
    ensures r.outcome.Ok? ==> 1 <= score <= 5 && r.tables == t.(ratings := r.tables.ratings)
    ensures r.outcome.Ok? ==> |t.ratings| <= |r.tables.ratings| <= |t.ratings| + 1
  {
    if score < 1 || score > 5 then Step(t, Rejected(ScoreOutOfRange))
    else match FindComplaint(t.complaints, complaintId)
      case None => Step(t, Rejected(ComplaintNotFound))
      case Some(k) =>
        if t.complaints[k].userId != caller then Step(t, Rejected(NotOwnComplaint))
        else if t.complaints[k].status != Fixed then Step(t, Rejected(NotFixedYet))
        else match FindRating(t.ratings, complaintId, caller)
          case Some(j) =>
            if t.ratings[j].createdAt + EditWindow < now then Step(t, Rejected(EditWindowExpired))
            else Step(t.(ratings := t.ratings[j := t.ratings[j].(score := score, comment := comment, lastModifiedAt := Some(now))]), Ok)
          case None =>
            Step(t.(ratings := t.ratings + [Rating(complaintId, caller, score, comment, now, None)]), Ok)
  }

  /** The refusals of `Rate`, in the order they are checked: a score outside
      1..5, a missing complaint, someone else's complaint, a complaint not yet
      Fixed. A refusal changes nothing, and an accepted call writes only the
      ratings. */
  lemma RateRefusals(t: Tables, caller: int, complaintId: int, score: int, comment: Option<string>, now: int)
    ensures var r := RateResult(t, caller, complaintId, score, comment, now);
      && (r.outcome.Rejected? ==> r.tables == t)
      && (r.outcome.Ok? ==> r.tables == t.(ratings := r.tables.ratings))
      && (!(1 <= score <= 5) ==> r.outcome == Rejected(ScoreOutOfRange))
      && (1 <= score <= 5 && FindComplaint(t.complaints, complaintId).None? ==> r.outcome == Rejected(ComplaintNotFound))
    ensures var r := RateResult(t, caller, complaintId, score, comment, now);
      1 <= score <= 5 && FindComplaint(t.complaints, complaintId).Some? ==>
        var c := t.complaints[FindComplaint(t.complaints, complaintId).value];
        && (c.userId != caller ==> r.outcome == Rejected(NotOwnComplaint))
        && (c.userId == caller && c.status != Fixed ==> r.outcome == Rejected(NotFixedYet))
  {
  }

  /** Once every check passes: an existing rating by the caller is edited
      (score, comment and `LastModifiedAt`, never `CreatedAt`) unless more
      than 24 hours have passed since it was created, so an edit at exactly
      24 hours is accepted; without one, a new rating stamped `now` is
      appended. */
  lemma RateWrites(t: Tables, caller: int, complaintId: int, score: int, comment: Option<string>, now: int)
    requires 1 <= score <= 5
    requires FindComplaint(t.complaints, complaintId).Some?
    requires var c := t.complaints[FindComplaint(t.complaints, complaintId).value]; c.userId == caller && c.status == Fixed
    ensures var r := RateResult(t, caller, complaintId, score, comment, now);
      FindRating(t.ratings, complaintId, caller).Some? ==>
        var j := FindRating(t.ratings, complaintId, caller).value;
        && (r.outcome == Rejected(EditWindowExpired) <==> now > t.ratings[j].createdAt + 24 * TicksPerHour)
        && (r.outcome.Ok? ==>
              && |r.tables.ratings| == |t.ratings|
              && r.tables.ratings[j] == Rating(complaintId, caller, score, comment, t.ratings[j].createdAt, Some(now))
              && forall i :: 0 <= i < |t.ratings| && i != j ==> r.tables.ratings[i] == t.ratings[i])
    ensures var r := RateResult(t, caller, complaintId, score, comment, now);
      FindRating(t.ratings, complaintId, caller).None? ==>
        r == Step(t.(ratings := t.ratings + [Rating(complaintId, caller, score, comment, now, None)]), Ok)
  {
  }

  /** `Rate` keeps the database consistent; in particular a complaint never
      gains a second rating, and after an accepted call the complaint's rating
      is the caller's, with the new score. */
  lemma {:induction false} RateConsistent(t: Tables, caller: int, complaintId: int, score: int, comment: Option<string>, now: int)
    requires Consistent(t)
    ensures Consistent(RateResult(t, caller, complaintId, score, comment, now).tables)
    ensures var r := RateResult(t, caller, complaintId, score, comment, now);
      r.outcome.Ok? ==> exists j :: 0 <= j < |r.tables.ratings| && r.tables.ratings[j].complaintId == complaintId
                                    && r.tables.ratings[j].userId == caller && r.tables.ratings[j].score == score
  {
    var r := RateResult(t, caller, complaintId, score, comment, now);
    if r.outcome.Ok? {
      var k := FindComplaint(t.complaints, complaintId).value;
      match FindRating(t.ratings, complaintId, caller)
      case Some(j) =>
        RatingEditedConsistent(t, j, score, comment, now);
        assert r.tables.ratings[j].complaintId == complaintId;
      case None =>
        RatingAddedConsistent(t, k, Rating(complaintId, caller, score, comment, now, None));
        assert r.tables.ratings[|t.ratings|].complaintId == complaintId;
    }
  }

  /** Editing the score and comment of a rating keeps the tables consistent. */
  lemma RatingEditedConsistent(t: Tables, j: nat, score: int, comment: Option<string>, now: int)
    requires Consistent(t) && j < |t.ratings| && 1 <= score <= 5
    ensures Consistent(t.(ratings := t.ratings[j := t.ratings[j].(score := score, comment := comment, lastModifiedAt := Some(now))]))
  {
    var rs := t.ratings[j := t.ratings[j].(score := score, comment := comment, lastModifiedAt := Some(now))];
    assert RatingsByReporters(rs, t.complaints) by {
      forall i | 0 <= i < |rs| ensures 1 <= rs[i].score <= 5 && Authored(t.complaints, rs[i].complaintId, rs[i].userId) {
        assert rs[i].complaintId == t.ratings[i].complaintId && rs[i].userId == t.ratings[i].userId;
      }
    }
    EditRatingsConsistent(t, rs);
  }

  /** Adding a rating of complaint `k` by its reporter, who has not rated
      it yet, keeps the tables consistent. */
  lemma RatingAddedConsistent(t: Tables, k: nat, x: Rating)
    requires Consistent(t) && k < |t.complaints| && 1 <= x.score <= 5
    requires x.complaintId == t.complaints[k].complaintId && x.userId == t.complaints[k].userId
    requires forall i :: 0 <= i < |t.ratings| ==> !(t.ratings[i].complaintId == x.complaintId && t.ratings[i].userId == x.userId)
    ensures Consistent(t.(ratings := t.ratings + [x]))
  {
    var rs := t.ratings + [x];
    var n := |t.ratings|;
    forall i | 0 <= i < n ensures t.ratings[i].complaintId != x.complaintId {
      RatedByReporter(t, i, k);
    }
    assert Authored(t.complaints, rs[n].complaintId, rs[n].userId);
    EditRatingsConsistent(t, rs);
  }


  /** `Rate` run against the database. */
  method Rate(db: Db, caller: Caller, complaintId: int, score: int, comment: Option<string>, now: int) returns (outcome: Outcome)
    requires db.Valid()
    modifies db
    ensures db.Valid()
    ensures Step(db.Contents(), outcome) == RateResult(old(db.Contents()), caller.id, complaintId, score, comment, now)
  {
    RateConsistent(db.Contents(), caller.id, complaintId, score, comment, now);
    if score < 1 || score > 5 {
      return Rejected(ScoreOutOfRange);
    }
    var found := FindComplaint(db.complaints, complaintId);
    if found.None? {
      return Rejected(ComplaintNotFound);
    }
    var complaint := db.complaints[found.value];
    if complaint.userId != caller.id {
      return Rejected(NotOwnComplaint);
    }
    if complaint.status != Fixed {
      return Rejected(NotFixedYet);
    }
    var existing := FindRating(db.ratings, complaintId, caller.id);
    if existing.Some? {
      var rating := db.ratings[existing.value];
      if rating.createdAt + EditWindow < now {
        return Rejected(EditWindowExpired);
      }
      db.ratings := db.ratings[existing.value := rating.(score := score, comment := comment, lastModifiedAt := Some(now))];
    } else {
      db.ratings := db.ratings + [Rating(complaintId, caller.id, score, comment, now, None)];
    }
    outcome := Ok;
  }

  /** `UpdateStatus` on the citizen's controller: the caller's Role claim,
      "User" when absent, decides the check. Only a Technician must be the
      assignee; the requested status is then set whatever the current one,
      with no transition check, and one status-change comment is added. */
  function StatusChanged(t: Tables, caller: Caller, id: int, status: Status, now: int): (r: Step)
    ensures r.outcome.Rejected? ==> r.tables == t
    ensures ReferenceKept(t, r.tables)
    ensures r.outcome.Ok? ==> |r.tables.complaints| == |t.complaints| && |r.tables.comments| == |t.comments| + 1
  {
    var role := caller.role.GetOr(UserRole);
    match FindComplaint(t.complaints, id)
    case None => Step(t, Rejected(ComplaintNotFound))
    case Some(k) =>
      var was := t.complaints[k].status;
      if role == TechnicianRole && t.complaints[k].assignedToUserId != Some(caller.id) then Step(t, Rejected(NotAssignedToCaller))
      else Step(WithComment(WithStatus(t, k, status, now), id, caller.id, caller.name.GetOr("User"), role, StatusChangeText(was, status), now), Ok)
  }

  /** The call is refused exactly when the complaint is missing or the
      caller is a Technician it is not assigned to, and then nothing changes.
      Otherwise the complaint takes the requested status from any status,
      Fixed included, and exactly one comment is added. */
  lemma StatusChangedEffects(t: Tables, caller: Caller, id: int, status: Status, now: int)
    ensures var r := StatusChanged(t, caller, id, status, now);
      && (r.outcome.Rejected? ==> r.tables == t)
      && (FindComplaint(t.complaints, id).None? ==> r.outcome == Rejected(ComplaintNotFound))
    ensures var r := StatusChanged(t, caller, id, status, now);
      FindComplaint(t.complaints, id).Some? ==>
        var k := FindComplaint(t.complaints, id).value;
        var role := caller.role.GetOr(UserRole);
        && (r.outcome.Ok? <==> role != TechnicianRole || t.complaints[k].assignedToUserId == Some(caller.id))
        && (r.outcome.Ok? ==>
              && r.tables.complaints == t.complaints[k := t.complaints[k].(status := status, updatedAt := Some(now))]
              && r.tables.comments == t.comments + [Comment(t.nextId, id, caller.id, caller.name.GetOr("User"), role,
                                                            StatusChangeText(t.complaints[k].status, status), true, now)]
              && r.tables == t.(complaints := r.tables.complaints, comments := r.tables.comments, nextId := t.nextId + 1))
  {
  }

  lemma StatusChangedConsistent(t: Tables, caller: Caller, id: int, status: Status, now: int)
    requires Consistent(t)
    ensures Consistent(StatusChanged(t, caller, id, status, now).tables)
  {
    match FindComplaint(t.complaints, id)
    case None =>
    case Some(k) =>
      StatusChangeConsistent(t, k, status, now, id, caller.id, caller.name.GetOr("User"), caller.role.GetOr(UserRole),
                             StatusChangeText(t.complaints[k].status, status));
  }

  /** `UpdateStatus` run against the database. */
  method UpdateStatus(db: Db, caller: Caller, id: int, status: Status, now: int) returns (outcome: Outcome)
    requires db.Valid()
    modifies db
    ensures db.Valid()
    ensures Step(db.Contents(), outcome) == StatusChanged(old(db.Contents()), caller, id, status, now)
  {
    StatusChangedConsistent(db.Contents(), caller, id, status, now);
    var role := caller.role.GetOr(UserRole);
    var found := FindComplaint(db.complaints, id);
    if found.None? {
      return Rejected(ComplaintNotFound);
    }
    var k := found.value;
    if role == TechnicianRole && db.complaints[k].assignedToUserId != Some(caller.id) {
      return Rejected(NotAssignedToCaller);
    }
    var was := db.complaints[k].status;
    db.SetStatus(k, status, now);
    db.AddComment(id, caller.id, caller.name.GetOr("User"), role, StatusChangeText(was, status), now);
    outcome := Ok;
  }
}

=== FILE: department_actions.dfy ===
/** The department manager's controller: every action is scoped to the
    manager's own department, and a manager without one is forbidden. */
module DepartmentActions {
  import opened Wrappers
  import opened Collections
  import opened Entities
  import opened Ledger
  import opened Store

  const ManagerName: string := "Department Manager"
  const ManagerAssignText: string := "Complaint assigned to technician by Department Manager"

  /** `user?.Department == null` fails for a missing user, a user without a
      department and a department key with no department row; otherwise the
      manager's department. */
  function ManagerDepartment(t: Tables, caller: int): (d: Option<int>)
    ensures d.Some? <==> FindUser(t.users, caller).Some? && t.users[FindUser(t.users, caller).value].departmentId.Some?
                         && exists j :: 0 <= j < |t.departments| && Some(t.departments[j].departmentId) == t.users[FindUser(t.users, caller).value].departmentId
    ensures d.Some? ==> d == t.users[FindUser(t.users, caller).value].departmentId
  {
    match FindUser(t.users, caller)
    case None => None
    case Some(u) =>
      match t.users[u].departmentId
      case None => None
      case Some(id) =>
        if FirstIndex(t.departments, (x: Department) => x.departmentId == id).Some? then Some(id) else None
  }

  /** The complaints and counts `Index` shows. */
  datatype DepartmentView = DepartmentView(complaints: seq<Complaint>, pending: nat, inProgress: nat, fixed: nat)

  /** The complaints of department `dept`, newest first: exactly the
      department's complaints, each once, in order of creation time. */
  function DepartmentComplaints(cs: seq<Complaint>, dept: Option<int>): (r: seq<Complaint>)
    ensures multiset(r) == multiset(Filter(cs, (c: Complaint) => c.departmentId == dept))
    ensures forall c :: c in r <==> c in cs && c.departmentId == dept
    ensures forall i, j :: 0 <= i < j < |r| ==> r[i].createdAt >= r[j].createdAt
  {
    var mine := Filter(cs, (c: Complaint) => c.departmentId == dept);
    FilterMembers(cs, (c: Complaint) => c.departmentId == dept);
    NewerFirstIsTotalPreorder();
    var r := SortBy(mine, NewerFirst);
    assert forall c :: c in r <==> c in mine by {
      forall c ensures c in r <==> c in mine {
        assert c in r <==> c in multiset(r);
        assert c in mine <==> c in multiset(mine);
      }
    }
    r
  }

  /** The view of department `dept`: its complaints and, for each status,
      how many of them have it; the three counts partition the list. */
  function ViewOf(cs: seq<Complaint>, dept: Option<int>): (v: DepartmentView)
    ensures v.complaints == DepartmentComplaints(cs, dept)
    ensures v.pending == Count(cs, (c: Complaint) => c.departmentId == dept && c.status == Pending)
    ensures v.inProgress == Count(cs, (c: Complaint) => c.departmentId == dept && c.status == InProgress)
    ensures v.fixed == Count(cs, (c: Complaint) => c.departmentId == dept && c.status == Fixed)
    ensures v.pending + v.inProgress + v.fixed == |v.complaints|
  {
    var shown := DepartmentComplaints(cs, dept);
    var mine := ((c: Complaint) => c.departmentId == dept);
    StatusCountsPartition(shown);
    SelectionStatusCount(cs, mine, shown, Pending, (c: Complaint) => c.departmentId == dept && c.status == Pending);
    SelectionStatusCount(cs, mine, shown, InProgress, (c: Complaint) => c.departmentId == dept && c.status == InProgress);
    SelectionStatusCount(cs, mine, shown, Fixed, (c: Complaint) => c.departmentId == dept && c.status == Fixed);
    DepartmentView(shown, CountStatus(shown, Pending), CountStatus(shown, InProgress), CountStatus(shown, Fixed))
  }

  /** `Index`: None when the manager is forbidden; otherwise exactly the
      department's complaints, newest first, with the number of them in
      each status, which together partition them. */
  function DepartmentIndex(t: Tables, caller: int): (r: Option<DepartmentView>)
    ensures r.None? <==> ManagerDepartment(t, caller).None?
    ensures r.Some? ==> var dept := ManagerDepartment(t, caller);
      && multiset(r.value.complaints) == multiset(Filter(t.complaints, (c: Complaint) => c.departmentId == dept))
      && r.value.pending == Count(t.complaints, (c: Complaint) => c.departmentId == dept && c.status == Pending)
      && r.value.inProgress == Count(t.complaints, (c: Complaint) => c.departmentId == dept && c.status == InProgress)
      && r.value.fixed == Count(t.complaints, (c: Complaint) => c.departmentId == dept && c.status == Fixed)
    ensures r.Some? ==> r.value.pending + r.value.inProgress + r.value.fixed == |r.value.complaints|
    ensures r.Some? ==> forall c :: c in r.value.complaints <==> c in t.complaints && c.departmentId == ManagerDepartment(t, caller)
    ensures r.Some? ==> forall i, j :: 0 <= i < j < |r.value.complaints| ==> r.value.complaints[i].createdAt >= r.value.complaints[j].createdAt
  {
    var dept := ManagerDepartment(t, caller);
    if dept.None? then None else Some(ViewOf(t.complaints, dept))
  }

  /** The manager's status-change comment: the common text, then "by Department Manager". */
  function ManagerStatusText(from: Status, to: Status): string {
    StatusChangeText(from, to) + " by " + ManagerName
  }

  /** `UpdateStatus`: any status the manager asks for, on a complaint of
      their department, with no transition check. */
  function ManagerStatusChanged(t: Tables, caller: Caller, id: int, status: Status, now: int): (r: Step)
    ensures r.outcome.Rejected? ==> r.tables == t
    ensures ReferenceKept(t, r.tables)
    ensures r.outcome.Ok? ==> |r.tables.complaints| == |t.complaints| && |r.tables.comments| == |t.comments| + 1
  {
    match ManagerDepartment(t, caller.id)
    case None => Step(t, Rejected(NoDepartment))
    case Some(d) =>
      match FindComplaint(t.complaints, id)
      case None => Step(t, Rejected(ComplaintNotFound))
      case Some(k) =>
        if t.complaints[k].departmentId != Some(d) then Step(t, Rejected(ComplaintNotFound))
        else
          var was := t.complaints[k].status;
          Step(WithComment(WithStatus(t, k, status, now), id, caller.id, caller.name.GetOr(ManagerName), ManagerRole,
                           ManagerStatusText(was, status), now), Ok)
  }

  /** A manager without a department is forbidden; a complaint that is
      missing or belongs to another department is reported as not found; both
      change nothing. Otherwise the requested status is set from any status,
      and one manager comment is appended. */
  lemma ManagerStatusChangedEffects(t: Tables, caller: Caller, id: int, status: Status, now: int)
    ensures var r := ManagerStatusChanged(t, caller, id, status, now);
      && (r.outcome.Rejected? ==> r.tables == t)
      && (ManagerDepartment(t, caller.id).None? ==> r.outcome == Rejected(NoDepartment))
      && (ManagerDepartment(t, caller.id).Some? ==>
            (r.outcome.Ok? <==> FindComplaint(t.complaints, id).Some? &&
                                t.complaints[FindComplaint(t.complaints, id).value].departmentId == ManagerDepartment(t, caller.id))
            && (r.outcome.Rejected? ==> r.outcome == Rejected(ComplaintNotFound)))
    ensures var r := ManagerStatusChanged(t, caller, id, status, now);
      r.outcome.Ok? ==>
        var k := FindComplaint(t.complaints, id).value;
        && r.tables.complaints == t.complaints[k := t.complaints[k].(status := status, updatedAt := Some(now))]
        && r.tables.comments == t.comments + [Comment(t.nextId, id, caller.id, caller.name.GetOr(ManagerName), ManagerRole,
                                                      ManagerStatusText(t.complaints[k].status, status), true, now)]
        && r.tables == t.(complaints := r.tables.complaints, comments := r.tables.comments, nextId := t.nextId + 1)
  {
  }

  lemma ManagerStatusChangedConsistent(t: Tables, caller: Caller, id: int, status: Status, now: int)
    requires Consistent(t)
    ensures Consistent(ManagerStatusChanged(t, caller, id, status, now).tables)
  {
    var r := ManagerStatusChanged(t, caller, id, status, now);
    if r.outcome.Ok? {
      var k := FindComplaint(t.complaints, id).value;
      StatusChangeConsistent(t, k, status, now, id, caller.id, caller.name.GetOr(ManagerName), ManagerRole,
                             ManagerStatusText(t.complaints[k].status, status));
    }
  }

  /** `UpdateStatus` run against the database. */
  method UpdateStatus(db: Db, caller: Caller, id: int, status: Status, now: int) returns (outcome: Outcome)
    requires db.Valid()
    modifies db
    ensures db.Valid()
    ensures Step(db.Contents(), outcome) == ManagerStatusChanged(old(db.Contents()), caller, id, status, now)
  {
    ManagerStatusChangedConsistent(db.Contents(), caller, id, status, now);
    var d := ManagerDepartment(db.Contents(), caller.id);
    if d.None? {
      return Rejected(NoDepartment);
    }
    var found := FindComplaint(db.complaints, id);
    if found.None? || db.complaints[found.value].departmentId != d {
      return Rejected(ComplaintNotFound);
    }
    var k := found.value;
    var was := db.complaints[k].status;
    db.SetStatus(k, status, now);
    db.AddComment(id, caller.id, caller.name.GetOr(ManagerName), ManagerRole, ManagerStatusText(was, status), now);
    outcome := Ok;
  }

  /** `Assign`: the ledger is reassigned with the manager's department on the
      record, and only the complaint's technician changes; there is no
      workload gate. */
  function ManagerAssigned(t: Tables, caller: Caller, id: int, tech: Option<int>, note: Option<string>, now: int): (r: Step)
    ensures r.outcome.Rejected? ==> r.tables == t
    ensures ReferenceKept(t, r.tables)
    ensures r.outcome.Ok? ==> |r.tables.assignments| == |t.assignments| + 1 && |r.tables.comments| == |t.comments| + 1
  {
    match ManagerDepartment(t, caller.id)
    case None => Step(t, Rejected(NoDepartment))
    case Some(d) =>
      match FindComplaint(t.complaints, id)
      case None => Step(t, Rejected(ComplaintNotFound))
      case Some(k) =>
        if t.complaints[k].departmentId != Some(d) then Step(t, Rejected(ComplaintNotFound))
        else
          var rec := Assignment(id, Some(d), tech, note, now, caller.id, true);
          var c := t.complaints[k].(assignedToUserId := tech, updatedAt := Some(now));
          Step(WithComment(WithAssignment(t, k, rec, c), id, caller.id, caller.name.GetOr(ManagerName), ManagerRole, ManagerAssignText, now), Ok)
  }

  /** Refusals as for `UpdateStatus`, and nothing else: a technician with
      open work can still be assigned. On success the complaint's earlier
      records are switched off and one active record with the manager's
      department is appended; the complaint keeps its department and only its
      technician and `UpdatedAt` change; one comment is appended. */
  lemma ManagerAssignedEffects(t: Tables, caller: Caller, id: int, tech: Option<int>, note: Option<string>, now: int)
    ensures var r := ManagerAssigned(t, caller, id, tech, note, now);
      && (r.outcome.Rejected? ==> r.tables == t)
      && (ManagerDepartment(t, caller.id).None? ==> r.outcome == Rejected(NoDepartment))
      && (ManagerDepartment(t, caller.id).Some? ==>
            (r.outcome.Ok? <==> FindComplaint(t.complaints, id).Some? &&
                                t.complaints[FindComplaint(t.complaints, id).value].departmentId == ManagerDepartment(t, caller.id))
            && (r.outcome.Rejected? ==> r.outcome == Rejected(ComplaintNotFound)))
    ensures var r := ManagerAssigned(t, caller, id, tech, note, now);
      r.outcome.Ok? ==>
        var k := FindComplaint(t.complaints, id).value;
        var rec := Assignment(id, ManagerDepartment(t, caller.id), tech, note, now, caller.id, true);
        && r.tables.assignments == DeactivateAll(t.assignments, id) + [rec]
        && r.tables.complaints == t.complaints[k := t.complaints[k].(assignedToUserId := tech, updatedAt := Some(now))]
        && r.tables.complaints[k].departmentId == t.complaints[k].departmentId
        && r.tables.comments == t.comments + [Comment(t.nextId, id, caller.id, caller.name.GetOr(ManagerName), ManagerRole,
                                                      ManagerAssignText, true, now)]
        && r.tables == t.(assignments := r.tables.assignments, complaints := r.tables.complaints,
                          comments := r.tables.comments, nextId := t.nextId + 1)
  {
  }

  /** An assignment keeps the database consistent and leaves the complaint
      with exactly one active record, the new one. */
  lemma ManagerAssignedConsistent(t: Tables, caller: Caller, id: int, tech: Option<int>, note: Option<string>, now: int)
    requires Consistent(t)
    ensures Consistent(ManagerAssigned(t, caller, id, tech, note, now).tables)
    ensures var r := ManagerAssigned(t, caller, id, tech, note, now);
      r.outcome.Ok? ==> ActiveFor(r.tables.assignments, id) == [Assignment(id, ManagerDepartment(t, caller.id), tech, note, now, caller.id, true)]
  {
    var r := ManagerAssigned(t, caller, id, tech, note, now);
    if r.outcome.Ok? {
      var k := FindComplaint(t.complaints, id).value;
      var rec := Assignment(id, ManagerDepartment(t, caller.id), tech, note, now, caller.id, true);
      var c := t.complaints[k].(assignedToUserId := tech, updatedAt := Some(now));
      AssignmentConsistent(t, k, rec, c);
      WithCommentConsistent(WithAssignment(t, k, rec, c), id, caller.id, caller.name.GetOr(ManagerName), ManagerRole, ManagerAssignText, now);
    }
  }

  /** `Assign` run against the database. */
  method Assign(db: Db, caller: Caller, id: int, tech: Option<int>, note: Option<string>, now: int) returns (outcome: Outcome)
    requires db.Valid()
    modifies db
    ensures db.Valid()
    ensures Step(db.Contents(), outcome) == ManagerAssigned(old(db.Contents()), caller, id, tech, note, now)
  {
    ManagerAssignedConsistent(db.Contents(), caller, id, tech, note, now);
    var d := ManagerDepartment(db.Contents(), caller.id);
    if d.None? {
      return Rejected(NoDepartment);
    }
    var found := FindComplaint(db.complaints, id);
    if found.None? || db.complaints[found.value].departmentId != d {
      return Rejected(ComplaintNotFound);
    }
    var k := found.value;
    var ledger := DeactivatePrevious(db.assignments, id);
    db.SaveAssignment(ledger, k, Assignment(id, d, tech, note, now, caller.id, true),
                      db.complaints[k].(assignedToUserId := tech, updatedAt := Some(now)));
    db.AddComment(id, caller.id, caller.name.GetOr(ManagerName), ManagerRole, ManagerAssignText, now);
    outcome := Ok;
  }
}

=== FILE: entities.dfy ===
/** The entity classes of the application (its Models directory) as values, the error
    kinds the controller actions answer with, and the lookups every action
    starts with. */
module Entities {
  import opened Wrappers
  import opened Collections

  /** The clock is an integer count of DateTime ticks (100 ns). */
  const TicksPerHour: int := 36_000_000_000

  /** The three members of the ComplaintStatus enum. */
  datatype Status = Pending | InProgress | Fixed

  /** The enum member's name, as string interpolation prints it. */
  function StatusName(s: Status): string {
    match s
    case Pending => "Pending"
    case InProgress => "InProgress"
    case Fixed => "Fixed"
  }

  /** Latitude and longitude are doubles in the source; the core never
      computes with them, so they are carried as they come. */
  datatype GeoPoint = GeoPoint(latitude: real, longitude: real)

  datatype Complaint = Complaint(
    complaintId: int,
    userId: int,                 // the reporting citizen
    problemType: string,
    description: Option<string>,
    photoPath: Option<string>,
    location: GeoPoint,
    address: Option<string>,
    status: Status,
    createdAt: int,
    updatedAt: Option<int>,
    departmentId: Option<int>,
    assignedToUserId: Option<int>)

  datatype User = User(
    userId: int,
    name: string,
    email: string,
    passwordHash: string,
    points: int,
    badgeLevel: Option<string>,
    role: string,
    departmentId: Option<int>)

  /** One entry of a complaint's assignment history. */
  datatype Assignment = Assignment(
    complaintId: int,
    departmentId: Option<int>,
    assignedToUserId: Option<int>,
    note: Option<string>,
    assignedAt: int,
    assignedByUserId: int,
    isActive: bool)

  datatype Comment = Comment(
    commentId: int,
    complaintId: int,
    authorId: int,
    authorName: string,
    authorRole: string,
    content: string,
    visibleToUser: bool,
    createdAt: int)

  datatype Attachment = Attachment(
    commentId: int,
    fileName: string,
    filePath: string,
    contentType: string,
    fileSize: int,
    uploadedAt: int)

  datatype Rating = Rating(
    complaintId: int,
    userId: int,
    score: int,
    comment: Option<string>,
    createdAt: int,
    lastModifiedAt: Option<int>)

  datatype Photo = Photo(complaintId: int, photoType: string, photoPath: string, uploadedAt: int)

  datatype Badge = Badge(badgeId: int, levelName: string, pointsRequired: int)

  datatype Department = Department(departmentId: int, name: string, email: string, description: Option<string>, isActive: bool)

  /** A routing entry: problem-type label to responsible department. */
  datatype Mapping = Mapping(mappingId: int, problemType: string, departmentId: int, isActive: bool)

  /** The role names the controllers compare against. */
  const UserRole: string := "User"
  const TechnicianRole: string := "Technician"
  const AdminRole: string := "Admin"
  const ManagerRole: string := "DepartmentManager"

  /** The claims of the signed-in principal an action reads: the
      NameIdentifier as an integer, and the Name and Role claims, either of
      which may be absent. */
  datatype Caller = Caller(id: int, name: Option<string>, role: Option<string>)

  /** Why an action was refused; each refusal leaves every table unchanged. */
  datatype Error =
    | ProblemTypeRequired
    | ScoreOutOfRange
    | ComplaintNotFound
    | NotOwnComplaint
    | NotFixedYet
    | EditWindowExpired
    | NotAssignedToCaller
    | NotFoundOrNotAssigned
    | InvalidStatusTransition
    | TechnicianHasPendingWork
    | NoDepartment
    | PhotosRequired
    | PhotosMissing
    | UserNotFound
    | InvalidRole
    | NoUsersFound
    | TechnicianHasActiveAssignments
    | ContentLength
    | FieldsRequired
    | EmailAlreadyRegistered
    | InvalidCredentials
    | AccessDenied

  datatype Outcome = Ok | Rejected(error: Error)

  /** `Complaints.FindAsync(id)`: the position of the complaint with that key. */
  function FindComplaint(cs: seq<Complaint>, id: int): (r: Option<nat>)
    ensures r.Some? ==> r.value < |cs| && cs[r.value].complaintId == id
    ensures r.None? <==> forall k :: 0 <= k < |cs| ==> cs[k].complaintId != id
  {
    FirstIndex(cs, (c: Complaint) => c.complaintId == id)
  }

  /** `UserId` is the primary key of the users table: no two rows share it. */
  predicate DistinctUserIds(us: seq<User>) {
    forall i, j :: 0 <= i < j < |us| ==> us[i].userId != us[j].userId
  }

  /** `Users.FindAsync(id)`: the position of the user with that key, which
      under the primary key is the only row carrying it. */
  function FindUser(us: seq<User>, id: int): (r: Option<nat>)
    ensures r.Some? ==> r.value < |us| && us[r.value].userId == id
    ensures r.None? <==> forall k :: 0 <= k < |us| ==> us[k].userId != id
    ensures DistinctUserIds(us) ==> forall k :: 0 <= k < |us| && us[k].userId == id ==> r == Some(k)
  {
    FirstIndex(us, (u: User) => u.userId == id)
  }

  predicate IsOpen(s: Status) {
    s == Pending || s == InProgress
  }

  /** The workload count shared by the admin assignment gate and the
      technician delete guard: complaints assigned to `tech` that are
      Pending or InProgress. It is zero exactly when every complaint
      assigned to `tech` is Fixed. */
  function OpenWorkload(cs: seq<Complaint>, tech: int): (n: nat)
    ensures n == 0 <==> forall k :: 0 <= k < |cs| && cs[k].assignedToUserId == Some(tech) ==> cs[k].status == Fixed
  {
    Count(cs, (c: Complaint) => c.assignedToUserId == Some(tech) && IsOpen(c.status))
  }

  /** The keys of the given comments. */
  function CommentKeys(cs: seq<Comment>): seq<int> {
    seq(|cs|, i requires 0 <= i < |cs| => cs[i].commentId)
  }

  /** The keys of the given complaints. */
  function ComplaintKeys(cs: seq<Complaint>): seq<int> {
    seq(|cs|, i requires 0 <= i < |cs| => cs[i].complaintId)
  }

  /** `OrderByDescending(c => c.CreatedAt)`, the order of every complaint list. */
  function NewerFirst(a: Complaint, b: Complaint): bool {
    a.createdAt >= b.createdAt
  }

  lemma NewerFirstIsTotalPreorder()
    ensures TotalPreorder(NewerFirst)
  {
  }

  /** How many of `cs` have status `s` (a `Count(c => c.Status == s)`). */
  function CountStatus(cs: seq<Complaint>, s: Status): (n: nat)
    ensures n <= |cs|
    ensures n == 0 <==> forall k :: 0 <= k < |cs| ==> cs[k].status != s
    ensures n == |cs| <==> forall k :: 0 <= k < |cs| ==> cs[k].status == s
  {
    if cs == [] then 0
    else (if cs[0].status == s then 1 else 0) + CountStatus(cs[1..], s)
  }

  /** The enum has exactly three members, so the three status counts of any
      list of complaints add up to its length. */
  lemma {:induction false} StatusCountsPartition(cs: seq<Complaint>)
    ensures CountStatus(cs, Pending) + CountStatus(cs, InProgress) + CountStatus(cs, Fixed) == |cs|
  {
    if cs != [] {
      StatusCountsPartition(cs[1..]);
    }
  }

  /** The complaints with status `s`: the condition of `Count(c => c.Status == s)`. */
  function HasStatus(s: Status): Complaint -> bool {
    (c: Complaint) => c.status == s
  }

  /** `CountStatus` is LINQ's `Count` with the status condition. */
  lemma {:induction false} CountStatusIsCount(cs: seq<Complaint>, s: Status)
    ensures CountStatus(cs, s) == Count(cs, HasStatus(s))
  {
    if cs != [] {
      CountStatusIsCount(cs[1..], s);
      assert Filter(cs, HasStatus(s)) == (if cs[0].status == s then [cs[0]] else []) + Filter(cs[1..], HasStatus(s));
    }
  }

  /** The status counts a view shows over `shown`, any ordering of the
      complaints `keep` selects, are the counts of the selected complaints
      with that status in the table. */
  lemma SelectionStatusCount(cs: seq<Complaint>, keep: Complaint -> bool, shown: seq<Complaint>, st: Status,
                             both: Complaint -> bool)
    requires multiset(shown) == multiset(Filter(cs, keep))
    requires forall c :: both(c) == (keep(c) && c.status == st)
    ensures CountStatus(shown, st) == Count(cs, both)
  {
    CountStatusIsCount(shown, st);
    CountPermutation(shown, Filter(cs, keep), HasStatus(st));
    FilterFilter(cs, keep, HasStatus(st), both);
  }
}

=== FILE: ledger.dfy ===
/** The assignment ledger: the ComplaintAssignments table is a history in
    which an assignment never edits or deletes a record; it switches off the
    `IsActive` flag of the complaint's current records and appends a new
    active one. The current assignment is the complaint's one active record. */
module Ledger {
  import opened Wrappers
  import opened Collections
  import opened Entities

  /** `a` after the foreach body `assignment.IsActive = false` has run on it,
      when it is one of the complaint's active records. */
  function Deactivated(a: Assignment, id: int): Assignment {
    if a.complaintId == id && a.isActive then a.(isActive := false) else a
  }

  /** The ledger once every active record of complaint `id` is switched off:
      the same records in the same order, only the `IsActive` flags of
      complaint `id` cleared, records of other complaints untouched. */
  function DeactivateAll(ledger: seq<Assignment>, id: int): (r: seq<Assignment>)
    ensures |r| == |ledger|
    ensures forall k :: 0 <= k < |r| ==> r[k] == ledger[k].(isActive := r[k].isActive)
    ensures forall k :: 0 <= k < |r| && r[k].complaintId == id ==> !r[k].isActive
    ensures forall k :: 0 <= k < |r| && ledger[k].complaintId != id ==> r[k] == ledger[k]
  {
    seq(|ledger|, k requires 0 <= k < |ledger| => Deactivated(ledger[k], id))
  }

  /** The foreach of the assignment actions over `Where(a => a.ComplaintId == id
      && a.IsActive)`, run on the tracked copy of the ledger. */
  method DeactivatePrevious(ledger: seq<Assignment>, id: int) returns (r: seq<Assignment>)
    ensures r == DeactivateAll(ledger, id)
  {
    r := ledger;
    var i := 0;
    while i < |r|
      invariant 0 <= i <= |r| == |ledger|
      invariant forall k :: 0 <= k < i ==> r[k] == Deactivated(ledger[k], id)
      invariant forall k :: i <= k < |r| ==> r[k] == ledger[k]
    {
      if r[i].complaintId == id && r[i].isActive {
        r := r[i := r[i].(isActive := false)];
      }
      i := i + 1;
    }
  }

  /** The records of complaint `id` that are active. */
  function ActiveFor(ledger: seq<Assignment>, id: int): seq<Assignment> {
    Filter(ledger, (a: Assignment) => a.complaintId == id && a.isActive)
  }

  /** No complaint has two active records. */
  ghost predicate OneActivePerComplaint(ledger: seq<Assignment>) {
    forall i, j :: 0 <= i < j < |ledger| && ledger[i].isActive && ledger[j].isActive
      ==> ledger[i].complaintId != ledger[j].complaintId
  }

  /** The new ledger of an assignment: previous records of the complaint
      switched off, then the new record appended. */
  function Reassigned(ledger: seq<Assignment>, rec: Assignment): seq<Assignment> {
    DeactivateAll(ledger, rec.complaintId) + [rec]
  }

  /** After an assignment the complaint has exactly one active record, the new
      one, and no complaint has two: whatever the ledger held before. */
  lemma {:induction false} ReassignedHasOneActive(ledger: seq<Assignment>, rec: Assignment)
    requires rec.isActive
    requires OneActivePerComplaint(ledger)
    ensures ActiveFor(Reassigned(ledger, rec), rec.complaintId) == [rec]
    ensures OneActivePerComplaint(Reassigned(ledger, rec))
  {
    var d := DeactivateAll(ledger, rec.complaintId);
    var p := (a: Assignment) => a.complaintId == rec.complaintId && a.isActive;
    FilterAppend(d, [rec], p);
    assert Count(d, p) == 0;
  }

  /** A ledger with no active record for a fresh complaint gains exactly one
      by appending it: the automatic assignment on submission. */
  lemma {:induction false} AppendedFreshHasOneActive(ledger: seq<Assignment>, rec: Assignment)
    requires rec.isActive
    requires OneActivePerComplaint(ledger)
    requires forall k :: 0 <= k < |ledger| ==> ledger[k].complaintId != rec.complaintId
    ensures ActiveFor(ledger + [rec], rec.complaintId) == [rec]
    ensures OneActivePerComplaint(ledger + [rec])
  {
    var p := (a: Assignment) => a.complaintId == rec.complaintId && a.isActive;
    FilterAppend(ledger, [rec], p);
    assert Count(ledger, p) == 0;
  }
}

=== FILE: role_actions.dfy ===
/** The administrator's user management: changing one user's role, changing
    many at once, and deleting a user together with what they own. */
module RoleActions {
  import opened Wrappers
  import opened Collections
  import opened Entities
  import opened Ledger
  import opened Store
  import opened Badges
  import AdminActions

  /** `new[] { "User", "Technician" }.Contains(role)`: the only roles these
      actions grant. */
  predicate IsAssignableRole(role: string) {
    role == UserRole || role == TechnicianRole
  }

  /** `UpdateRole`. */
  function RoleUpdated(t: Tables, userId: int, role: string, departmentId: Option<int>): (r: Step)
    ensures r.outcome.Rejected? ==> r.tables == t
    ensures ReferenceKept(t, r.tables)
    ensures r.tables == t.(users := r.tables.users) && |r.tables.users| == |t.users|
    ensures r.outcome.Ok? ==> IsAssignableRole(role)
  {
    match FindUser(t.users, userId)
    case None => Step(t, Rejected(UserNotFound))
    case Some(k) =>
      if !IsAssignableRole(role) then Step(t, Rejected(InvalidRole))
      else Step(t.(users := t.users[k := t.users[k].(role := role, departmentId := departmentId)]), Ok)
  }

  /** A missing user is reported first, then a role other than "User" or
      "Technician"; both change nothing. Otherwise exactly that user's role
      and department change. */
  lemma RoleUpdatedEffects(t: Tables, userId: int, role: string, departmentId: Option<int>)
    ensures var r := RoleUpdated(t, userId, role, departmentId);
      && (r.outcome.Rejected? ==> r.tables == t)
      && (FindUser(t.users, userId).None? ==> r.outcome == Rejected(UserNotFound))
      && (FindUser(t.users, userId).Some? ==>
            && (r.outcome.Ok? <==> role == "User" || role == "Technician")
            && (r.outcome.Rejected? ==> r.outcome == Rejected(InvalidRole)))
    ensures var r := RoleUpdated(t, userId, role, departmentId);
      r.outcome.Ok? ==>
        var k := FindUser(t.users, userId).value;
        && |r.tables.users| == |t.users|
        && r.tables.users[k] == t.users[k].(role := role, departmentId := departmentId)
        && (forall j :: 0 <= j < |t.users| && j != k ==> r.tables.users[j] == t.users[j])
        && r.tables == t.(users := r.tables.users)
    ensures var r := RoleUpdated(t, userId, role, departmentId);
      DistinctUserIds(t.users) && r.outcome.Ok? ==>
        forall j :: 0 <= j < |t.users| ==>
          r.tables.users[j] == if t.users[j].userId == userId then t.users[j].(role := role, departmentId := departmentId) else t.users[j]
  {
  }

  lemma RoleUpdatedConsistent(t: Tables, userId: int, role: string, departmentId: Option<int>)
    requires Consistent(t)
    ensures Consistent(RoleUpdated(t, userId, role, departmentId).tables)
  {
    var r := RoleUpdated(t, userId, role, departmentId);
    if r.outcome.Ok? {
      EditUsersConsistent(t, r.tables.users);
    }
  }

  /** `UpdateRole` run against the database. */
  method UpdateRole(db: Db, userId: int, role: string, departmentId: Option<int>) returns (outcome: Outcome)
    requires db.Valid()
    modifies db
    ensures db.Valid()
    ensures Step(db.Contents(), outcome) == RoleUpdated(old(db.Contents()), userId, role, departmentId)
  {
    RoleUpdatedConsistent(db.Contents(), userId, role, departmentId);
    var found := FindUser(db.users, userId);
    if found.None? {
      return Rejected(UserNotFound);
    }
    if !IsAssignableRole(role) {
      return Rejected(InvalidRole);
    }
    var k := found.value;
    db.users := db.users[k := db.users[k].(role := role, departmentId := departmentId)];
    outcome := Ok;
  }

  /** User `u` after the bulk update: changed when its key is among `ids`. */
  function WithRole(u: User, ids: seq<int>, role: string, departmentId: Option<int>): User {
    if u.userId in ids then u.(role := role, departmentId := departmentId) else u
  }

  /** Every selected user with the new role and department; the others as they were. */
  function RolesSet(us: seq<User>, ids: seq<int>, role: string, departmentId: Option<int>): (r: seq<User>)
    ensures |r| == |us|
    ensures forall k :: 0 <= k < |r| && us[k].userId in ids ==> r[k] == us[k].(role := role, departmentId := departmentId)
    ensures forall k :: 0 <= k < |r| && us[k].userId !in ids ==> r[k] == us[k]
  {
    seq(|us|, k requires 0 <= k < |us| => WithRole(us[k], ids, role, departmentId))
  }

  /** The foreach over `Users.Where(u => userIds.Contains(u.UserId))`. */
  method SetRoles(us: seq<User>, ids: seq<int>, role: string, departmentId: Option<int>) returns (r: seq<User>)
    ensures r == RolesSet(us, ids, role, departmentId)
  {
    r := us;
    var i := 0;
    while i < |r|
      invariant 0 <= i <= |r| == |us|
      invariant forall k :: 0 <= k < i ==> r[k] == WithRole(us[k], ids, role, departmentId)
      invariant forall k :: i <= k < |r| ==> r[k] == us[k]
    {
      if r[i].userId in ids {
        r := r[i := r[i].(role := role, departmentId := departmentId)];
      }
      i := i + 1;
    }
  }

  /** `BulkUpdateRoles`: no matching user is reported before an invalid role. */
  function RolesBulkUpdated(t: Tables, ids: seq<int>, role: string, departmentId: Option<int>): (r: Step)
    ensures r.outcome.Rejected? ==> r.tables == t
    ensures ReferenceKept(t, r.tables)
    ensures r.tables == t.(users := r.tables.users) && |r.tables.users| == |t.users|
    ensures r.outcome.Ok? ==> IsAssignableRole(role)
  {
    if FirstIndex(t.users, (u: User) => u.userId in ids).None? then Step(t, Rejected(NoUsersFound))
    else if !IsAssignableRole(role) then Step(t, Rejected(InvalidRole))
    else Step(t.(users := RolesSet(t.users, ids, role, departmentId)), Ok)
  }

  /** With no user among the keys the call fails whatever the role; with
      some, an invalid role fails; both change nothing. Otherwise every
      selected user takes the role and department and no other user or table
      changes. */
  lemma RolesBulkUpdatedEffects(t: Tables, ids: seq<int>, role: string, departmentId: Option<int>)
    ensures var r := RolesBulkUpdated(t, ids, role, departmentId);
      && (r.outcome.Rejected? ==> r.tables == t)
      && (r.outcome == Rejected(NoUsersFound) <==> forall k :: 0 <= k < |t.users| ==> t.users[k].userId !in ids)
      && (r.outcome.Ok? <==> (exists k :: 0 <= k < |t.users| && t.users[k].userId in ids) && IsAssignableRole(role))
    ensures var r := RolesBulkUpdated(t, ids, role, departmentId);
      r.outcome.Ok? ==>
        && |r.tables.users| == |t.users|
        && (forall k :: 0 <= k < |t.users| && t.users[k].userId in ids ==>
              r.tables.users[k] == t.users[k].(role := role, departmentId := departmentId))
        && (forall k :: 0 <= k < |t.users| && t.users[k].userId !in ids ==> r.tables.users[k] == t.users[k])
        && r.tables == t.(users := r.tables.users)
  {
  }

  lemma RolesBulkUpdatedConsistent(t: Tables, ids: seq<int>, role: string, departmentId: Option<int>)
    requires Consistent(t)
    ensures Consistent(RolesBulkUpdated(t, ids, role, departmentId).tables)
  {
    var r := RolesBulkUpdated(t, ids, role, departmentId);
    if r.outcome.Ok? {
      EditUsersConsistent(t, r.tables.users);
    }
  }

  /** `BulkUpdateRoles` run against the database. */
  method BulkUpdateRoles(db: Db, ids: seq<int>, role: string, departmentId: Option<int>) returns (outcome: Outcome)
    requires db.Valid()
    modifies db
    ensures db.Valid()
    ensures Step(db.Contents(), outcome) == RolesBulkUpdated(old(db.Contents()), ids, role, departmentId)
  {
    RolesBulkUpdatedConsistent(db.Contents(), ids, role, departmentId);
    if FirstIndex(db.users, (u: User) => u.userId in ids).None? {
      return Rejected(NoUsersFound);
    }
    if !IsAssignableRole(role) {
      return Rejected(InvalidRole);
    }
    db.users := SetRoles(db.users, ids, role, departmentId);
    outcome := Ok;
  }

  /** Complaint `c` after `complaint.AssignedToUserId = null` has run on it,
      when it is assigned to `uid`. */
  function Unassign(c: Complaint, uid: int): Complaint {
    if c.assignedToUserId == Some(uid) then c.(assignedToUserId := None) else c
  }

  /** The complaints once none is assigned to `uid` any more: only the
      assignee of those assigned to `uid` changes. */
  function UnassignAll(cs: seq<Complaint>, uid: int): (r: seq<Complaint>)
    ensures |r| == |cs|
    ensures forall k :: 0 <= k < |r| ==> r[k].assignedToUserId != Some(uid)
    ensures forall k :: 0 <= k < |r| && cs[k].assignedToUserId == Some(uid) ==> r[k].assignedToUserId.None?
    ensures forall k :: 0 <= k < |r| ==> r[k] == cs[k].(assignedToUserId := r[k].assignedToUserId)
    ensures forall k :: 0 <= k < |r| && cs[k].assignedToUserId != Some(uid) ==> r[k] == cs[k]
  {
    seq(|cs|, k requires 0 <= k < |cs| => Unassign(cs[k], uid))
  }

  /** The foreach over the complaints assigned to the user being deleted. */
  method UnassignComplaints(cs: seq<Complaint>, uid: int) returns (r: seq<Complaint>)
    ensures r == UnassignAll(cs, uid)
  {
    r := cs;
    var i := 0;
    while i < |r|
      invariant 0 <= i <= |r| == |cs|
      invariant forall k :: 0 <= k < i ==> r[k] == Unassign(cs[k], uid)
      invariant forall k :: i <= k < |r| ==> r[k] == cs[k]
    {
      if r[i].assignedToUserId == Some(uid) {
        r := r[i := r[i].(assignedToUserId := None)];
      }
      i := i + 1;
    }
  }

  /** The tables once user `uid`, the row at `k`, is gone: their complaints
      (with the comments, assignment records and photos of those by
      cascade), their ratings and their comments (with the attachments of
      every removed comment by cascade) are removed, and the complaints
      assigned to them are left without an assignee. */
  function UserRows(t: Tables, k: nat, uid: int): Tables
    requires k < |t.users|
  {
    var own := ComplaintKeys(Filter(t.complaints, (c: Complaint) => c.userId == uid));
    var dropped := CommentKeys(Filter(t.comments, (c: Comment) => c.authorId == uid || c.complaintId in own));
    t.(users := RemoveAt(t.users, k),
       complaints := Filter(UnassignAll(t.complaints, uid), (c: Complaint) => c.userId != uid),
       comments := Filter(t.comments, (c: Comment) => !(c.authorId == uid || c.complaintId in own)),
       attachments := Filter(t.attachments, (a: Attachment) => a.commentId !in dropped),
       ratings := Filter(t.ratings, (x: Rating) => x.userId != uid),
       assignments := Filter(t.assignments, (a: Assignment) => a.complaintId !in own),
       photos := Filter(t.photos, (p: Photo) => p.complaintId !in own))
  }

  /** `DeleteUser`: a Technician with open work is kept. */
  function UserDeleted(t: Tables, uid: int): (r: Step)
    ensures r.outcome.Rejected? ==> r.tables == t
    ensures ReferenceKept(t, r.tables)
    ensures r.outcome.Ok? ==> |r.tables.users| == |t.users| - 1
    ensures r.outcome.Ok? ==> forall c :: c in r.tables.complaints ==> c.userId != uid && c.assignedToUserId != Some(uid)
  {
    match FindUser(t.users, uid)
    case None => Step(t, Rejected(UserNotFound))
    case Some(k) =>
      if t.users[k].role == TechnicianRole && OpenWorkload(t.complaints, uid) > 0 then
        Step(t, Rejected(TechnicianHasActiveAssignments))
      else Step(UserRows(t, k, uid), Ok)
  }

  /** A missing user is reported; a Technician with a Pending or InProgress
      complaint assigned is refused; both remove nothing. Every other user
      can be deleted. */
  lemma UserDeletedGuard(t: Tables, uid: int)
    ensures var r := UserDeleted(t, uid);
      && (r.outcome.Rejected? ==> r.tables == t)
      && (FindUser(t.users, uid).None? ==> r.outcome == Rejected(UserNotFound))
      && (FindUser(t.users, uid).Some? ==>
            (r.outcome == Rejected(TechnicianHasActiveAssignments) <==>
               t.users[FindUser(t.users, uid).value].role == TechnicianRole &&
               exists j :: 0 <= j < |t.complaints| && t.complaints[j].assignedToUserId == Some(uid) && IsOpen(t.complaints[j].status))
            && (r.outcome.Ok? <==> r.outcome != Rejected(TechnicianHasActiveAssignments)))
  {
  }

  /** The guard of `DeleteUser` and the gate of the administrator's `Assign`
      count the same complaints: a technician that cannot be deleted is
      exactly one that cannot be assigned. */
  lemma DeleteGuardIsAssignGate(t: Tables, uid: int, caller: Caller, id: int, departmentId: Option<int>, note: Option<string>, now: int)
    requires FindUser(t.users, uid).Some? && t.users[FindUser(t.users, uid).value].role == TechnicianRole
    requires FindComplaint(t.complaints, id).Some?
    ensures UserDeleted(t, uid).outcome == Rejected(TechnicianHasActiveAssignments)
            <==> AdminActions.AdminAssigned(t, caller, id, departmentId, Some(uid), note, now).outcome == Rejected(TechnicianHasPendingWork)
  {
  }

  /** A key is among `own` exactly when it is the key of a complaint `uid` reported. */
  lemma OwnKeys(cs: seq<Complaint>, uid: int, id: int)
    ensures id in ComplaintKeys(Filter(cs, (c: Complaint) => c.userId == uid)) <==> Authored(cs, id, uid)
  {
    var f := Filter(cs, (c: Complaint) => c.userId == uid);
    FilterMembers(cs, (c: Complaint) => c.userId == uid);
    if id in ComplaintKeys(f) {
      var i :| 0 <= i < |f| && ComplaintKeys(f)[i] == id;
      assert f[i] in f;
    }
    if Authored(cs, id, uid) {
      var k :| 0 <= k < |cs| && cs[k].complaintId == id && cs[k].userId == uid;
      assert cs[k] in f;
      var i :| 0 <= i < |f| && f[i] == cs[k];
      assert ComplaintKeys(f)[i] == id;
    }
  }

  /** The complaints that remain are those of other reporters, with the
      deleted user's assignments cleared; no complaint remains assigned to
      them. */
  lemma UserDeletedComplaints(t: Tables, uid: int)
    requires UserDeleted(t, uid).outcome.Ok?
    ensures var r := UserDeleted(t, uid).tables;
      && (forall c :: c in r.complaints <==> exists j :: 0 <= j < |t.complaints| && t.complaints[j].userId != uid && c == Unassign(t.complaints[j], uid))
      && (forall c :: c in r.complaints ==> c.assignedToUserId != Some(uid) && c.userId != uid)
  {
    var u := UnassignAll(t.complaints, uid);
    FilterMembers(u, (c: Complaint) => c.userId != uid);
    forall c ensures c in u <==> exists j :: 0 <= j < |t.complaints| && c == Unassign(t.complaints[j], uid) {
      if c in u {
        var j :| 0 <= j < |u| && u[j] == c;
      }
    }
  }

  /** Exactly the row found is removed from the users, and exactly the
      ratings by the user, the comments they wrote or that sit on their
      complaints, and the assignment records and photos of their complaints
      are removed from the other tables; the reference tables are untouched. */
  lemma {:induction false} UserDeletedRows(t: Tables, uid: int)
    requires UserDeleted(t, uid).outcome.Ok?
    ensures var r := UserDeleted(t, uid).tables;
      && multiset(r.users) == multiset(t.users) - multiset{t.users[FindUser(t.users, uid).value]}
      && (forall x :: x in r.ratings <==> x in t.ratings && x.userId != uid)
      && (forall c :: c in r.comments <==> c in t.comments && c.authorId != uid && !Authored(t.complaints, c.complaintId, uid))
      && (forall a :: a in r.assignments <==> a in t.assignments && !Authored(t.complaints, a.complaintId, uid))
      && (forall p :: p in r.photos <==> p in t.photos && !Authored(t.complaints, p.complaintId, uid))
      && (forall a :: a in r.attachments <==>
            a in t.attachments && !(exists c :: c in t.comments && c.commentId == a.commentId && (c.authorId == uid || Authored(t.complaints, c.complaintId, uid))))
      && r == t.(users := r.users, complaints := r.complaints, comments := r.comments, attachments := r.attachments,
                 ratings := r.ratings, assignments := r.assignments, photos := r.photos)
  {
    var own := ComplaintKeys(Filter(t.complaints, (c: Complaint) => c.userId == uid));
    forall id ensures id in own <==> Authored(t.complaints, id, uid) {
      OwnKeys(t.complaints, uid, id);
    }
    FilterMembers(t.ratings, (x: Rating) => x.userId != uid);
    FilterMembers(t.comments, (c: Comment) => !(c.authorId == uid || c.complaintId in own));
    FilterMembers(t.assignments, (a: Assignment) => a.complaintId !in own);
    FilterMembers(t.photos, (p: Photo) => p.complaintId !in own);
    UserDeletedAttachments(t, uid);
  }

  /** The rows kept keep their multiplicity: each surviving rating, comment,
      assignment record, photo and attachment occurs as often as before. */
  lemma UserDeletedMultiplicity(t: Tables, uid: int)
    requires UserDeleted(t, uid).outcome.Ok?
    ensures var r := UserDeleted(t, uid).tables;
      && (forall x :: multiset(r.ratings)[x] == if x.userId != uid then multiset(t.ratings)[x] else 0)
      && (forall c :: multiset(r.comments)[c] ==
            if c.authorId != uid && !Authored(t.complaints, c.complaintId, uid) then multiset(t.comments)[c] else 0)
      && (forall a :: multiset(r.assignments)[a] == if !Authored(t.complaints, a.complaintId, uid) then multiset(t.assignments)[a] else 0)
      && (forall p :: multiset(r.photos)[p] == if !Authored(t.complaints, p.complaintId, uid) then multiset(t.photos)[p] else 0)
      && (forall a :: multiset(r.attachments)[a] ==
            if !(exists c :: c in t.comments && c.commentId == a.commentId && (c.authorId == uid || Authored(t.complaints, c.complaintId, uid)))
            then multiset(t.attachments)[a] else 0)
  {
    var own := ComplaintKeys(Filter(t.complaints, (c: Complaint) => c.userId == uid));
    UserDeletedAttachmentCounts(t, uid);
    forall id ensures id in own <==> Authored(t.complaints, id, uid) {
      OwnKeys(t.complaints, uid, id);
    }
    FilterMultiset(t.ratings, (x: Rating) => x.userId != uid);
    FilterMultiset(t.comments, (c: Comment) => !(c.authorId == uid || c.complaintId in own));
    FilterMultiset(t.assignments, (a: Assignment) => a.complaintId !in own);
    FilterMultiset(t.photos, (p: Photo) => p.complaintId !in own);
  }

  /** Each surviving attachment occurs as often as before; one on a removed
      comment no longer occurs. */
  lemma UserDeletedAttachmentCounts(t: Tables, uid: int)
    requires UserDeleted(t, uid).outcome.Ok?
    ensures forall a :: multiset(UserDeleted(t, uid).tables.attachments)[a] ==
              if !(exists c :: c in t.comments && c.commentId == a.commentId && (c.authorId == uid || Authored(t.complaints, c.complaintId, uid)))
              then multiset(t.attachments)[a] else 0
  {
    var own := ComplaintKeys(Filter(t.complaints, (c: Complaint) => c.userId == uid));
    var dropped := CommentKeys(Filter(t.comments, (c: Comment) => c.authorId == uid || c.complaintId in own));
    forall key ensures key in dropped <==> exists c :: c in t.comments && c.commentId == key
                                                       && (c.authorId == uid || Authored(t.complaints, c.complaintId, uid)) {
      DroppedCommentKey(t, uid, key);
    }
    FilterMultiset(t.attachments, (a: Attachment) => a.commentId !in dropped);
  }

  /** The cascade from the removed comments: exactly the attachments of the
      comments the user wrote or that sit on their complaints go. */
  lemma UserDeletedAttachments(t: Tables, uid: int)
    requires UserDeleted(t, uid).outcome.Ok?
    ensures forall a :: a in UserDeleted(t, uid).tables.attachments <==>
              a in t.attachments && !(exists c :: c in t.comments && c.commentId == a.commentId && (c.authorId == uid || Authored(t.complaints, c.complaintId, uid)))
  {
    var own := ComplaintKeys(Filter(t.complaints, (c: Complaint) => c.userId == uid));
    var dropped := CommentKeys(Filter(t.comments, (c: Comment) => c.authorId == uid || c.complaintId in own));
    FilterMembers(t.attachments, (a: Attachment) => a.commentId !in dropped);
    forall key ensures key in dropped <==> exists c :: c in t.comments && c.commentId == key
                                                       && (c.authorId == uid || Authored(t.complaints, c.complaintId, uid)) {
      DroppedCommentKey(t, uid, key);
    }
  }

  /** A comment key is among those the user deletion removes exactly when a
      comment with that key was written by the user or sits on one of their
      complaints. */
  lemma DroppedCommentKey(t: Tables, uid: int, key: int)
    ensures var own := ComplaintKeys(Filter(t.complaints, (c: Complaint) => c.userId == uid));
      key in CommentKeys(Filter(t.comments, (c: Comment) => c.authorId == uid || c.complaintId in own)) <==>
      exists c :: c in t.comments && c.commentId == key && (c.authorId == uid || Authored(t.complaints, c.complaintId, uid))
  {
    var own := ComplaintKeys(Filter(t.complaints, (c: Complaint) => c.userId == uid));
    var on := Filter(t.comments, (c: Comment) => c.authorId == uid || c.complaintId in own);
    var dropped := CommentKeys(on);
    forall id ensures id in own <==> Authored(t.complaints, id, uid) {
      OwnKeys(t.complaints, uid, id);
    }
    FilterMembers(t.comments, (c: Comment) => c.authorId == uid || c.complaintId in own);
    if key in dropped {
      var i :| 0 <= i < |on| && dropped[i] == key;
      assert on[i] in on;
    }
    if exists c :: c in t.comments && c.commentId == key && (c.authorId == uid || Authored(t.complaints, c.complaintId, uid)) {
      var c :| c in t.comments && c.commentId == key && (c.authorId == uid || Authored(t.complaints, c.complaintId, uid));
      assert c in on;
      var i :| 0 <= i < |on| && on[i] == c;
      assert dropped[i] == key;
    }
  }

  /** Rows that survive the deletion still carry keys that were handed out. */
  lemma UserDeletedKeysIssued(t: Tables, uid: int)
    requires KeysIssued(t) && UserDeleted(t, uid).outcome.Ok?
    ensures KeysIssued(UserDeleted(t, uid).tables)
  {
    var n := t.nextId;
    var own := ComplaintKeys(Filter(t.complaints, (c: Complaint) => c.userId == uid));
    var dropped := CommentKeys(Filter(t.comments, (c: Comment) => c.authorId == uid || c.complaintId in own));
    FilterKeeps(UnassignAll(t.complaints, uid), (c: Complaint) => c.userId != uid, (c: Complaint) => c.complaintId < n);
    FilterKeeps(t.comments, (c: Comment) => !(c.authorId == uid || c.complaintId in own), (c: Comment) => c.commentId < n);
    FilterKeeps(t.attachments, (a: Attachment) => a.commentId !in dropped, (a: Attachment) => a.commentId < n);
    FilterKeeps(t.ratings, (x: Rating) => x.userId != uid, (x: Rating) => x.complaintId < n);
    FilterKeeps(t.assignments, (a: Assignment) => a.complaintId !in own, (a: Assignment) => a.complaintId < n);
    FilterKeeps(t.photos, (p: Photo) => p.complaintId !in own, (p: Photo) => p.complaintId < n);
  }

  /** The deletion keeps complaint keys distinct, one rating per complaint
      and one active record per complaint. */
  lemma UserDeletedStillDistinct(t: Tables, uid: int)
    requires Consistent(t) && UserDeleted(t, uid).outcome.Ok?
    ensures var r := UserDeleted(t, uid).tables;
      && DistinctComplaintIds(r.complaints) && OneRatingPerComplaint(r.ratings) && OneActivePerComplaint(r.assignments)
  {
    var r := UserDeleted(t, uid).tables;
    var own := ComplaintKeys(Filter(t.complaints, (c: Complaint) => c.userId == uid));
    var u := UnassignAll(t.complaints, uid);
    assert DistinctComplaintIds(u);
    FilterPairwise(u, (c: Complaint) => c.userId != uid, (a: Complaint, b: Complaint) => a.complaintId != b.complaintId);
    assert DistinctComplaintIds(r.complaints);
    FilterPairwise(t.ratings, (x: Rating) => x.userId != uid, (a: Rating, b: Rating) => a.complaintId != b.complaintId);
    assert OneRatingPerComplaint(r.ratings);
    FilterPairwise(t.assignments, (a: Assignment) => a.complaintId !in own,
                   (a: Assignment, b: Assignment) => a.isActive && b.isActive ==> a.complaintId != b.complaintId);
  }

  /** The user with key `uid` is the one row that goes: every other user
      remains, once. */
  lemma UserDeletedRemovesUser(t: Tables, uid: int)
    requires DistinctUserIds(t.users) && UserDeleted(t, uid).outcome.Ok?
    ensures var r := UserDeleted(t, uid).tables;
      && |r.users| == |t.users| - 1
      && forall u :: u in r.users <==> u in t.users && u.userId != uid
  {
    var r := UserDeleted(t, uid).tables;
    var k := FindUser(t.users, uid).value;
    forall u ensures u in r.users <==> u in t.users && u.userId != uid {
      if u in r.users {
        var i :| 0 <= i < |r.users| && r.users[i] == u;
        assert u == t.users[if i < k then i else i + 1];
      }
      if u in t.users && u.userId != uid {
        var j :| 0 <= j < |t.users| && t.users[j] == u;
        assert u == r.users[if j < k then j else j - 1];
      }
    }
  }

  /** The remaining users keep distinct keys, distinct e-mail addresses and
      badges that agree with their points. */
  lemma UserDeletedUsers(t: Tables, uid: int)
    requires DistinctUserIds(t.users) && UniqueEmails(t.users) && BadgesAgree(t.users, t.badges) && UserDeleted(t, uid).outcome.Ok?
    ensures var r := UserDeleted(t, uid).tables;
      DistinctUserIds(r.users) && UniqueEmails(r.users) && BadgesAgree(r.users, r.badges)
  {
    var r := UserDeleted(t, uid).tables;
    var k := FindUser(t.users, uid).value;
    RemoveAtPairwise(t.users, k, (a: User, b: User) => a.userId != b.userId);
    RemoveAtPairwise(t.users, k, (a: User, b: User) => a.email != b.email);
    forall i | 0 <= i < |r.users| ensures r.users[i].badgeLevel == Some(BadgeFor(Ordered(r.badges), r.users[i].points)) {
      assert r.users[i] == t.users[if i < k then i else i + 1];
    }
  }

  /** Each remaining rating still belongs to a remaining complaint of its
      rater: a rater other than the deleted user reported a complaint that
      the deletion keeps. */
  lemma UserDeletedRatingsByReporters(t: Tables, uid: int)
    requires RatingsByReporters(t.ratings, t.complaints) && UserDeleted(t, uid).outcome.Ok?
    ensures var r := UserDeleted(t, uid).tables;
      RatingsByReporters(r.ratings, r.complaints)
  {
    var r := UserDeleted(t, uid).tables;
    UserDeletedRows(t, uid);
    UserDeletedComplaints(t, uid);
    forall i | 0 <= i < |r.ratings| ensures 1 <= r.ratings[i].score <= 5 && Authored(r.complaints, r.ratings[i].complaintId, r.ratings[i].userId) {
      assert r.ratings[i] in r.ratings;
      var j :| 0 <= j < |t.ratings| && t.ratings[j] == r.ratings[i];
      var k :| 0 <= k < |t.complaints| && t.complaints[k].complaintId == t.ratings[j].complaintId && t.complaints[k].userId == t.ratings[j].userId;
      var c := Unassign(t.complaints[k], uid);
      assert c in r.complaints;
      var m :| 0 <= m < |r.complaints| && r.complaints[m] == c;
    }
  }

  lemma UserDeletedConsistent(t: Tables, uid: int)
    requires Consistent(t)
    ensures Consistent(UserDeleted(t, uid).tables)
  {
    if UserDeleted(t, uid).outcome.Ok? {
      UserDeletedKeysIssued(t, uid);
      UserDeletedStillDistinct(t, uid);
      UserDeletedUsers(t, uid);
      UserDeletedRatingsByReporters(t, uid);
    }
  }

  /** The unassignment loop, the `RemoveRange` calls and the cascades, saved together. */
  method RemoveUserRows(db: Db, k: nat, uid: int)
    requires k < |db.users|
    modifies db
    ensures db.Contents() == UserRows(old(db.Contents()), k, uid)
  {
    var own := ComplaintKeys(Filter(db.complaints, (c: Complaint) => c.userId == uid));
    var dropped := CommentKeys(Filter(db.comments, (c: Comment) => c.authorId == uid || c.complaintId in own));
    var unassigned := UnassignComplaints(db.complaints, uid);
    var complaints := Filter(unassigned, (c: Complaint) => c.userId != uid);
    var ratings := Filter(db.ratings, (x: Rating) => x.userId != uid);
    var comments := Filter(db.comments, (c: Comment) => !(c.authorId == uid || c.complaintId in own));
    var attachments := Filter(db.attachments, (a: Attachment) => a.commentId !in dropped);
    var assignments := Filter(db.assignments, (a: Assignment) => a.complaintId !in own);
    var photos := Filter(db.photos, (p: Photo) => p.complaintId !in own);
    var users := RemoveAt(db.users, k);
    db.users, db.complaints, db.comments, db.attachments, db.ratings, db.assignments, db.photos :=
      users, complaints, comments, attachments, ratings, assignments, photos;
  }

  /** `DeleteUser` run against the database. */
  method DeleteUser(db: Db, uid: int) returns (outcome: Outcome)
    requires db.Valid()
    modifies db
    ensures db.Valid()
    ensures Step(db.Contents(), outcome) == UserDeleted(old(db.Contents()), uid)
  {
    UserDeletedConsistent(db.Contents(), uid);
    var found := FindUser(db.users, uid);
    if found.None? {
      return Rejected(UserNotFound);
    }
    var k := found.value;
    if db.users[k].role == TechnicianRole && OpenWorkload(db.complaints, uid) > 0 {
      return Rejected(TechnicianHasActiveAssignments);
    }
    RemoveUserRows(db, k, uid);
    outcome := Ok;
  }
}

=== FILE: routing.dfy ===
/** Auto-routing of a new complaint: the first active problem-type mapping
    whose label equals the submitted problem type names the responsible
    department. */
module Routing {
  import opened Wrappers
  import opened Collections
  import opened Entities

  /** `ProblemTypeMappings.FirstOrDefault(m => m.ProblemType == problemType
      && m.IsActive)`. It finds a mapping exactly when an active mapping with
      that label exists, and then the first one in table order; inactive
      mappings count as absent. */
  function Route(mappings: seq<Mapping>, problemType: string): (r: Option<Mapping>)
    ensures r.Some? <==> exists k :: 0 <= k < |mappings| && mappings[k].problemType == problemType && mappings[k].isActive
    ensures r.Some? ==> r.value in mappings && r.value.problemType == problemType && r.value.isActive
    ensures r.Some? ==> forall k :: 0 <= k < |mappings| && mappings[k].problemType == problemType && mappings[k].isActive
                          ==> mappings[k] == r.value || exists j :: 0 <= j < k && mappings[j] == r.value
  {
    match FirstIndex(mappings, (m: Mapping) => m.problemType == problemType && m.isActive)
    case None => None
    case Some(k) => Some(mappings[k])
  }

  /** When no other mapping carries the label of active mapping `k`, that
      label routes to mapping `k`: the lookup is deterministic. */
  lemma RouteFindsUnique(mappings: seq<Mapping>, k: nat)
    requires k < |mappings| && mappings[k].isActive
    requires forall j :: 0 <= j < |mappings| && j != k ==> mappings[j].problemType != mappings[k].problemType
    ensures Route(mappings, mappings[k].problemType) == Some(mappings[k])
  {
    var r := Route(mappings, mappings[k].problemType);
    var j :| 0 <= j < |mappings| && mappings[j] == r.value;
  }

  /** `mapping.Department?.Name ?? "Unknown"`: the name of department `id`. */
  function DepartmentName(departments: seq<Department>, id: int): (name: string)
    ensures (forall k :: 0 <= k < |departments| ==> departments[k].departmentId != id) ==> name == "Unknown"
    ensures forall k ::
              (0 <= k < |departments| && departments[k].departmentId == id && forall j :: 0 <= j < k ==> departments[j].departmentId != id)
              ==> name == departments[k].name
  {
    match FirstIndex(departments, (d: Department) => d.departmentId == id)
    case None => "Unknown"
    case Some(k) => departments[k].name
  }
}

=== FILE: scoreboards.dfy ===
/** The two leaderboards: citizens by points, and technicians by completed
    and pending work. The technician board is the same query in the
    administrator's and the technician's controllers. */
module Scoreboards {
  import opened Wrappers
  import opened Collections
  import opened Entities

  /** A row of the citizens' board: `new { u.Name, u.Email, u.Points, u.BadgeLevel }`. */
  datatype CitizenRow = CitizenRow(name: string, email: string, points: int, badgeLevel: Option<string>)

  function CitizenRowOf(u: User): CitizenRow {
    CitizenRow(u.name, u.email, u.points, u.badgeLevel)
  }

  /** The rows of the users whose role is "User", in table order. */
  function CitizenRows(us: seq<User>): seq<CitizenRow> {
    SelectWhere(us, (u: User) => u.role == UserRole, CitizenRowOf)
  }

  /** The rows are exactly those of the citizens: technicians, managers and
      administrators never appear. */
  lemma CitizenRowsMeaning(us: seq<User>, row: CitizenRow)
    ensures row in CitizenRows(us) <==> exists k :: 0 <= k < |us| && us[k].role == UserRole && row == CitizenRowOf(us[k])
  {
    SelectWhereMembers(us, (u: User) => u.role == UserRole, CitizenRowOf, row);
  }

  /** `OrderByDescending(u => u.Points)`. */
  function MorePoints(a: CitizenRow, b: CitizenRow): bool {
    a.points >= b.points
  }

  lemma MorePointsIsTotalPreorder()
    ensures TotalPreorder(MorePoints)
  {
  }

  /** `Scoreboard`: the citizens, most points first. */
  function CitizenScoreboard(us: seq<User>): (r: seq<CitizenRow>)
    ensures multiset(r) == multiset(CitizenRows(us))
    ensures forall i, j :: 0 <= i < j < |r| ==> r[i].points >= r[j].points
  {
    MorePointsIsTotalPreorder();
    SortBy(CitizenRows(us), MorePoints)
  }

  /** A row of the technicians' board. */
  datatype TechnicianRow = TechnicianRow(name: string, email: string, departmentName: string, completed: nat, pending: nat)

  /** `u.Department != null ? u.Department.Name : "Unassigned"`. */
  function DepartmentLabel(departments: seq<Department>, departmentId: Option<int>): string {
    match departmentId
    case None => "Unassigned"
    case Some(id) =>
      match FirstIndex(departments, (d: Department) => d.departmentId == id)
      case None => "Unassigned"
      case Some(k) => departments[k].name
  }

  /** How many complaints assigned to `tech` are Fixed. */
  function Completed(cs: seq<Complaint>, tech: int): nat {
    Count(cs, (c: Complaint) => c.assignedToUserId == Some(tech) && c.status == Fixed)
  }

  /** The pending column is the same count as the assignment gate and the
      delete guard use. */
  function TechnicianRowOf(departments: seq<Department>, cs: seq<Complaint>, u: User): TechnicianRow {
    TechnicianRow(u.name, u.email, DepartmentLabel(departments, u.departmentId), Completed(cs, u.userId), OpenWorkload(cs, u.userId))
  }

  /** The rows of the users whose role is "Technician", in table order. */
  function TechnicianRows(departments: seq<Department>, cs: seq<Complaint>, us: seq<User>): seq<TechnicianRow> {
    SelectWhere(us, (u: User) => u.role == TechnicianRole, (u: User) => TechnicianRowOf(departments, cs, u))
  }

  /** The rows are exactly those of the technicians. */
  lemma TechnicianRowsMeaning(departments: seq<Department>, cs: seq<Complaint>, us: seq<User>, row: TechnicianRow)
    ensures row in TechnicianRows(departments, cs, us)
            <==> exists k :: 0 <= k < |us| && us[k].role == TechnicianRole && row == TechnicianRowOf(departments, cs, us[k])
  {
    SelectWhereMembers(us, (u: User) => u.role == TechnicianRole, (u: User) => TechnicianRowOf(departments, cs, u), row);
  }

  /** `OrderByDescending(u => u.CompletedTasks).ThenBy(u => u.PendingTasks)`. */
  function MoreCompleted(a: TechnicianRow, b: TechnicianRow): bool {
    a.completed > b.completed || (a.completed == b.completed && a.pending <= b.pending)
  }

  lemma MoreCompletedIsTotalPreorder()
    ensures TotalPreorder(MoreCompleted)
  {
  }

  /** `TechnicianScoreboard`: the technicians, most completed complaints
      first, and among equals the fewest pending first. */
  function TechnicianScoreboard(departments: seq<Department>, cs: seq<Complaint>, us: seq<User>): (r: seq<TechnicianRow>)
    ensures multiset(r) == multiset(TechnicianRows(departments, cs, us))
    ensures forall i, j :: 0 <= i < j < |r| ==>
              r[i].completed > r[j].completed || (r[i].completed == r[j].completed && r[i].pending <= r[j].pending)
  {
    MoreCompletedIsTotalPreorder();
    SortBy(TechnicianRows(departments, cs, us), MoreCompleted)
  }
}

=== FILE: seed.dfy ===
/** The database schema's fixed part: the badge, department and routing
    rows it seeds, and the delete behaviour of each relationship. */
module Seed {
  import opened Wrappers
  import opened Collections
  import opened Entities
  import opened Badges
  import opened Routing

  const BadgeSeed: seq<Badge> := [
    Badge(1, "Bronze", 10),
    Badge(2, "Silver", 30),
    Badge(3, "Gold", 60),
    Badge(4, "Platinum", 100),
    Badge(5, "Diamond", 150)
  ]

  const DepartmentSeed: seq<Department> := [
    Department(1, "Public Works", "publicworks@city.gov", Some("Handles infrastructure issues"), true),
    Department(2, "Traffic Management", "traffic@city.gov", Some("Manages traffic signals and road safety"), true),
    Department(3, "Utilities", "utilities@city.gov", Some("Water, sewer, and electrical issues"), true)
  ]

  const MappingSeed: seq<Mapping> := [
    Mapping(1, "Pothole", 1, true),
    Mapping(2, "Streetlight", 1, true),
    Mapping(3, "Traffic Signal", 2, true),
    Mapping(4, "Water Disposal", 3, true),
    Mapping(5, "Sewer Lids", 3, true),
    Mapping(6, "Bridges", 1, true)
  ]

  /** The seeded thresholds rise strictly and are all positive, so every level is reachable. */
  lemma SeedThresholds()
    ensures forall i, j :: 0 <= i < j < |BadgeSeed| ==> 0 < BadgeSeed[i].pointsRequired < BadgeSeed[j].pointsRequired
  {
    var b := BadgeSeed;
    assert b[0].pointsRequired == 10 && b[1].pointsRequired == 30 && b[2].pointsRequired == 60;
    assert b[3].pointsRequired == 100 && b[4].pointsRequired == 150;
  }

  /** The seeded table is already in threshold order, so the badge query
      returns it as seeded. */
  lemma SeedOrdered()
    ensures Ordered(BadgeSeed) == BadgeSeed
  {
    SeedThresholds();
    OrderedAscending(BadgeSeed);
  }

  /** The badges the seeded table gives: Bronze below 30 points (the floor
      is also Bronze, so 0 and 10 points look alike), Silver from 30, Gold
      from 60, Platinum from 100 and Diamond from 150 upwards. */
  lemma SeedBadgeLevels(points: int)
    ensures BadgeFor(BadgeSeed, points) ==
      if points < 30 then "Bronze"
      else if points < 60 then "Silver"
      else if points < 100 then "Gold"
      else if points < 150 then "Platinum"
      else "Diamond"
  {
    SeedThresholds();
    var b := BadgeSeed;
    assert b[0].levelName == "Bronze" && b[1].levelName == "Silver" && b[2].levelName == "Gold";
    assert b[3].levelName == "Platinum" && b[4].levelName == "Diamond";
    BadgeForIsLastReached(b, points);
  }

  /** Every seeded label routes to its own seeded mapping, and so to the
      department the table lists beside it: Pothole, Streetlight and Bridges
      to 1, Traffic Signal to 2, Water Disposal and Sewer Lids to 3. */
  lemma SeedRouting(k: nat)
    requires k < |MappingSeed|
    ensures Route(MappingSeed, MappingSeed[k].problemType) == Some(MappingSeed[k])
    ensures Route(MappingSeed, MappingSeed[k].problemType).value.departmentId in {1, 2, 3}
  {
    SeedMappingsConsistent();
    RouteFindsUnique(MappingSeed, k);
  }

  /** A label outside the seeded table does not route at all. */
  lemma SeedRoutingMisses(problemType: string)
    ensures problemType !in {"Pothole", "Streetlight", "Traffic Signal", "Water Disposal", "Sewer Lids", "Bridges"} ==>
      Route(MappingSeed, problemType).None?
  {
    var labels := seq(|MappingSeed|, k requires 0 <= k < |MappingSeed| => MappingSeed[k].problemType);
    assert labels == ["Pothole", "Streetlight", "Traffic Signal", "Water Disposal", "Sewer Lids", "Bridges"];
  }

  /** The seeded labels are pairwise distinct, so at most one mapping can
      match a label, and every mapping names a seeded department. */
  lemma SeedMappingsConsistent()
    ensures forall i, j :: 0 <= i < j < |MappingSeed| ==> MappingSeed[i].problemType != MappingSeed[j].problemType
    ensures forall i :: 0 <= i < |MappingSeed| ==> MappingSeed[i].departmentId in {1, 2, 3}
    ensures forall k :: 0 <= k < |DepartmentSeed| ==> DepartmentSeed[k].departmentId == k + 1
  {
    var m := MappingSeed;
    assert m[0].problemType == "Pothole" && m[1].problemType == "Streetlight" && m[2].problemType == "Traffic Signal";
    assert m[3].problemType == "Water Disposal" && m[4].problemType == "Sewer Lids" && m[5].problemType == "Bridges";
  }

  /** The department names a routed complaint's system comment quotes. */
  lemma SeedDepartmentNames()
    ensures DepartmentName(DepartmentSeed, 1) == "Public Works"
    ensures DepartmentName(DepartmentSeed, 2) == "Traffic Management"
    ensures DepartmentName(DepartmentSeed, 3) == "Utilities"
    ensures forall id :: id !in {1, 2, 3} ==> DepartmentName(DepartmentSeed, id) == "Unknown"
  {
  }

  /** The tables of the schema. */
  datatype Table =
    | Users | Complaints | Comments | CommentAttachments | ComplaintRatings
    | Departments | ProblemTypeMappings | ComplaintAssignments | TechnicianPhotos

  /** What deleting a principal row does to the rows that refer to it:
      delete them too, or refuse the delete while they exist. A foreign key
      created without a referential action gets SQL Server's NO ACTION,
      which also refuses the delete while dependent rows exist. */
  datatype DeleteBehavior = Cascade | Restrict | NoAction

  /** The behaviours that block the deletion of a principal row with dependents. */
  predicate Blocks(b: DeleteBehavior) {
    b != Cascade
  }

  datatype Relationship = Relationship(principal: Table, dependent: Table, foreignKey: string, onDelete: DeleteBehavior)

  /** The relationships the model builder configures, in its order. */
  const Configured: seq<Relationship> := [
    Relationship(Users, Complaints, "UserId", Cascade),
    Relationship(Users, Complaints, "AssignedToUserId", Restrict),
    Relationship(Complaints, Comments, "ComplaintId", Cascade),
    Relationship(Comments, CommentAttachments, "CommentId", Cascade),
    Relationship(Complaints, ComplaintRatings, "ComplaintId", Restrict),
    Relationship(Users, ComplaintRatings, "UserId", Restrict),
    Relationship(Departments, ProblemTypeMappings, "DepartmentId", Cascade),
    Relationship(Departments, Complaints, "DepartmentId", Restrict),
    Relationship(Complaints, ComplaintAssignments, "ComplaintId", Cascade),
    Relationship(Users, ComplaintAssignments, "AssignedByUserId", Restrict),
    Relationship(Complaints, TechnicianPhotos, "ComplaintId", Cascade)
  ]

  /** The three foreign keys the migration creates by convention, with no
      referential action. */
  const Conventional: seq<Relationship> := [
    Relationship(Departments, ComplaintAssignments, "DepartmentId", NoAction),
    Relationship(Users, ComplaintAssignments, "AssignedToUserId", NoAction),
    Relationship(Departments, Users, "DepartmentId", NoAction)
  ]

  /** Every relationship of the schema. */
  const Relationships: seq<Relationship> := Configured + Conventional

  /** The dependent tables of the relationships `rs[i..]` from `t` whose
      delete behaviour is `b`, in configuration order. */
  function DependentsFrom(rs: seq<Relationship>, i: nat, t: Table, b: DeleteBehavior): seq<Table>
    decreases |rs| - i
  {
    if i >= |rs| then []
    else (if rs[i].principal == t && rs[i].onDelete == b then [rs[i].dependent] else []) + DependentsFrom(rs, i + 1, t, b)
  }

  /** The dependent tables of the relationships in `rs` from `t` whose delete
      behaviour is `b`, in configuration order. */
  function Dependents(rs: seq<Relationship>, t: Table, b: DeleteBehavior): seq<Table> {
    DependentsFrom(rs, 0, t, b)
  }

  /** `DependentsFrom` collects exactly the dependents of the matching relationships from `i` on. */
  lemma {:induction false} DependentsFromMeaning(rs: seq<Relationship>, i: nat, t: Table, b: DeleteBehavior, d: Table)
    ensures d in DependentsFrom(rs, i, t, b) <==>
              exists k :: i <= k < |rs| && rs[k].principal == t && rs[k].dependent == d && rs[k].onDelete == b
    decreases |rs| - i
  {
    if i < |rs| {
      DependentsFromMeaning(rs, i + 1, t, b, d);
    }
  }

  /** Collecting over two lists of relationships, one after the other. */
  lemma {:induction false} DependentsFromAppend(a: seq<Relationship>, c: seq<Relationship>, i: nat, t: Table, b: DeleteBehavior)
    requires i <= |a|
    ensures DependentsFrom(a + c, i, t, b) == DependentsFrom(a, i, t, b) + DependentsFrom(c, 0, t, b)
    decreases |a| - i
  {
    if i < |a| {
      DependentsFromAppend(a, c, i + 1, t, b);
      assert (a + c)[i] == a[i];
    } else {
      DependentsFromShift(a, c, 0, t, b);
    }
  }

  /** Collecting over `a + c` from past the end of `a` is collecting over `c`. */
  lemma {:induction false} DependentsFromShift(a: seq<Relationship>, c: seq<Relationship>, j: nat, t: Table, b: DeleteBehavior)
    ensures DependentsFrom(a + c, |a| + j, t, b) == DependentsFrom(c, j, t, b)
    decreases |c| - j
  {
    var ac := a + c;
    if j < |c| {
      DependentsFromShift(a, c, j + 1, t, b);
      assert |a| + j < |ac| && ac[|a| + j] == c[j];
      assert DependentsFrom(ac, |a| + j + 1, t, b) == DependentsFrom(c, j + 1, t, b);
    } else {
      assert |a| + j >= |ac|;
    }
  }

  /** The dependents of the whole schema: the configured ones, then the
      conventional ones. */
  lemma SchemaDependents(t: Table, b: DeleteBehavior)
    ensures Dependents(Relationships, t, b) == Dependents(Configured, t, b) + Dependents(Conventional, t, b)
  {
    DependentsFromAppend(Configured, Conventional, 0, t, b);
  }

  /** `Dependents` collects exactly the dependents of the matching relationships. */
  lemma DependentsMeaning(rs: seq<Relationship>, t: Table, b: DeleteBehavior, d: Table)
    ensures d in Dependents(rs, t, b) <==> exists k :: 0 <= k < |rs| && rs[k].principal == t
                                             && rs[k].dependent == d && rs[k].onDelete == b
  {
    DependentsFromMeaning(rs, 0, t, b, d);
  }

  /** Deleting a complaint takes its comments, assignment history and
      technician photos with it but is blocked by its rating. */
  lemma ComplaintDeleteBehavior()
    ensures Dependents(Relationships, Complaints, Cascade) == [Comments, ComplaintAssignments, TechnicianPhotos]
    ensures Dependents(Relationships, Complaints, Restrict) == [ComplaintRatings]
    ensures Dependents(Relationships, Complaints, NoAction) == []
  {
    SchemaDependents(Complaints, Cascade);
    SchemaDependents(Complaints, Restrict);
    SchemaDependents(Complaints, NoAction);
  }

  /** Deleting a comment takes its attachments and nothing blocks it. */
  lemma CommentDeleteBehavior()
    ensures Dependents(Relationships, Comments, Cascade) == [CommentAttachments]
    ensures Dependents(Relationships, Comments, Restrict) == []
    ensures Dependents(Relationships, Comments, NoAction) == []
  {
    SchemaDependents(Comments, Cascade);
    SchemaDependents(Comments, Restrict);
    SchemaDependents(Comments, NoAction);
  }

  /** Deleting a user takes the complaints they reported, but is blocked by
      complaints assigned to them, their ratings, the assignment records
      they made and the assignment records that name them as technician. */
  lemma UserDeleteBehavior()
    ensures Dependents(Relationships, Users, Cascade) == [Complaints]
    ensures Dependents(Relationships, Users, Restrict) == [Complaints, ComplaintRatings, ComplaintAssignments]
    ensures Dependents(Relationships, Users, NoAction) == [ComplaintAssignments]
  {
    SchemaDependents(Users, Cascade);
    SchemaDependents(Users, Restrict);
    SchemaDependents(Users, NoAction);
  }

  /** Deleting a department takes its routing entries and is blocked by the
      complaints routed to it, the assignment records naming it and the
      users that belong to it. */
  lemma DepartmentDeleteBehavior()
    ensures Dependents(Relationships, Departments, Cascade) == [ProblemTypeMappings]
    ensures Dependents(Relationships, Departments, Restrict) == [Complaints]
    ensures Dependents(Relationships, Departments, NoAction) == [ComplaintAssignments, Users]
  {
    SchemaDependents(Departments, Cascade);
    SchemaDependents(Departments, Restrict);
    SchemaDependents(Departments, NoAction);
  }

  /** Every relationship that does not cascade blocks the deletion of its
      principal: the only deletions that succeed with dependents present are
      the cascading ones. */
  lemma {:induction false} BlockingRelationships(t: Table, d: Table)
    ensures (d in Dependents(Relationships, t, Restrict) || d in Dependents(Relationships, t, NoAction)) <==>
              exists k :: 0 <= k < |Relationships| && Relationships[k].principal == t && Relationships[k].dependent == d
                          && Blocks(Relationships[k].onDelete)
  {
    DependentsMeaning(Relationships, t, Restrict, d);
    DependentsMeaning(Relationships, t, NoAction, d);
  }
}

=== FILE: store.dfy ===
/** The database context: one table per entity set the controllers touch,
    and the consistency every action keeps. Identity keys come from one
    counter, so a row inserted by an action carries a key no earlier row
    has. */
module Store {
  import opened Wrappers
  import opened Collections
  import opened Entities
  import opened Badges
  import opened Ledger
  import opened Seed

  /** The contents of every table at one moment. */
  datatype Tables = Tables(
    users: seq<User>,
    complaints: seq<Complaint>,
    assignments: seq<Assignment>,
    comments: seq<Comment>,
    attachments: seq<Attachment>,
    ratings: seq<Rating>,
    photos: seq<Photo>,
    badges: seq<Badge>,
    departments: seq<Department>,
    mappings: seq<Mapping>,
    nextId: int)

  /** What one action leaves behind: the tables after it and its answer. */
  datatype Step = Step(tables: Tables, outcome: Outcome)

  /** The freshly migrated database: the seeded reference tables, no rows
      anywhere else. */
  const Initial: Tables := Tables([], [], [], [], [], [], [], BadgeSeed, DepartmentSeed, MappingSeed, 1)

  /** Every key the tables hold, or refer to, was handed out before. */
  predicate KeysIssued(t: Tables) {
    && (forall k :: 0 <= k < |t.users| ==> t.users[k].userId < t.nextId)
    && (forall k :: 0 <= k < |t.complaints| ==> t.complaints[k].complaintId < t.nextId)
    && (forall k :: 0 <= k < |t.assignments| ==> t.assignments[k].complaintId < t.nextId)
    && (forall k :: 0 <= k < |t.comments| ==> t.comments[k].commentId < t.nextId)
    && (forall k :: 0 <= k < |t.attachments| ==> t.attachments[k].commentId < t.nextId)
    && (forall k :: 0 <= k < |t.ratings| ==> t.ratings[k].complaintId < t.nextId)
    && (forall k :: 0 <= k < |t.photos| ==> t.photos[k].complaintId < t.nextId)
  }

  predicate DistinctComplaintIds(cs: seq<Complaint>) {
    forall i, j :: 0 <= i < j < |cs| ==> cs[i].complaintId != cs[j].complaintId
  }

  /** No two users share an e-mail address. */
  predicate UniqueEmails(us: seq<User>) {
    forall i, j :: 0 <= i < j < |us| ==> us[i].email != us[j].email
  }

  /** The unique index on the rating's ComplaintId: at most one rating per complaint. */
  predicate OneRatingPerComplaint(rs: seq<Rating>) {
    forall i, j :: 0 <= i < j < |rs| ==> rs[i].complaintId != rs[j].complaintId
  }

  /** Complaint `complaintId` exists and was reported by `userId`. */
  predicate Authored(cs: seq<Complaint>, complaintId: int, userId: int) {
    exists k :: 0 <= k < |cs| && cs[k].complaintId == complaintId && cs[k].userId == userId
  }

  /** Every rating has a score from 1 to 5 and was given by the reporter of an existing complaint. */
  predicate RatingsByReporters(rs: seq<Rating>, cs: seq<Complaint>) {
    forall i :: 0 <= i < |rs| ==> 1 <= rs[i].score <= 5 && Authored(cs, rs[i].complaintId, rs[i].userId)
  }

  /** Every stored badge is the badge the user's points earn. */
  predicate BadgesAgree(us: seq<User>, badges: seq<Badge>) {
    forall i :: 0 <= i < |us| ==> us[i].badgeLevel == Some(BadgeFor(Ordered(badges), us[i].points))
  }

  /** Every threshold lies above zero, so a reporter with no points has the floor badge. */
  predicate ThresholdsPositive(badges: seq<Badge>) {
    forall i :: 0 <= i < |badges| ==> badges[i].pointsRequired > 0
  }

  ghost predicate Consistent(t: Tables) {
    && KeysIssued(t)
    && DistinctComplaintIds(t.complaints)
    && DistinctUserIds(t.users)
    && UniqueEmails(t.users)
    && OneActivePerComplaint(t.assignments)
    && OneRatingPerComplaint(t.ratings)
    && RatingsByReporters(t.ratings, t.complaints)
    && BadgesAgree(t.users, t.badges)
    && ThresholdsPositive(t.badges)
  }

  /** What no action changes: the badge, department and mapping tables stay
      as seeded, and the key counter never goes back. */
  predicate ReferenceKept(t: Tables, t': Tables) {
    t'.badges == t.badges && t'.departments == t.departments && t'.mappings == t.mappings && t.nextId <= t'.nextId
  }

  /** With positive thresholds no badge is reached at zero points: a new
      account's "Bronze" is the badge its points earn. */
  lemma {:induction false} FloorAtZero(badges: seq<Badge>)
    requires ThresholdsPositive(badges)
    ensures BadgeFor(Ordered(badges), 0) == Floor
  {
    var o := Ordered(badges);
    assert multiset(o) == multiset(badges);
    forall i | 0 <= i < |o| ensures 0 < o[i].pointsRequired {
      assert o[i] in multiset(badges);
      assert o[i] in badges;
      var j :| 0 <= j < |badges| && badges[j] == o[i];
    }
    assert forall i :: 0 <= i < |o| ==> 0 < o[i].pointsRequired;
    BadgeForIsLastReached(o, 0);
  }

  /** The freshly migrated database is consistent. */
  lemma InitialConsistent()
    ensures Consistent(Initial)
  {
    SeedThresholds();
  }

  /** Two complaint lists that agree on every complaint's key and reporter. */
  predicate SameKeys(cs: seq<Complaint>, cs': seq<Complaint>) {
    |cs| == |cs'| && forall k :: 0 <= k < |cs| ==> cs'[k].complaintId == cs[k].complaintId && cs'[k].userId == cs[k].userId
  }

  /** Editing complaints in place, without touching their keys or reporters,
      keeps the tables consistent. */
  lemma {:induction false} EditComplaintsConsistent(t: Tables, cs': seq<Complaint>)
    requires Consistent(t) && SameKeys(t.complaints, cs')
    ensures Consistent(t.(complaints := cs'))
  {
    forall i | 0 <= i < |t.ratings| ensures Authored(cs', t.ratings[i].complaintId, t.ratings[i].userId) {
      var k :| 0 <= k < |t.complaints| && t.complaints[k].complaintId == t.ratings[i].complaintId
               && t.complaints[k].userId == t.ratings[i].userId;
      assert cs'[k].complaintId == t.ratings[i].complaintId;
    }
  }

  /** Appending a complaint under the next key keeps the tables consistent. */
  lemma {:induction false} AddComplaintConsistent(t: Tables, c: Complaint)
    requires Consistent(t) && c.complaintId == t.nextId
    ensures Consistent(t.(complaints := t.complaints + [c], nextId := t.nextId + 1))
  {
    var cs := t.complaints + [c];
    forall i | 0 <= i < |t.ratings| ensures Authored(cs, t.ratings[i].complaintId, t.ratings[i].userId) {
      var k :| 0 <= k < |t.complaints| && t.complaints[k].complaintId == t.ratings[i].complaintId
               && t.complaints[k].userId == t.ratings[i].userId;
      assert cs[k] == t.complaints[k];
    }
  }

  /** A rating of an existing complaint was given by that complaint's reporter. */
  lemma RatedByReporter(t: Tables, i: nat, k: nat)
    requires Consistent(t) && i < |t.ratings| && k < |t.complaints|
    ensures t.ratings[i].complaintId == t.complaints[k].complaintId ==> t.ratings[i].userId == t.complaints[k].userId
  {
    if t.ratings[i].complaintId == t.complaints[k].complaintId {
      var k' :| 0 <= k' < |t.complaints| && t.complaints[k'].complaintId == t.ratings[i].complaintId
                && t.complaints[k'].userId == t.ratings[i].userId;
      assert k' == k;
    }
  }

  /** Replacing the ratings by ratings with issued keys, one per complaint,
      each by the complaint's reporter, keeps the tables consistent. */
  lemma EditRatingsConsistent(t: Tables, rs: seq<Rating>)
    requires Consistent(t)
    requires forall k :: 0 <= k < |rs| ==> rs[k].complaintId < t.nextId
    requires OneRatingPerComplaint(rs) && RatingsByReporters(rs, t.complaints)
    ensures Consistent(t.(ratings := rs))
  {
  }

  /** Replacing the users by rows with the same e-mail addresses whose badges
      agree with their points keeps the tables consistent. */
  lemma EditUsersConsistent(t: Tables, us: seq<User>)
    requires Consistent(t) && |us| == |t.users|
    requires forall k :: 0 <= k < |us| ==> us[k].email == t.users[k].email && us[k].userId == t.users[k].userId
    requires BadgesAgree(us, t.badges)
    ensures Consistent(t.(users := us))
  {
  }

  /** A comment with a fresh key, added by the status and assignment actions:
      the earlier comments stay as they were, the new one is on the given
      complaint, by the given author and visible to the reporter, and when
      every key was issued by the counter it is the only comment carrying
      its key. Nothing but the comments and the counter changes. */
  function WithComment(t: Tables, complaintId: int, authorId: int, authorName: string, authorRole: string,
                       content: string, now: int): (r: Tables)
    ensures |r.comments| == |t.comments| + 1 && r.comments[..|t.comments|] == t.comments
    ensures var c := r.comments[|t.comments|];
      c.complaintId == complaintId && c.authorId == authorId && c.authorRole == authorRole && c.content == content && c.visibleToUser
    ensures KeysIssued(t) ==> KeysIssued(r) && forall i :: 0 <= i < |r.comments| ==> (r.comments[i].commentId == t.nextId <==> i == |t.comments|)
    ensures r == t.(comments := r.comments, nextId := t.nextId + 1)
  {
    t.(comments := t.comments + [Comment(t.nextId, complaintId, authorId, authorName, authorRole, content, true, now)],
       nextId := t.nextId + 1)
  }

  /** Adding a comment under a fresh key keeps the tables consistent. */
  lemma WithCommentConsistent(t: Tables, complaintId: int, authorId: int, authorName: string, authorRole: string,
                              content: string, now: int)
    requires Consistent(t)
    ensures Consistent(WithComment(t, complaintId, authorId, authorName, authorRole, content, now))
  {
  }

  /** Complaint `k` with a new status and `UpdatedAt` stamped. */
  function WithStatus(t: Tables, k: nat, status: Status, now: int): (r: Tables)
    requires k < |t.complaints|
    ensures SameKeys(t.complaints, r.complaints)
    ensures r.complaints[k].status == status && r.complaints[k].updatedAt == Some(now)
    ensures r.complaints[k].(status := t.complaints[k].status, updatedAt := t.complaints[k].updatedAt) == t.complaints[k]
    ensures r == t.(complaints := t.complaints[k := r.complaints[k]])
  {
    t.(complaints := t.complaints[k := t.complaints[k].(status := status, updatedAt := Some(now))])
  }

  /** The writes of an assignment action: the ledger reassigned to `rec`
      (the complaint's earlier records switched off, `rec` appended) and
      complaint `k` replaced by `c`. */
  function WithAssignment(t: Tables, k: nat, rec: Assignment, c: Complaint): Tables
    requires k < |t.complaints|
  {
    t.(assignments := Reassigned(t.assignments, rec), complaints := t.complaints[k := c])
  }

  /** An assignment of an existing complaint that leaves its key and
      reporter alone keeps the tables consistent, and leaves the complaint
      with exactly one active record, the new one. */
  lemma AssignmentConsistent(t: Tables, k: nat, rec: Assignment, c: Complaint)
    requires Consistent(t) && k < |t.complaints| && rec.isActive
    requires rec.complaintId == t.complaints[k].complaintId
    requires c.complaintId == t.complaints[k].complaintId && c.userId == t.complaints[k].userId
    ensures Consistent(WithAssignment(t, k, rec, c))
    ensures ActiveFor(WithAssignment(t, k, rec, c).assignments, rec.complaintId) == [rec]
  {
    ReassignedHasOneActive(t.assignments, rec);
    EditComplaintsConsistent(t, t.complaints[k := c]);
  }

  /** The text of a status-change comment. */
  function StatusChangeText(from: Status, to: Status): string {
    "Status changed from " + StatusName(from) + " to " + StatusName(to)
  }

  /** A status change with its comment keeps the tables consistent. */
  lemma StatusChangeConsistent(t: Tables, k: nat, status: Status, now: int, complaintId: int, authorId: int,
                               authorName: string, authorRole: string, content: string)
    requires Consistent(t) && k < |t.complaints|
    ensures Consistent(WithComment(WithStatus(t, k, status, now), complaintId, authorId, authorName, authorRole, content, now))
  {
    EditComplaintsConsistent(t, WithStatus(t, k, status, now).complaints);
    WithCommentConsistent(WithStatus(t, k, status, now), complaintId, authorId, authorName, authorRole, content, now);
  }

  /** The `DbContext`: its table fields are what the actions read and write. */
  class Db {
    var users: seq<User>
    var complaints: seq<Complaint>
    var assignments: seq<Assignment>
    var comments: seq<Comment>
    var attachments: seq<Attachment>
    var ratings: seq<Rating>
    var photos: seq<Photo>
    var badges: seq<Badge>
    var departments: seq<Department>
    var mappings: seq<Mapping>
    var nextId: int

    function Contents(): Tables
      reads this
    {
      Tables(users, complaints, assignments, comments, attachments, ratings, photos, badges, departments, mappings, nextId)
    }

    ghost predicate Valid()
      reads this
    {
      Consistent(Contents())
    }

    /** A database as the migrations leave it. */
    constructor()
      ensures Valid() && Contents() == Initial
    {
      users, complaints, assignments, comments, attachments, ratings, photos := [], [], [], [], [], [], [];
      badges, departments, mappings := BadgeSeed, DepartmentSeed, MappingSeed;
      nextId := 1;
      InitialConsistent();
    }

    /** `complaint.Status = status; complaint.UpdatedAt = now` on complaint `k`. */
    method SetStatus(k: nat, status: Status, now: int)
      requires k < |complaints|
      modifies this
      ensures Contents() == WithStatus(old(Contents()), k, status, now)
    {
      complaints := complaints[k := complaints[k].(status := status, updatedAt := Some(now))];
    }

    /** Saves an assignment of complaint `k`: the ledger with the complaint's
        earlier records switched off, as the caller's foreach left it, plus
        the new record, and the complaint as updated. */
    method SaveAssignment(ledger: seq<Assignment>, k: nat, rec: Assignment, c: Complaint)
      requires k < |complaints| && ledger == DeactivateAll(assignments, rec.complaintId)
      modifies this
      ensures Contents() == WithAssignment(old(Contents()), k, rec, c)
    {
      assignments, complaints := ledger + [rec], complaints[k := c];
    }

    /** `Comments.Add` of a comment every reader may see, under a fresh key. */
    method AddComment(complaintId: int, authorId: int, authorName: string, authorRole: string, content: string, now: int)
      modifies this
      ensures Contents() == WithComment(old(Contents()), complaintId, authorId, authorName, authorRole, content, now)
    {
      comments := comments + [Comment(nextId, complaintId, authorId, authorName, authorRole, content, true, now)];
      nextId := nextId + 1;
    }
  }
}

=== FILE: technician_actions.dfy ===
/** The technician's controller: the dashboard of assigned work, photo
    evidence, marking a complaint fixed, and the pool of unassigned work in
    the technician's department. Its scoreboard is the one in Scoreboards. */
module TechnicianActions {
  import opened Wrappers
  import opened Collections
  import opened Entities
  import opened Store

  const WorkInProgressPhoto: string := "WorkInProgress"
  const FixedPhoto: string := "Fixed"

  /** The complaints assigned to `tech`, newest first: the dashboard's list. */
  function AssignedWork(cs: seq<Complaint>, tech: int): (r: seq<Complaint>)
    ensures multiset(r) == multiset(Filter(cs, (c: Complaint) => c.assignedToUserId == Some(tech)))
    ensures forall i, j :: 0 <= i < j < |r| ==> r[i].createdAt >= r[j].createdAt
  {
    NewerFirstIsTotalPreorder();
    SortBy(Filter(cs, (c: Complaint) => c.assignedToUserId == Some(tech)), NewerFirst)
  }

  /** The four counts of the dashboard. */
  datatype DashboardStats = DashboardStats(totalAssigned: nat, pending: nat, inProgress: nat, fixed: nat)

  /** `Dashboard`: the counts over the technician's assigned complaints. The
      total is the number of complaints assigned to the technician, each
      status count the number of those with that status, and the three add
      up to the total. */
  function Dashboard(cs: seq<Complaint>, tech: int): (s: DashboardStats)
    ensures s.totalAssigned == Count(cs, (c: Complaint) => c.assignedToUserId == Some(tech))
    ensures s.pending == Count(cs, (c: Complaint) => c.assignedToUserId == Some(tech) && c.status == Pending)
    ensures s.inProgress == Count(cs, (c: Complaint) => c.assignedToUserId == Some(tech) && c.status == InProgress)
    ensures s.fixed == Count(cs, (c: Complaint) => c.assignedToUserId == Some(tech) && c.status == Fixed)
    ensures s.pending + s.inProgress + s.fixed == s.totalAssigned
  {
    var work := AssignedWork(cs, tech);
    assert |work| == |Filter(cs, (c: Complaint) => c.assignedToUserId == Some(tech))| by {
      assert |multiset(work)| == |work|;
    }
    StatusCountsPartition(work);
    var toTech := ((c: Complaint) => c.assignedToUserId == Some(tech));
    SelectionStatusCount(cs, toTech, work, Pending, (c: Complaint) => c.assignedToUserId == Some(tech) && c.status == Pending);
    SelectionStatusCount(cs, toTech, work, InProgress, (c: Complaint) => c.assignedToUserId == Some(tech) && c.status == InProgress);
    SelectionStatusCount(cs, toTech, work, Fixed, (c: Complaint) => c.assignedToUserId == Some(tech) && c.status == Fixed);
    DashboardStats(|work|, CountStatus(work, Pending), CountStatus(work, InProgress), CountStatus(work, Fixed))
  }

  /** `FirstOrDefault(c => c.ComplaintId == id && c.AssignedToUserId == tech)`. */
  function FindAssigned(cs: seq<Complaint>, id: int, tech: int): (r: Option<nat>)
    ensures r.Some? ==> r.value < |cs| && cs[r.value].complaintId == id && cs[r.value].assignedToUserId == Some(tech)
    ensures r.None? <==> forall k :: 0 <= k < |cs| ==> !(cs[k].complaintId == id && cs[k].assignedToUserId == Some(tech))
  {
    FirstIndex(cs, (c: Complaint) => c.complaintId == id && c.assignedToUserId == Some(tech))
  }

  /** `UploadPhotos`: each photo is the path its file is stored under, or
      None when the form field is missing. Both photos are recorded and the
      complaint goes to InProgress, whatever its status was. */
  function PhotosUploaded(t: Tables, tech: int, id: int, workPhoto: Option<string>, fixedPhoto: Option<string>, now: int): (r: Step)
    ensures r.outcome.Rejected? ==> r.tables == t
    ensures ReferenceKept(t, r.tables)
    ensures r.outcome.Ok? ==> |r.tables.photos| == |t.photos| + 2 && r.tables.users == t.users
  {
    match FindAssigned(t.complaints, id, tech)
    case None => Step(t, Rejected(NotFoundOrNotAssigned))
    case Some(k) =>
      if workPhoto.None? || fixedPhoto.None? then Step(t, Rejected(PhotosRequired))
      else Step(WithStatus(t, k, InProgress, now).(photos := t.photos + [Photo(id, WorkInProgressPhoto, workPhoto.value, now),
                                                                          Photo(id, FixedPhoto, fixedPhoto.value, now)]), Ok)
  }

  /** A complaint missing or not assigned to the caller, or a missing photo,
      refuses the upload with no change. Otherwise exactly two photo records
      are appended, typed "WorkInProgress" and "Fixed", and the complaint
      becomes InProgress, even when it was Fixed. */
  lemma PhotosUploadedEffects(t: Tables, tech: int, id: int, workPhoto: Option<string>, fixedPhoto: Option<string>, now: int)
    ensures var r := PhotosUploaded(t, tech, id, workPhoto, fixedPhoto, now);
      && (r.outcome.Rejected? ==> r.tables == t)
      && (FindAssigned(t.complaints, id, tech).None? ==> r.outcome == Rejected(NotFoundOrNotAssigned))
      && (FindAssigned(t.complaints, id, tech).Some? ==>
            (r.outcome.Ok? <==> workPhoto.Some? && fixedPhoto.Some?))
    ensures var r := PhotosUploaded(t, tech, id, workPhoto, fixedPhoto, now);
      r.outcome.Ok? ==>
        var k := FindAssigned(t.complaints, id, tech).value;
        && r.tables.photos == t.photos + [Photo(id, WorkInProgressPhoto, workPhoto.value, now), Photo(id, FixedPhoto, fixedPhoto.value, now)]
        && r.tables.complaints == t.complaints[k := t.complaints[k].(status := InProgress, updatedAt := Some(now))]
        && r.tables == t.(photos := r.tables.photos, complaints := r.tables.complaints)
  {
  }

  lemma PhotosUploadedConsistent(t: Tables, tech: int, id: int, workPhoto: Option<string>, fixedPhoto: Option<string>, now: int)
    requires Consistent(t)
    ensures Consistent(PhotosUploaded(t, tech, id, workPhoto, fixedPhoto, now).tables)
  {
    match FindAssigned(t.complaints, id, tech)
    case None =>
    case Some(k) =>
      EditComplaintsConsistent(t, WithStatus(t, k, InProgress, now).complaints);
  }

  /** `UploadPhotos` run against the database. */
  method UploadPhotos(db: Db, tech: int, id: int, workPhoto: Option<string>, fixedPhoto: Option<string>, now: int)
    returns (outcome: Outcome)
    requires db.Valid()
    modifies db
    ensures db.Valid()
    ensures Step(db.Contents(), outcome) == PhotosUploaded(old(db.Contents()), tech, id, workPhoto, fixedPhoto, now)
  {
    PhotosUploadedConsistent(db.Contents(), tech, id, workPhoto, fixedPhoto, now);
    var found := FindAssigned(db.complaints, id, tech);
    if found.None? {
      return Rejected(NotFoundOrNotAssigned);
    }
    if workPhoto.None? || fixedPhoto.None? {
      return Rejected(PhotosRequired);
    }
    db.photos := db.photos + [Photo(id, WorkInProgressPhoto, workPhoto.value, now)];
    db.photos := db.photos + [Photo(id, FixedPhoto, fixedPhoto.value, now)];
    db.SetStatus(found.value, InProgress, now);
    outcome := Ok;
  }

  /** How many photo records complaint `id` has. */
  function PhotoCount(ps: seq<Photo>, id: int): nat {
    Count(ps, (p: Photo) => p.complaintId == id)
  }

  /** `MarkAsFixed`: the complaint must be assigned to the caller and carry at
      least two photos; then it is Fixed, with no transition check. */
  function MarkedFixed(t: Tables, tech: int, id: int, now: int): (r: Step)
    ensures r.outcome.Rejected? ==> r.tables == t
    ensures ReferenceKept(t, r.tables)
    ensures r.outcome.Ok? ==> PhotoCount(t.photos, id) >= 2 && r.tables == t.(complaints := r.tables.complaints)
  {
    match FindAssigned(t.complaints, id, tech)
    case None => Step(t, Rejected(NotFoundOrNotAssigned))
    case Some(k) =>
      if PhotoCount(t.photos, id) < 2 then Step(t, Rejected(PhotosMissing))
      else Step(WithStatus(t, k, Fixed, now), Ok)
  }

  /** The call succeeds exactly when the complaint is assigned to the caller
      and has two or more photos; a refusal changes nothing; a success only
      sets the status to Fixed and stamps `UpdatedAt`. */
  lemma MarkedFixedEffects(t: Tables, tech: int, id: int, now: int)
    ensures var r := MarkedFixed(t, tech, id, now);
      && (r.outcome.Rejected? ==> r.tables == t)
      && (FindAssigned(t.complaints, id, tech).None? ==> r.outcome == Rejected(NotFoundOrNotAssigned))
      && (FindAssigned(t.complaints, id, tech).Some? ==>
            && (r.outcome.Ok? <==> PhotoCount(t.photos, id) >= 2)
            && (r.outcome.Rejected? ==> r.outcome == Rejected(PhotosMissing)))
    ensures var r := MarkedFixed(t, tech, id, now);
      r.outcome.Ok? ==>
        var k := FindAssigned(t.complaints, id, tech).value;
        r.tables == t.(complaints := t.complaints[k := t.complaints[k].(status := Fixed, updatedAt := Some(now))])
  {
  }

  lemma MarkedFixedConsistent(t: Tables, tech: int, id: int, now: int)
    requires Consistent(t)
    ensures Consistent(MarkedFixed(t, tech, id, now).tables)
  {
    match FindAssigned(t.complaints, id, tech)
    case None =>
    case Some(k) =>
      EditComplaintsConsistent(t, WithStatus(t, k, Fixed, now).complaints);
  }

  /** `MarkAsFixed` run against the database. */
  method MarkAsFixed(db: Db, tech: int, id: int, now: int) returns (outcome: Outcome)
    requires db.Valid()
    modifies db
    ensures db.Valid()
    ensures Step(db.Contents(), outcome) == MarkedFixed(old(db.Contents()), tech, id, now)
  {
    MarkedFixedConsistent(db.Contents(), tech, id, now);
    var found := FindAssigned(db.complaints, id, tech);
    if found.None? {
      return Rejected(NotFoundOrNotAssigned);
    }
    var photos := Filter(db.photos, (p: Photo) => p.complaintId == id);
    if |photos| < 2 {
      return Rejected(PhotosMissing);
    }
    db.SetStatus(found.value, Fixed, now);
    outcome := Ok;
  }

  /** After a successful upload the same technician can mark the complaint
      fixed: the upload supplies the two photos MarkAsFixed requires and keeps
      the complaint assigned to them. */
  lemma {:induction false} UploadEnablesFix(t: Tables, tech: int, id: int, workPhoto: Option<string>, fixedPhoto: Option<string>,
                                           now: int, later: int)
    requires PhotosUploaded(t, tech, id, workPhoto, fixedPhoto, now).outcome.Ok?
    ensures var u := PhotosUploaded(t, tech, id, workPhoto, fixedPhoto, now).tables;
      MarkedFixed(u, tech, id, later).outcome.Ok?
  {
    var u := PhotosUploaded(t, tech, id, workPhoto, fixedPhoto, now).tables;
    var k := FindAssigned(t.complaints, id, tech).value;
    assert u.complaints[k].complaintId == id && u.complaints[k].assignedToUserId == Some(tech);
    PhotoCountGrows(t.photos, [Photo(id, WorkInProgressPhoto, workPhoto.value, now), Photo(id, FixedPhoto, fixedPhoto.value, now)], id);
  }

  /** Appending photos of complaint `id` raises its count by their number. */
  lemma PhotoCountGrows(ps: seq<Photo>, added: seq<Photo>, id: int)
    requires forall j :: 0 <= j < |added| ==> added[j].complaintId == id
    ensures PhotoCount(ps + added, id) == PhotoCount(ps, id) + |added|
  {
    var p := (x: Photo) => x.complaintId == id;
    FilterAppend(ps, added, p);
    FilterAll(added, p);
  }

  /** `AvailableWork`: for a technician with a department, the Pending
      complaints of that department nobody is assigned to, newest first; for
      one without a department (or unknown), nothing. */
  function AvailableWork(t: Tables, tech: int): (r: seq<Complaint>)
    ensures forall i :: 0 <= i < |r| ==> r[i] in t.complaints && r[i].assignedToUserId.None? && r[i].status == Pending
  {
    match FindUser(t.users, tech)
    case None => []
    case Some(u) =>
      match t.users[u].departmentId
      case None => []
      case Some(d) =>
        var open := Filter(t.complaints, (c: Complaint) => c.departmentId == Some(d) && c.assignedToUserId.None? && c.status == Pending);
        NewerFirstIsTotalPreorder();
        var r := SortBy(open, NewerFirst);
        assert forall i :: 0 <= i < |r| ==> r[i] in open by {
          forall i | 0 <= i < |r| ensures r[i] in open {
            assert r[i] in multiset(r);
          }
        }
        r
  }

  /** The list holds exactly the open, unassigned Pending complaints of the
      technician's department, newest first; it is empty
      when the technician has no department. */
  lemma AvailableWorkMeaning(t: Tables, tech: int)
    ensures var r := AvailableWork(t, tech);
      && (forall i, j :: 0 <= i < j < |r| ==> r[i].createdAt >= r[j].createdAt)
      && (FindUser(t.users, tech).None? || t.users[FindUser(t.users, tech).value].departmentId.None? ==> r == [])
    ensures var r := AvailableWork(t, tech);
      FindUser(t.users, tech).Some? && t.users[FindUser(t.users, tech).value].departmentId.Some? ==>
        var d := t.users[FindUser(t.users, tech).value].departmentId;
        && multiset(r) == multiset(Filter(t.complaints, (c: Complaint) => c.departmentId == d && c.assignedToUserId.None? && c.status == Pending))
        && forall c :: c in r <==> c in t.complaints && c.departmentId == d && c.assignedToUserId.None? && c.status == Pending
  {
    match FindUser(t.users, tech)
    case None =>
    case Some(u) =>
      match t.users[u].departmentId
      case None =>
      case Some(d) =>
        var f := Filter(t.complaints, (c: Complaint) => c.departmentId == Some(d) && c.assignedToUserId.None? && c.status == Pending);
        FilterMembers(t.complaints, (c: Complaint) => c.departmentId == Some(d) && c.assignedToUserId.None? && c.status == Pending);
        var r := AvailableWork(t, tech);
        assert multiset(r) == multiset(f);
        forall c ensures c in r <==> c in f {
          assert c in r <==> c in multiset(r);
          assert c in f <==> c in multiset(f);
        }
  }
}

=== FILE: text.dfy ===
/** The few string operations of the .NET base library that the controllers
    use on request input: `string.IsNullOrWhiteSpace`, `string.Trim` and the
    lower-casing of a MIME type. */
module Text {

  /** The characters `char.IsWhiteSpace` accepts: the Unicode separators
      (space, line and paragraph separators) plus U+0009..U+000D and U+0085. */
  predicate IsWhiteSpace(c: char) {
    || c == ' '
    || ('\t' <= c <= '\r')
    || c == '\U{0085}' || c == '\U{00A0}' || c == '\U{1680}'
    || ('\U{2000}' <= c <= '\U{200A}')
    || c == '\U{2028}' || c == '\U{2029}' || c == '\U{202F}' || c == '\U{205F}' || c == '\U{3000}'
  }

  /** `string.IsNullOrWhiteSpace`: empty, or whitespace only. A missing form
      value arrives as the empty string in this model. */
  predicate IsBlank(s: string) {
    forall i :: 0 <= i < |s| ==> IsWhiteSpace(s[i])
  }

  /** The number of whitespace characters `s` starts with. */
  function LeadingSpace(s: string): (n: nat)
    ensures n <= |s|
    ensures forall k :: 0 <= k < n ==> IsWhiteSpace(s[k])
    ensures n == |s| || !IsWhiteSpace(s[n])
  {
    if s != [] && IsWhiteSpace(s[0]) then 1 + LeadingSpace(s[1..]) else 0
  }

  /** The length of `s` without its trailing whitespace. */
  function TrailingStart(s: string): (n: nat)
    ensures n <= |s|
    ensures forall k :: n <= k < |s| ==> IsWhiteSpace(s[k])
    ensures n == 0 || !IsWhiteSpace(s[n - 1])
  {
    if s != [] && IsWhiteSpace(s[|s| - 1]) then TrailingStart(s[..|s| - 1]) else |s|
  }

  /** Where the trimmed text ends: past the last non-whitespace character,
      or at its start when there is none. */
  function KeptEnd(s: string): (j: nat)
    ensures LeadingSpace(s) <= j <= |s|
  {
    var i := LeadingSpace(s);
    if i <= TrailingStart(s) then TrailingStart(s) else i
  }

  /** `string.Trim`: the input without its leading and trailing whitespace.
      The result is empty exactly when the input is blank, and otherwise
      starts and ends with a non-whitespace character. */
  function Trim(s: string): (r: string)
    ensures |r| <= |s|
    ensures r == [] <==> IsBlank(s)
    ensures r != [] ==> !IsWhiteSpace(r[0]) && !IsWhiteSpace(r[|r| - 1])
  {
    var i := LeadingSpace(s);
    var j := KeptEnd(s);
    assert i < j ==> 0 < j && i < |s| && j == TrailingStart(s);
    assert !IsBlank(s) ==> i < j by {
      if !IsBlank(s) {
        var p :| 0 <= p < |s| && !IsWhiteSpace(s[p]);
        assert i <= p < TrailingStart(s);
      }
    }
    s[i..j]
  }

  /** `Trim(s)` is the infix `s[i..j]`, and everything outside it is whitespace. */
  predicate TrimmedAt(s: string, i: int, j: int) {
    && 0 <= i <= j <= |s| && Trim(s) == s[i..j]
    && (forall k :: 0 <= k < i ==> IsWhiteSpace(s[k]))
    && (forall k :: j <= k < |s| ==> IsWhiteSpace(s[k]))
  }

  /** What `Trim` removes is whitespace, at the two ends only. */
  lemma TrimIsInfix(s: string)
    ensures exists i, j :: TrimmedAt(s, i, j)
  {
    var i := LeadingSpace(s);
    var j := KeptEnd(s);
    assert TrailingStart(s) <= j;
    assert TrimmedAt(s, i, j);
  }

  /** ASCII lower-casing of one character. */
  function ToLowerChar(c: char): char {
    if 'A' <= c <= 'Z' then (c as int + 32) as char else c
  }

  /** `string.ToLower` restricted to ASCII letters. */
  function ToLower(s: string): (r: string)
    ensures |r| == |s|
  {
    seq(|s|, i requires 0 <= i < |s| => ToLowerChar(s[i]))
  }

  /** No upper-case letter is left after lower-casing; each one becomes its
      lower-case partner (32 code points on) and every other character is
      kept in place. */
  lemma ToLowerMeaning(s: string)
    ensures var r := ToLower(s);
      && (forall i :: 0 <= i < |r| ==> !('A' <= r[i] <= 'Z'))
      && (forall i :: 0 <= i < |s| && 'A' <= s[i] <= 'Z' ==> 'a' <= r[i] <= 'z' && r[i] as int == s[i] as int + 32)
      && (forall i :: 0 <= i < |s| && !('A' <= s[i] <= 'Z') ==> r[i] == s[i])
  {
  }

  /** Lower-casing twice is lower-casing once. */
  lemma ToLowerIdempotent(s: string)
    ensures ToLower(ToLower(s)) == ToLower(s)
  {
  }
}

=== FILE: wrappers.dfy ===
/** Optional values: the nullable columns (`int?`, `string?`, `DateTime?`) of the
    entity classes and the results of lookups that may find nothing. */
module Wrappers {

  datatype Option<+T> = None | Some(value: T) {

    /** The value, or `default` when there is none (the `??` operator). */
    function GetOr(default: T): T {
      match this
      case Some(v) => v
      case None => default
    }
  }
}
